=== FILE: README.md ===
# Simplified content server: Gutenberg ingest, coverage providers and Bibblio export

A Dafny model of three pieces of the content server's Python code. Each is
written as pure functions over strings, sequences and maps.

1. **Project Gutenberg catalog** (`integration/gutenberg.py`). This covers four things:
   - `GutenbergAPI.url_to_mirror_path`: turns a URL from an RDF record into a
     mirror selector and a path in the local mirror.
   - The catalog refresh rule.
   - The `all_books` walk over the catalog archive.
   - The skip rule of `create_missing_books`.

   `GutenbergRDFExtractor.book_in` / `parse_book` are also modelled. They turn
   one RDF graph, given as a sequence of triples, into an edition in a store
   keyed by Gutenberg id.
2. **Coverage providers** (`coverage.py`).
   - `GutenbergEPUBCoverageProvider`: choosing the best EPUB of a book from its
     mirror directory.
   - `GutenbergIllustratedCoverageProvider`: which illustrations are used, the
     renderer command line, and which output files become covers.
3. **Bibblio export** (`bibblio.py`). It covers:
   - The full text of a work, either from a text representation or from an
     EPUB read in spine order.
   - `_shrink_text`: whitespace clean-up, UTF-8 encoding, and the
     200000-byte cap.
   - The distributor filters (`EpubFilter` and its Gutenberg and Feedbooks data).
   - The content-item payload and its timestamps.
   - The bearer-token cache and the credential expiry arithmetic.
   - `process_item`, which maps every failure to a transient coverage failure.

The modules follow that structure:
- Catalog and records: `MirrorPath`, `Catalog`, `RdfExtractor`.
- Coverage providers: `EpubCoverage`, `IllustratedCoverage`.
- Bibblio export: `EpubFilters`, `TextShrink`, `EpubText`, `BibblioApi`, `BibblioExport`.
- Shared helpers: `Wrappers`, `Strings`, `Paths` (posixpath `join`/`split`), and
  `Utf8`, a UTF-8 encoder and decoder after section 3 of RFC 3629.

Effects are parameters, and each one is named where it is used:
- the HTTP reply;
- the token store;
- `os.listdir` and `os.stat` (as maps);
- the renderer launch;
- `BeautifulSoup.get_text`;
- `strptime`;
- running a compiled regular expression.

Times are integers in microseconds, so the 90% credential lifetime is exact.

Where the code and its comments or evident intent disagree, the model follows
the code:
- **Token cache.** `token` uses the cached credential only once it has expired
  (`expires <= utcnow()`). See Findings.
- **Spine filter.** `filter_spine_idrefs` keeps every idref. See Findings.
- **No phrase filter.** Both calls of `_shrink_text` (for a text
  representation and at the end of EPUB extraction) pass no filter class, so
  the Gutenberg and Feedbooks phrase lists never touch exported text
  (`BibblioExport.FullTextIsUnfiltered`).
- **Every failure is transient.** `process_item` catches every exception,
  including the one raised for a disallowed 4xx reply, and records a
  transient failure.
- **Stale `/files/` comment.** The comment on the rule shows
  `/files/8594/8594.txt` becoming `/8/5/9/8594/8494.txt`. The code keeps the
  original file name: `/8/5/9/8594/8594.txt` (`MirrorPath.FilesRuleLayout`).
- **`create_missing_books` stops at the first error.** It does not catch
  per-record errors. An extraction error, or a record file whose name holds no
  `pg<digits>.rdf` match, ends the whole run.

The 200000-byte cut is applied to the encoded bytes, so it can split a
multi-byte character. In the model, `json.dumps` then meets a byte string that
is not UTF-8 and raises, and `BibblioExport.SplitCharacterFailsExport` shows
the export of such a work ending in a transient failure; the same inputs
fail the same way again.

## Model

| member | source | states |
|---|---|---|
| MirrorPath.UrlToMirrorPath | integration/gutenberg.py:77-132 | A host other than www.gutenberg.org or gutenberg.org is rejected. A Gutenberg URL that matches none of the four prefix rules also fails, because no path is assigned. `/files/` and `/dirs/` select the original mirror; `/ebooks/` and `/cache/epub/` select the ebook mirror. |
| MirrorPath.RuleForPrefix | integration/gutenberg.py:86-130 | The rule applied is `/files/`, `/dirs/`, `/ebooks/` or `/cache/epub/` exactly when the path starts with that prefix. |
| MirrorPath.IdSearchFrom | integration/gutenberg.py:69 | The search for `/([0-9]+)` finds a match exactly when some `/` followed by a digit occurs, and it returns the whole digit run after the leftmost such `/`. |
| MirrorPath.EpubId | integration/gutenberg.py:91 | The id found in a path is a non-empty run of digits. It is absent exactly when no `/` is followed by a digit. |
| MirrorPath.FilesRuleLayout | integration/gutenberg.py:87-96 | `/files/{id}/rest` becomes `/`, then each digit of the id but the last as its own directory, then the rest. The original file name is kept. |
| MirrorPath.FilesPathResult | integration/gutenberg.py:91-95 | The `/files/` rewrite replaces the first `/files/` with `/` + the slash-separated leading digits + `/`. |
| MirrorPath.DigitDirectoriesOf | integration/gutenberg.py:92-93 | Joining the digits of an id but the last gives those digits separated by `/`. |
| MirrorPath.FilesRuleResult | integration/gutenberg.py:87-96 | The `/files/` rule yields the original mirror and that rewritten path. |
| MirrorPath.FilesRuleNeedsTwoDigits | integration/gutenberg.py:91-93 | A one-digit id leaves `os.path.join` with no arguments, so the URL fails. |
| MirrorPath.StripRuleResult | integration/gutenberg.py:97-130 | `/dirs/` and `/cache/epub/` have only their first occurrence replaced by `/`, with the original and the ebook mirror respectively. |
| MirrorPath.DirsRuleRestores | integration/gutenberg.py:97-102 | Putting `/dirs` back in front of the `/dirs/` result gives the URL path again. |
| MirrorPath.CacheEpubRuleRestores | integration/gutenberg.py:125-130 | Putting `/cache/epub` back in front of the `/cache/epub/` result gives the URL path again. |
| MirrorPath.EbooksEpubRule | integration/gutenberg.py:103-118 | An `/ebooks/` path containing `.epub` goes to `/{id}/pg{id}.epub` when it contains `noimages`, and to `/{id}/pg{id}-images.epub` otherwise. |
| MirrorPath.EbooksOtherRule | integration/gutenberg.py:119-124 | Any other `/ebooks/` path has every `/ebooks/` replaced by `/{id}/pg`. |
| Catalog.NeedsRefreshMonotone | integration/gutenberg.py:149-154 | A missing catalog always needs refreshing. An existing one needs it once it is a day old, and a catalog that is due stays due as it ages. |
| Catalog.CatalogReadFresh | integration/gutenberg.py:134-160 | `all_books` walks the downloaded archive exactly when the file is missing or a day old, and the file it walks is never a day old. Walking again less than a day after that file was written downloads nothing and reads the same catalog. |
| Catalog.IdMatchAt | integration/gutenberg.py:48 | A match of `pg([0-9]+).rdf` at a position captures a non-empty digit run. |
| Catalog.IdSearchFromSpec | integration/gutenberg.py:48 | The search returns the leftmost match, and fails exactly when no position matches. |
| Catalog.FilenameId | integration/gutenberg.py:164-166 | The id taken from an archive member name is a non-empty digit run. |
| Catalog.FilenameIdOfRecordName | integration/gutenberg.py:164-166 | A member named `…pg{id}.rdf` yields `id`. |
| Catalog.AllBooksIds | integration/gutenberg.py:156-168 | Every yielded book is a regular `.rdf` file, paired with the id its name carries. |
| Catalog.AllBooksComplete | integration/gutenberg.py:163-168 | When every record file's name holds an id, the yielded books are exactly the record files, in archive order. |
| Catalog.AllBooksStops | integration/gutenberg.py:163-167 | Otherwise the walk stops at the first record file whose name holds no id, having yielded the record files before it, in order. |
| Catalog.Ingest | integration/gutenberg.py:170-197 | A run never removes a licence, and yields at most one edition per book. |
| Catalog.ExtractWithGrows | integration/gutenberg.py:245-285 | `book_in` keeps every edition already in the store. |
| Catalog.IngestKeepsStore | integration/gutenberg.py:176-196 | With such an extraction, a run never removes an edition. |
| Catalog.IngestSkipsKnown | integration/gutenberg.py:176-185 | Books whose ids already have an edition are not extracted: the run yields nothing and changes nothing. |
| Catalog.IngestLicenses | integration/gutenberg.py:193-196 | Every yielded edition gets an open-access licence, and nothing else does. |
| Catalog.IngestYieldsOnlyMissing | integration/gutenberg.py:176-196 | With an extraction that keeps the store, the run yields no more editions than there were selected books missing from the store when it began. |
| Catalog.IngestSkipsHead | integration/gutenberg.py:176-185 | A known or unselected book at the head of any run is passed over: the run goes on as if it started at the next book, without extracting it. |
| Catalog.MissingIds | integration/gutenberg.py:176-185 | The ids of the books the run would extract, in archive order, one per missing book. |
| Catalog.IngestExtractsHead | integration/gutenberg.py:185-197 | A missing book at the head of a run that extracts to an edition is yielded first, and the run goes on with the store and licences that extraction left. |
| Catalog.IngestYieldsEachMissing | integration/gutenberg.py:176-197 | Suppose every selected missing book extracts, whatever the store, to an edition with its own id that adds exactly that id, and ids are distinct. Then the run ends without error and yields one edition per missing book, their ids being the missing ids in archive order. |
| Catalog.IngestStoresEachMissing | integration/gutenberg.py:176-197 | Under the same conditions, an id ends up in the store exactly when it was there before or is a missing book's id. |
| Catalog.IngestStopsAtError | integration/gutenberg.py:186-192 | An extraction error ends the run with nothing more yielded and the store as it was before that book. |
| Catalog.CreateMissingBooksKnown | integration/gutenberg.py:170-197 | When every record id is already known, the whole run changes nothing. It can end early only on a record name without an id. |
| RdfExtractor.Objects | integration/gutenberg.py:233-236 | `_values` returns exactly the objects of the matching triples. |
| RdfExtractor.UriId | integration/gutenberg.py:226 | The id of a subject URI is the non-empty digit run that ends it. |
| RdfExtractor.UriIdOfSubjectUri | integration/gutenberg.py:292 | A URI ending in `/{digits}` yields those digits. |
| RdfExtractor.SplitTitleSpec | integration/gutenberg.py:293-301 | The split is as follows. With no line break there is no subtitle. With only `\n` breaks, the title and subtitle are the text before and after the first break, so `title + "\n" + subtitle` is the raw title. With `\r\n`, which is tried first, the subtitle is the rest with every `\r\n` turned into `\n`. |
| RdfExtractor.SplitTitleHeadFree | integration/gutenberg.py:296-299 | The title never contains the separator it was split on. |
| RdfExtractor.ChooseLanguageSpec | integration/gutenberg.py:322-327 | The language is `eng` when present, else the first code, else none. Any chosen language is one of the codes. |
| RdfExtractor.LanguageCodesSpec | integration/gutenberg.py:314-320 | A code is kept exactly when it is non-empty and maps from one of the record's language values. |
| RdfExtractor.Classify | integration/gutenberg.py:354-361 | A new edition gets one classification per subject. An unknown vocabulary URI fails the record. |
| RdfExtractor.LinkCallsSpec | integration/gutenberg.py:376-398 | One canonical link to the subject is added per format entry. The other links are, in order: an image link for `.medium.` images; no link for other images; an open-access link for everything else, audio and video included. |
| RdfExtractor.MediumLastWins | integration/gutenberg.py:371-400 | The last audio or video entry decides the medium. |
| RdfExtractor.MediumUnchanged | integration/gutenberg.py:371-400 | Entries that are neither audio nor video leave the medium as it was, so the default is book. |
| RdfExtractor.TitleTriplesSpec | integration/gutenberg.py:261-273 | The title triples are empty exactly when the graph has no title. They are ambiguous exactly when two title triples have different subjects. |
| RdfExtractor.BookInCases | integration/gutenberg.py:245-285 | The three outcomes of `book_in`:<br>- no title gives no book;<br>- titles on two subjects raise an error;<br>- otherwise the first title triple's subject and title are parsed. |
| RdfExtractor.ExistingEditionKeepsScalars | integration/gutenberg.py:341-361 | For a known id the stored edition keeps its scalar fields, only the medium is reset, and no subject is classified. |
| RdfExtractor.NewEditionFields | integration/gutenberg.py:288-361 | A new edition takes the split title, the chosen language and the first publisher, and gets one classification per subject. |
| RdfExtractor.ExtractTwiceIdempotent | integration/gutenberg.py:337-352 | Extracting the same record again finds the stored edition and changes nothing. |
| RdfExtractor.ParseBookAgain | integration/gutenberg.py:337-361 | Parsing a record again against the store the first parse left finds that edition as not new, and returns it and the store unchanged. |
| RdfExtractor.ParseBookStores | integration/gutenberg.py:337-361 | A successful parse stores the edition it returns under the id read from the record, with the medium of the record's formats. |
| RdfExtractor.ParseBookKnown | integration/gutenberg.py:337-361 | A record whose id is stored keeps the stored edition with only its medium reset, classifies nothing, and stores that edition back. |
| EpubCoverage.FirstMatchingSpec | coverage.py:82-90 | The first file in listing order that satisfies the test is found, and there is none exactly when no file satisfies it. |
| EpubCoverage.BestEpubSpec | coverage.py:77-90 | There is a result exactly when some name ends in `.epub`, and the result is a member of the listing. Otherwise:<br>- if any name ends in `-images.epub`, the first such name wins;<br>- if not, the first `.epub` name wins. |
| EpubCoverage.BestEpubIn | coverage.py:77-90 | The single pass that breaks at the first images EPUB returns exactly the best EPUB. |
| EpubCoverage.FirstImagesAt | coverage.py:85-87 | The first `-images.epub` name in the listing is the choice. |
| EpubCoverage.EpubPathForSpec | coverage.py:63-75 | A path is found exactly for a Gutenberg identifier whose directory exists and holds an EPUB. The path is that directory joined with `best_epub`'s choice among the directory's files, which is one of its EPUBs. |
| EpubCoverage.ProcessEditionSpec | coverage.py:46-61 | The edition is covered exactly when an EPUB path is found. The link then carries the uploader URL and the EPUB media type, and its content path is the book's directory joined with `best_epub`'s choice there. |
| IllustratedCoverage.IllustrationLists | coverage.py:133-139 | Every id of the file list gets an entry, and for an id listed several times the first list is kept. |
| IllustratedCoverage.ApplySizeFilter | coverage.py:143-156 | Exactly the illustrations that exist and are at least 10240 bytes are kept. A list whose illustrations all pass comes back unchanged. |
| IllustratedCoverage.ApplySizeFilterAppend | coverage.py:143-156 | The filter goes one illustration at a time. Two lists end to end give their results end to end, so the kept illustrations keep their input order and their repetitions. |
| IllustratedCoverage.ApplySizeFilterOne | coverage.py:145-155 | A single illustration is kept exactly when it exists and is large enough. |
| IllustratedCoverage.ApplySizeFilterIsFilter | coverage.py:143-156 | The size filter is the general order-keeping filter with "exists and is at least the cutoff" as its test. |
| IllustratedCoverage.ApplySizeFilterIdempotent | coverage.py:143-156 | Filtering again changes nothing. |
| IllustratedCoverage.SizeCutoffExamples | coverage.py:101 | A 5 KiB illustration is dropped, a 15 KiB one is kept, and a missing one is dropped. |
| IllustratedCoverage.MakeConfigSpec | coverage.py:114-122 | The font path is the renderer binary's directory, then a separator unless that directory is empty or already ends in one, then `data/` and the font's file name. The mirror and output directories end in `/`. |
| IllustratedCoverage.ArgsForSpec | coverage.py:256-259 | The command line is `[binary, mirror, output_dir, input_path, font, font]`, position by position. For a configuration built from a data directory, the mirror is `<data>/<source>/gutenberg-mirror/` and the output directory `<data>/Gutenberg Illustrated/`. |
| IllustratedCoverage.ArgsForRoundTrip | coverage.py:256-259 | The command line loses nothing: reading it back gives the configuration and the input file, and any command line that reads back is the one built from what it reads back to. |
| IllustratedCoverage.CoverLinks | coverage.py:229-250 | Every `.png` output gets a link with its uploader URL, media type `image/png` and its path in the output directory. Every link is such a link for some `.png` output, and there is one link per `.png` output. |
| IllustratedCoverage.CoverLinksAppend | coverage.py:229-250 | Links are made one file at a time: two listings end to end give their links end to end, so the links keep listing order. |
| IllustratedCoverage.CoverLinksOne | coverage.py:230-250 | A single file gives its link when it is a PNG and nothing otherwise. |
| IllustratedCoverage.ProcessEditionSpec | coverage.py:158-254 | The outcomes are as follows:<br>- no illustration list: covered without rendering;<br>- all illustrations filtered out: covered without rendering;<br>- a renderer that cannot be launched: failure;<br>- otherwise the job holds the filtered illustrations and `args_for`. Every `.png` output gets a link with its URL, media type and path, and every link is such a link for some `.png` output. |
| Utf8.EncodeAppend | bibblio.py:396 | The encoding of a concatenation is the concatenation of the encodings. |
| Utf8.EncodeAsciiLength | bibblio.py:396 | ASCII text encodes to one byte per character. |
| Utf8.DecodeEncode | bibblio.py:396 | Decoding the UTF-8 encoding of any text gives the text back. |
| EpubFilters.PhraseRegexSpec | bibblio.py:434-439 | The pattern holds no whitespace. A phrase without words gives the empty pattern, and a single word is its own pattern. |
| EpubFilters.PhraseRegexWords | bibblio.py:434-439 | The pattern is the phrase's words joined by `\s*`: splitting it on `\s*` gives back exactly the words, in order, whenever no word itself holds `\s*`. The words are the phrase's non-space characters. |
| EpubFilters.SplitJoinFiller | bibblio.py:437-438 | Parts that do not hold `\s*`, joined by it and split on it again, come back unchanged. |
| EpubFilters.RemovePhrasesSnoc | bibblio.py:441-447 | Phrases are removed in list order, each from what the earlier ones left. |
| EpubFilters.RemovePhrasesShortens | bibblio.py:441-447 | If removing a pattern never lengthens a text, filtering never does. |
| EpubFilters.FilterConstants | bibblio.py:450-485 | Feedbooks has no phrases, so its filter is the identity. Gutenberg lists seven phrases, and the bare "Project Gutenberg" is removed last, after its license phrase. |
| EpubFilters.SpineIdrefsKeptAsWritten | bibblio.py:427-432 | As written, the spine filter returns its input unchanged, `pg-header` included. |
| EpubFilters.FilterSpineIdrefs | bibblio.py:416-432 | The intended filter keeps exactly the idrefs outside the distributor's set. |
| EpubFilters.FilterSpineIdrefsAppend | bibblio.py:427-432 | The intended filter goes one idref at a time. A single idref is kept exactly when it is not the distributor's, and two parts of a spine give their results end to end, so the kept idrefs keep spine order and repetitions. |
| EpubFilters.FilterSpineIdrefsKeepsOthers | bibblio.py:427-432 | A spine with none of the distributor's idrefs comes back whole. |
| TextShrink.CollapseRunsSpec | bibblio.py:393-394 | After collapsing runs of a character, no two occur in a row. Every other character is kept in order, and the character is present exactly when it was before. |
| TextShrink.CollapseRunsIdempotent | bibblio.py:393-394 | Collapsing twice is collapsing once. |
| TextShrink.CollapseRunsKeepsNoRun | bibblio.py:393-394 | The space pass cannot bring back a double tab. |
| TextShrink.NormalizeSpec | bibblio.py:385-394 | The cleaned text has no two consecutive spaces and no two consecutive tabs. |
| TextShrink.ShrinkTextSpec | bibblio.py:384-396 | The output is a prefix of the UTF-8 encoding of the cleaned text, of length `min(len, 200000)`. When it fits, it decodes back to the cleaned text. |
| TextShrink.ShrinkAscii | bibblio.py:396 | ASCII text keeps exactly its first 200000 characters. |
| EpubText.SpineIdrefs | bibblio.py:356-360 | Only `itemref` children of the spine contribute idrefs, and each of them does. |
| EpubText.SpineIdrefsOne | bibblio.py:356-360 | One spine child gives its idref when it is an `itemref`, and nothing otherwise; a missing attribute is `None`. |
| EpubText.SpineIdrefsAppend | bibblio.py:356-360 | Two runs of spine children give their idrefs end to end, so the idrefs follow the spine order, repetitions included. |
| EpubText.IndexOf | bibblio.py:369 | `list.index` gives the position of the first occurrence. |
| EpubText.ReadingOrderSpec | bibblio.py:363-370 | The documents read are exactly the manifest items the spine refers to, each once per manifest entry: a spine naming an id twice still reads that item once. They come in spine order, keyed by each id's first position in the spine. |
| EpubText.SortByKeySpec | bibblio.py:369 | The sort returns a permutation of its input, ordered by key. |
| EpubText.DocumentPaths | bibblio.py:372-374 | Each href is joined to the package document's directory, in order. An item without an href fails. |
| EpubText.ReadDocuments | bibblio.py:376-380 | Reading succeeds exactly when every path is in the archive. A failure names a missing path. |
| EpubText.ReadDocumentsSpec | bibblio.py:376-380 | The accumulated text is each document's text followed by `\n`, in reading order. |
| EpubText.ExtractPlaintextSpec | bibblio.py:348-382 | Extraction fails exactly when a document has no href or is not in the archive. Otherwise the result is the shrunk concatenation of the documents' texts, with no filter applied. |
| BibblioApi.SetTimestamp | bibblio.py:68-77 | `dateModified` is always set to the current time plus `Z`. `dateCreated` is set to the same value only on create. Every other field is kept. |
| BibblioApi.SetTimestampStable | bibblio.py:68-77 | Stamping twice at the same time changes nothing, and a later update keeps the creation time. |
| BibblioApi.RefreshCredential | bibblio.py:107-118 | The refreshed credential carries the reply's token and expires after 90% of `expires_in`, and it becomes the cached credential. A reply without `expires_in` fails after the token has been written into the looked-up credential, whose expiry stays as it was. |
| BibblioApi.RefreshOverwritesStored | bibblio.py:114-118 | A successful refresh does not depend on what the looked-up credential held. A failed one changes only its token. |
| BibblioApi.RefreshedExpiry | bibblio.py:117 | A positive lifetime gives a credential that is valid now and expires before the server's deadline. |
| BibblioApi.TokenIgnoresFreshCache | bibblio.py:89-98 | As written, a freshly refreshed credential is not reused while valid, and once expired it is handed out without a lookup. |
| BibblioApi.TokenReusesFreshCache | bibblio.py:89-98 | With the comparison reversed, the cached credential is reused exactly until it expires. |
| BibblioApi.Authorization | bibblio.py:100-105 | The header is `Bearer ` + token, and a missing token fails. |
| BibblioExport.GetFullText | bibblio.py:305-346 | A text representation is preferred over an EPUB. No text exists exactly when there is neither, and only EPUB extraction can fail. |
| BibblioExport.FullTextIsUnfiltered | bibblio.py:322-346 | The full text never depends on the phrase filters. A text representation is shrunk from its HTML text. |
| BibblioExport.ContentItemFromWork | bibblio.py:267-281 | The payload has exactly name, url, text and provider, plus `catalogueId` when that is set and non-empty. |
| BibblioExport.ContentItemSpec | bibblio.py:267-281 | The payload is built exactly when title, author and full text exist. The name is title + " by " + author. |
| BibblioExport.CreateContentItem | bibblio.py:157-175 | The post succeeds exactly when the stamped item serializes, a token exists, and the reply is a 201 whose body is a JSON object. The result is that object. |
| BibblioExport.ProcessItemSpec | bibblio.py:247-265 | Every failure caught inside the `try` is transient. A work is covered exactly when its item is built, serialized and authorized, and the reply is a 201 whose body is a JSON object with a truthy `contentItemId`. The covered work gains a weight-1 equivalence to that id, and its body carries equal creation and modification times. The same reply without a truthy id raises out of `process_item` instead. |
| BibblioExport.MissingContentItemIdRaises | bibblio.py:257-263 | A created item whose reply lacks `contentItemId`, or holds an empty or null one, is never covered without an id: the error escapes `process_item`. |
| BibblioExport.ClientErrorIsTransient | bibblio.py:157-165 | A 4xx reply gives a transient failure, like any other error. |
| BibblioExport.MalformedCreatedReplyIsTransient | bibblio.py:167-170 | A 201 reply whose body is not a JSON object makes reading its fields raise, which gives a transient failure. |
| BibblioExport.CutCharacterNotUtf8 | bibblio.py:396 | ASCII bytes followed by a lone two-byte lead byte are not UTF-8. |
| BibblioExport.ShrinkCutsCharacter | bibblio.py:384-396 | A normalized text of 199999 ASCII characters and then a two-byte character is cut inside that character, so the result is not UTF-8. |
| BibblioExport.SplitCharacterFailsExport | bibblio.py:157-159 | A text whose 200000th byte starts a two-byte character makes `json.dumps` fail. The work fails transiently. |
| BibblioExport.SplitCharacterExample | bibblio.py:390-394 | Such a text exists: 199999 letters and an "é" pass the clean-up unchanged. |

## Left out

**Effects and parsers passed in as parameters**
- HTTP, the token store (`Credential.lookup`), SQLAlchemy queries and `get_one_or_create`. They are abstract stores and replies; the refresh is a supplied token reply and the lookup's result a parameter. A content-item reply's body is given already parsed, as a JSON object or as none when `response.json()` does not yield one.
- rdflib parsing: a graph is its triple sequence in enumeration order, and the order rdflib yields triples in is not modelled.
- BeautifulSoup `_html_to_text`, `strptime` and `Subject.by_uri`: parameters or maps.
- `Contributor.lookup` and `add_contributor`: an edition's creators are the names and aliases handed to the lookup, and the matching is not modelled.
- The newline-collapse regular expression of `_shrink_text` and `re.sub` with a compiled phrase pattern: opaque functions (`TextOps`), because Python's backtracking semantics are not modelled.
- The tar stream, the download inside `update_catalog` (the archive it fetches, from a randomly chosen mirror, is a parameter of `Catalog.CatalogRead`), `os.listdir`, `os.stat`, temporary files, `subprocess.call`, S3 uploads and the `print` calls: abstract effects or omitted.

**Parts of the code not modelled**
- `edition_permalink`: it fakes a Flask request. The permalink is a parameter.
- `items_that_need_coverage`, `create_catalogue`, `get_catalogue`, `from_config`, `pg_license_for`, `GutenbergMonitor` and the generic coverage loop: these are database and HTTP glue.
- `http_get_from_random_mirror`: it is random and refers to undefined names.
- The `EpubAccessor` helper (core/util/epub.py) is not part of this model. An opened EPUB is its spine, manifest, package path and file map. The namespace constant is taken from the packaging format.
- The illustrated-data provider that supplies the renderer's other input fields is not part of this model.
- `Identifier.for_foreign_id` (core/model) is not part of this model. It is taken to return `None`, rather than a pair, for a falsy foreign id, so unpacking its result raises; a truthy id is taken to give an identifier. The JSON values modelled are strings, byte strings, objects and null, so numeric and boolean ids are not modelled.

**Weaker or simplified contracts**
- BibblioApi.RefreshCredential: `expires_in` is whole seconds. Float multiplication by 0.9 is not modelled, and the result is exact in microseconds.
- BibblioExport.GetFullText: the representations are given directly as an optional text (content, data source) and an optional EPUB. The `NO_DRM` and media-type queries that choose them are not modelled.
- EpubText.ReadingOrderSpec: it states the permutation and the key order but not the stability of Python's sort among items with equal keys. Equal keys only arise when two manifest items share an id. The model's insertion sort is written to keep them in manifest order.

## Findings

| source | as written | input that shows it | evidently intended | confidence | as-written member | corrected member |
|---|---|---|---|---|---|---|
| bibblio.py:89-98 | The cached credential is used when `expires <= utcnow()`, that is, only after it has expired. | A credential just refreshed with `expires_in` 3600 is bypassed for the next 54 minutes. After that, the expired token is handed out without a lookup. | Reuse the cached credential while `utcnow() < expires`, and look it up otherwise. | high, not executed | BibblioApi.TokenIgnoresFreshCache | BibblioApi.TokenReusesFreshCache |
| bibblio.py:427-432 | The comprehension keeps `s` when `s in spine_idrefs`, which always holds. | `["pg-header", "chapter-1"]` with the Gutenberg filter is returned whole. | Drop the idrefs in `SPINE_IDREFS` and keep the rest in order. | high, not executed | EpubFilters.SpineIdrefsKeptAsWritten | EpubFilters.FilterSpineIdrefs, with its order in EpubFilters.FilterSpineIdrefsAppend |

=== FILE: bibblio_api.dfy ===
/** `BibblioAPI` (bibblio.py): request timestamps and the bearer-token
    cache. Times are microseconds since the epoch, so that the 90% expiry
    margin is exact integer arithmetic; a timestamp's ISO text is supplied
    alongside, as `datetime.utcnow().isoformat()` would print it. */
module BibblioApi {
  import opened Wrappers
  import opened Utf8

  /** The JSON values a request body holds. A Python byte string is kept as
      bytes: `json.dumps` has to decode it as UTF-8. */
  datatype Json = JString(s: string) | JBytes(bytes: seq<Byte>) | JObject(fields: map<string, Json>) | JNull

  type Resource = map<string, Json>

  const DATE_MODIFIED := "dateModified"
  const DATE_CREATED := "dateCreated"

  /** `set_timestamp`: stamps `dateModified`, and `dateCreated` too when the
      resource is being created, with the same UTC time. */
  function SetTimestamp(resource: Resource, create: bool, nowIso: string): (r: Resource)
    ensures r.Keys == resource.Keys + {DATE_MODIFIED} + (if create then {DATE_CREATED} else {})
    ensures r[DATE_MODIFIED] == JString(nowIso + "Z")
    ensures create ==> r[DATE_CREATED] == r[DATE_MODIFIED]
    ensures forall k :: k in resource && k != DATE_MODIFIED && (k != DATE_CREATED || !create) ==> r[k] == resource[k]
  {
    var now := JString(nowIso + "Z");
    var modified := resource[DATE_MODIFIED := now];
    if create then modified[DATE_CREATED := now] else modified
  }

  /** Stamping again at the same time changes nothing, and an update keeps
      the creation time of a created resource. */
  lemma SetTimestampStable(resource: Resource, create: bool, created: string, updated: string)
    ensures SetTimestamp(SetTimestamp(resource, create, created), create, created) == SetTimestamp(resource, create, created)
    ensures var r := SetTimestamp(SetTimestamp(resource, true, created), false, updated);
      r[DATE_CREATED] == JString(created + "Z") && r[DATE_MODIFIED] == JString(updated + "Z")
  {
    var once := SetTimestamp(resource, create, created);
    var twice := SetTimestamp(once, create, created);
    assert twice.Keys == once.Keys;
  }

  const MICROSECONDS_PER_SECOND := 1000000

  /** A stored credential: the access token, if the server sent one, and
      when it expires. */
  datatype Credential = Credential(credential: Option<string>, expires: int)

  /** The fields of the token endpoint's JSON reply (`data.get(...)`). */
  datatype TokenReply = TokenReply(accessToken: Option<string>, expiresIn: Option<int>)

  /** `None * 0.9` raises: a reply without `expires_in` fails after the
      reply's token has already been written into the looked-up credential,
      which `written` holds; its expiry and the instance cache are left as
      they were. */
  datatype CredentialError = NoExpiry(written: Credential)

  /** The instance's memory: `self._credential`. */
  datatype ApiState = ApiState(cached: Option<Credential>)

  /** `refresh_credential`: the reply's token is written into the credential
      `Credential.lookup` passed in (`stored`); the new token then expires
      after 90% of the lifetime the server grants, and the credential becomes
      the cached one. `expires_in` is whole seconds here. */
  function RefreshCredential(state: ApiState, stored: Credential, reply: TokenReply, now: int)
    : (r: Result<(ApiState, Credential), CredentialError>)
    ensures r.Ok? <==> reply.expiresIn.Some?
    ensures r.Ok? ==> r.value.1.credential == reply.accessToken && r.value.0.cached == Some(r.value.1)
    ensures r.Ok? ==> 10 * (r.value.1.expires - now) == 9 * reply.expiresIn.value * MICROSECONDS_PER_SECOND
    ensures r.Err? ==> r.error.written.credential == reply.accessToken && r.error.written.expires == stored.expires
  {
    var withToken := stored.(credential := reply.accessToken);
    match reply.expiresIn
    case None => Err(NoExpiry(withToken))
    case Some(seconds) =>
      var credential := withToken.(expires := now + seconds * 900000);
      Ok((ApiState(Some(credential)), credential))
  }

  /** A positive lifetime gives a credential that is valid now and expires
      before the server says it does. */
  lemma RefreshedExpiry(state: ApiState, stored: Credential, reply: TokenReply, now: int)
    requires reply.expiresIn.Some? && reply.expiresIn.value > 0
    ensures var c := RefreshCredential(state, stored, reply, now).value.1;
      now < c.expires < now + reply.expiresIn.value * MICROSECONDS_PER_SECOND
  {
  }

  /** A successful refresh overwrites both fields of the looked-up
      credential, so what was stored before plays no part; a failed one
      changes only its token. */
  lemma RefreshOverwritesStored(state: ApiState, stored: Credential, other: Credential, reply: TokenReply, now: int)
    ensures reply.expiresIn.Some? ==>
      RefreshCredential(state, stored, reply, now) == RefreshCredential(state, other, reply, now)
    ensures reply.expiresIn.None? ==>
      RefreshCredential(state, stored, reply, now).error.written == stored.(credential := reply.accessToken)
  {
  }

  /** What `Credential.lookup` hands back: the stored credential, and
      whether it had to be refreshed, which also fills the instance cache. */
  datatype Lookup = Lookup(stored: Credential, refreshed: bool)

  /** The cache after consulting the store. */
  function AfterLookup(state: ApiState, lookup: Lookup): ApiState {
    if lookup.refreshed then ApiState(Some(lookup.stored)) else state
  }

  /** The `token` property as written: the cached credential is used when
      its expiry is at or before now, and the store is consulted otherwise. */
  function TokenAsWritten(state: ApiState, now: int, lookup: Lookup): (Option<string>, ApiState) {
    if state.cached.Some? && state.cached.value.expires <= now then (state.cached.value.credential, state)
    else (lookup.stored.credential, AfterLookup(state, lookup))
  }

  /** As written, a credential just obtained is never reused while it is
      valid, and once it has expired it is handed out without a lookup. */
  lemma TokenIgnoresFreshCache(state: ApiState, stored: Credential, reply: TokenReply, now: int, later: int, lookup: Lookup)
    requires reply.expiresIn.Some? && reply.expiresIn.value > 0
    requires RefreshCredential(state, stored, reply, now).Ok?
    ensures var (cached, c) := RefreshCredential(state, stored, reply, now).value;
      (now <= later < c.expires ==> TokenAsWritten(cached, later, lookup).0 == lookup.stored.credential)
    ensures var (cached, c) := RefreshCredential(state, stored, reply, now).value;
      (c.expires <= later ==> TokenAsWritten(cached, later, lookup) == (reply.accessToken, cached))
  {
  }

  /** The token as intended: the cached credential while it has not
      expired, the store otherwise. */
  function Token(state: ApiState, now: int, lookup: Lookup): (Option<string>, ApiState) {
    if state.cached.Some? && now < state.cached.value.expires then (state.cached.value.credential, state)
    else (lookup.stored.credential, AfterLookup(state, lookup))
  }

  /** With the comparison the right way round, a refreshed credential is
      reused until it expires, and never after. */
  lemma TokenReusesFreshCache(state: ApiState, stored: Credential, reply: TokenReply, now: int, later: int, lookup: Lookup)
    requires reply.expiresIn.Some? && reply.expiresIn.value > 0
    requires RefreshCredential(state, stored, reply, now).Ok?
    ensures var (cached, c) := RefreshCredential(state, stored, reply, now).value;
      (now <= later < c.expires ==> Token(cached, later, lookup) == (reply.accessToken, cached))
    ensures var (cached, c) := RefreshCredential(state, stored, reply, now).value;
      (c.expires <= later ==> Token(cached, later, lookup).0 == lookup.stored.credential)
  {
  }

  /** `default_headers`: a missing token makes `'Bearer ' + None` raise. */
  function Authorization(token: Option<string>): (r: Option<string>)
    ensures r.Some? <==> token.Some?
    ensures r.Some? ==> |r.value| >= 7 && r.value[..7] == "Bearer " && r.value[7..] == token.value
  {
    match token
    case None => None
    case Some(t) => Some("Bearer " + t)
  }
}

=== FILE: bibblio_export.dfy ===
/** `BibblioCoverageProvider` (bibblio.py): building the content item for a
    work from its full text and posting it, and how every way that can go
    wrong is recorded. Database queries, the permalink and the HTTP call
    are parameters: the work's presentation edition, the permalink text,
    the representations the query finds, and the server's reply to a body. */
module BibblioExport {
  import opened Wrappers
  import opened Utf8
  import opened TextShrink
  import EpubText
  import opened BibblioApi

  /** The fields of a work's presentation edition the export reads. */
  datatype Edition = Edition(title: Option<string>, author: Option<string>, primaryIdentifier: string)

  /** What `get_full_text`'s queries find: the content of a plain-text or
      HTML representation and its data source's name, and an EPUB
      representation and its data source's name. */
  datatype Representations = Representations(
    text: Option<(string, string)>,
    epub: Option<(EpubText.Epub, string)>)

  /** Full text and the name of the data source it came from. */
  datatype FullText = FullText(text: seq<Byte>, dataSource: string)

  /** The parsers the export relies on. */
  datatype Parsers = Parsers(htmlToText: string -> string, ops: TextOps)

  /** `get_full_text`: a text representation wins; otherwise the EPUB's
      text; otherwise there is none. */
  function GetFullText(reps: Representations, parsers: Parsers): (r: Result<Option<FullText>, EpubText.ExtractError>)
    ensures r.Err? ==> reps.text.None? && reps.epub.Some?
    ensures r == Ok(None) <==> reps.text.None? && reps.epub.None?
  {
    if reps.text.Some? then
      var (content, source) := reps.text.value;
      Ok(Some(FullText(ShrinkText(parsers.htmlToText(content), None, parsers.ops), source)))
    else if reps.epub.Some? then
      var (epub, source) := reps.epub.value;
      var text :- EpubText.ExtractPlaintext(epub, parsers.htmlToText, parsers.ops);
      Ok(Some(FullText(text, source)))
    else Ok(None)
  }

  /** Whichever representation is used, its text is shrunk the same way,
      with no distributor filter: the filter's phrases never reach the
      text. */
  lemma FullTextIsUnfiltered(reps: Representations, parsers: Parsers, removeAll: (EpubFilters.Pattern, string) -> string)
    ensures var other := parsers.(ops := parsers.ops.(removeAll := removeAll));
      GetFullText(reps, parsers) == GetFullText(reps, other)
    ensures reps.text.Some? ==>
      GetFullText(reps, parsers) ==
        Ok(Some(FullText(ShrinkText(parsers.htmlToText(reps.text.value.0), None, parsers.ops), reps.text.value.1)))
  {
  }

  /** Ways building or posting a content item raises. */
  datatype ExportError =
    | IncompleteName            // `title + ' by ' + author` with a None part
    | NoFullText                // `None.name` when there is no full text
    | ExtractionFailed(error: EpubText.ExtractError)
    | NoToken                   // `'Bearer ' + None`
    | TextNotUtf8               // `json.dumps` cannot decode the byte string
    | NetworkFailure
    | BadStatus(status: int)    // any status but 201, 4xx included
    | MalformedReply            // `.get` on a 201 body that is not a JSON object
    | NoContentItemId           // unpacking the `None` that a missing or falsy id gives

  const NAME := "name"
  const URL := "url"
  const TEXT := "text"
  const PROVIDER := "provider"
  const CATALOGUE_ID := "catalogueId"

  /** `content_item_from_work`: name, permalink, text and provider, plus the
      catalogue when one is configured (a non-empty id). */
  function ContentItemFromWork(edition: Edition, permalink: string, reps: Representations, parsers: Parsers,
                               catalogueId: Option<string>): (r: Result<Resource, ExportError>)
    ensures r.Ok? ==>
      r.value.Keys == {NAME, URL, TEXT, PROVIDER} + (if catalogueId.Some? && catalogueId.value != "" then {CATALOGUE_ID} else {})
  {
    if edition.title.None? || edition.author.None? then Err(IncompleteName)
    else
      var name := edition.title.value + " by " + edition.author.value;
      match GetFullText(reps, parsers)
      case Err(e) => Err(ExtractionFailed(e))
      case Ok(None) => Err(NoFullText)
      case Ok(Some(full)) =>
        var item := map[NAME := JString(name), URL := JString(permalink), TEXT := JBytes(full.text),
                         PROVIDER := JObject(map[NAME := JString(full.dataSource)])];
        if catalogueId.Some? && catalogueId.value != "" then Ok(item[CATALOGUE_ID := JString(catalogueId.value)])
        else Ok(item)
  }

  /** The item is built exactly when the edition has a title and an author
      and full text is found; it is then named "<title> by <author>",
      points at the permalink, carries the full text, and credits the
      text's data source. */
  lemma ContentItemSpec(edition: Edition, permalink: string, reps: Representations, parsers: Parsers,
                        catalogueId: Option<string>)
    ensures var r := ContentItemFromWork(edition, permalink, reps, parsers, catalogueId);
      r.Ok? <==> edition.title.Some? && edition.author.Some? &&
                 GetFullText(reps, parsers).Ok? && GetFullText(reps, parsers).value.Some?
    ensures var r := ContentItemFromWork(edition, permalink, reps, parsers, catalogueId);
      r.Ok? ==>
        var full := GetFullText(reps, parsers).value.value;
        r.value[NAME] == JString(edition.title.value + " by " + edition.author.value) &&
        r.value[URL] == JString(permalink) &&
        r.value[TEXT] == JBytes(full.text) &&
        r.value[PROVIDER] == JObject(map[NAME := JString(full.dataSource)]) &&
        (CATALOGUE_ID in r.value ==> r.value[CATALOGUE_ID] == JString(catalogueId.value))
  {
  }

  /** The server's answer to a posted body: its status, and its body as a
      JSON object, or `None` when `response.json()` does not give one. */
  datatype Reply = NoReply | Reply(status: int, body: Option<map<string, Json>>)

  /** An identifier equivalence the provider records. */
  datatype Equivalence = Equivalence(from: string, contentItemId: Json, strength: int)

  /** What processing a work leaves: the equivalence it recorded, a caught
      failure and whether it is transient, or an error raised out of
      `process_item` itself, past its `try`. */
  datatype Outcome =
    | Covered(equivalence: Equivalence)
    | Failure(error: ExportError, transient: bool)
    | Raised(error: ExportError)

  /** Python truthiness of a JSON value: empty strings, byte strings and
      objects and `null` are false. */
  predicate Truthy(j: Json) {
    match j
    case JString(s) => s != ""
    case JBytes(b) => b != []
    case JObject(m) => m != map[]
    case JNull => false
  }

  /** The created item's id, as `result.get('contentItemId')` reads it, is
      one `Identifier.for_foreign_id` accepts. */
  predicate HasContentItemId(result: map<string, Json>) {
    "contentItemId" in result && Truthy(result["contentItemId"])
  }

  /** `json.dumps` decodes every byte string as UTF-8; the content item's
      only byte string is its text. */
  predicate Serializable(item: Resource) {
    TEXT in item && item[TEXT].JBytes? ==> Decode(item[TEXT].bytes).Some?
  }

  /** `create_content_item`: stamp the item as created, serialize it, and
      post it with the bearer token; only a 201 reply whose body is a JSON
      object is accepted, since its fields are then read with `.get`. */
  function CreateContentItem(item: Resource, nowIso: string, token: Option<string>, post: Resource -> Reply)
    : (r: Result<map<string, Json>, ExportError>)
    ensures var body := SetTimestamp(item, true, nowIso);
      r.Ok? <==> Serializable(body) && token.Some? && post(body).Reply? &&
                 post(body).status == 201 && post(body).body.Some?
    ensures r.Ok? ==> r.value == post(SetTimestamp(item, true, nowIso)).body.value
  {
    var body := SetTimestamp(item, true, nowIso);
    if !Serializable(body) then Err(TextNotUtf8)
    else if Authorization(token).None? then Err(NoToken)
    else
      var reply := post(body);
      if reply.NoReply? then Err(NetworkFailure)
      else if reply.status != 201 then Err(BadStatus(reply.status))
      else if reply.body.None? then Err(MalformedReply)
      else Ok(reply.body.value)
  }

  /** `process_item`: any exception while building or posting the item is
      recorded as a transient failure; a posted item makes the work's
      primary identifier equivalent, with strength 1, to the content item
      id the server returned. Reading that id happens after the `try`: a
      missing or falsy id makes `for_foreign_id` give `None`, and unpacking
      it raises out of `process_item`. */
  function ProcessItem(edition: Edition, permalink: string, reps: Representations, parsers: Parsers,
                       catalogueId: Option<string>, nowIso: string, token: Option<string>,
                       post: Resource -> Reply): Outcome
  {
    match ContentItemFromWork(edition, permalink, reps, parsers, catalogueId)
    case Err(e) => Failure(e, true)
    case Ok(item) =>
      match CreateContentItem(item, nowIso, token, post)
      case Err(e) => Failure(e, true)
      case Ok(result) =>
        if !HasContentItemId(result) then Raised(NoContentItemId)
        else Covered(Equivalence(edition.primaryIdentifier, result["contentItemId"], 1))
  }

  /** Every caught failure is transient, so a work is retried whatever went
      wrong inside the `try`; a work is covered exactly when its item was
      built, serialized, authorized and answered with 201 and a JSON object
      holding a truthy content item id — the body posted then carries equal
      creation and modification times. The same reply without such an id
      raises instead. */
  lemma ProcessItemSpec(edition: Edition, permalink: string, reps: Representations, parsers: Parsers,
                        catalogueId: Option<string>, nowIso: string, token: Option<string>,
                        post: Resource -> Reply)
    ensures var o := ProcessItem(edition, permalink, reps, parsers, catalogueId, nowIso, token, post);
      o.Failure? ==> o.transient
    ensures var o := ProcessItem(edition, permalink, reps, parsers, catalogueId, nowIso, token, post);
      var item := ContentItemFromWork(edition, permalink, reps, parsers, catalogueId);
      o.Covered? <==>
        item.Ok? && Serializable(SetTimestamp(item.value, true, nowIso)) && token.Some? &&
        post(SetTimestamp(item.value, true, nowIso)).Reply? &&
        post(SetTimestamp(item.value, true, nowIso)).status == 201 &&
        post(SetTimestamp(item.value, true, nowIso)).body.Some? &&
        HasContentItemId(post(SetTimestamp(item.value, true, nowIso)).body.value)
    ensures var o := ProcessItem(edition, permalink, reps, parsers, catalogueId, nowIso, token, post);
      var item := ContentItemFromWork(edition, permalink, reps, parsers, catalogueId);
      o.Raised? <==>
        item.Ok? && Serializable(SetTimestamp(item.value, true, nowIso)) && token.Some? &&
        post(SetTimestamp(item.value, true, nowIso)).Reply? &&
        post(SetTimestamp(item.value, true, nowIso)).status == 201 &&
        post(SetTimestamp(item.value, true, nowIso)).body.Some? &&
        !HasContentItemId(post(SetTimestamp(item.value, true, nowIso)).body.value)
    ensures var o := ProcessItem(edition, permalink, reps, parsers, catalogueId, nowIso, token, post);
      o.Raised? ==> o.error == NoContentItemId
    ensures var o := ProcessItem(edition, permalink, reps, parsers, catalogueId, nowIso, token, post);
      o.Covered? ==>
        var body := SetTimestamp(ContentItemFromWork(edition, permalink, reps, parsers, catalogueId).value, true, nowIso);
        var reply := post(body);
        body[DATE_CREATED] == body[DATE_MODIFIED] &&
        o.equivalence.from == edition.primaryIdentifier && o.equivalence.strength == 1 &&
        o.equivalence.contentItemId == reply.body.value["contentItemId"] &&
        Truthy(o.equivalence.contentItemId)
  {
  }

  /** A client error does not stop the batch: a 4xx reply leaves the work
      uncovered with a transient failure, like any other error. */
  lemma {:induction false} ClientErrorIsTransient(edition: Edition, permalink: string, reps: Representations, parsers: Parsers,
                               catalogueId: Option<string>, nowIso: string, token: Option<string>,
                               post: Resource -> Reply)
    requires var item := ContentItemFromWork(edition, permalink, reps, parsers, catalogueId);
      item.Ok? && Serializable(SetTimestamp(item.value, true, nowIso)) && token.Some? &&
      post(SetTimestamp(item.value, true, nowIso)).Reply? &&
      400 <= post(SetTimestamp(item.value, true, nowIso)).status < 500
    ensures var item := ContentItemFromWork(edition, permalink, reps, parsers, catalogueId);
      ProcessItem(edition, permalink, reps, parsers, catalogueId, nowIso, token, post) ==
        Failure(BadStatus(post(SetTimestamp(item.value, true, nowIso)).status), true)
  {
    var item := ContentItemFromWork(edition, permalink, reps, parsers, catalogueId).value;
    var body := SetTimestamp(item, true, nowIso);
    assert Authorization(token).Some?;
    assert CreateContentItem(item, nowIso, token, post) == Err(BadStatus(post(body).status));
  }

  /** A 201 reply whose body is not a JSON object makes reading the new
      item's fields raise inside the same `try`: the work is left uncovered
      with a transient failure. */
  lemma {:induction false} MalformedCreatedReplyIsTransient(edition: Edition, permalink: string, reps: Representations,
                                          parsers: Parsers, catalogueId: Option<string>, nowIso: string,
                                          token: Option<string>, post: Resource -> Reply)
    requires var item := ContentItemFromWork(edition, permalink, reps, parsers, catalogueId);
      item.Ok? && Serializable(SetTimestamp(item.value, true, nowIso)) && token.Some? &&
      post(SetTimestamp(item.value, true, nowIso)) == Reply(201, None)
    ensures ProcessItem(edition, permalink, reps, parsers, catalogueId, nowIso, token, post) == Failure(MalformedReply, true)
  {
    var item := ContentItemFromWork(edition, permalink, reps, parsers, catalogueId).value;
    assert Authorization(token).Some?;
    assert CreateContentItem(item, nowIso, token, post) == Err(MalformedReply);
  }

  /** A created item whose reply has no content item id, or an empty one,
      is not covered without an id: the error escapes `process_item`, and
      no equivalence is recorded. */
  lemma {:induction false} MissingContentItemIdRaises(edition: Edition, permalink: string, reps: Representations,
                                                      parsers: Parsers, catalogueId: Option<string>, nowIso: string,
                                                      token: Option<string>, post: Resource -> Reply,
                                                      result: map<string, Json>)
    requires var item := ContentItemFromWork(edition, permalink, reps, parsers, catalogueId);
      item.Ok? && Serializable(SetTimestamp(item.value, true, nowIso)) && token.Some? &&
      post(SetTimestamp(item.value, true, nowIso)) == Reply(201, Some(result))
    requires "contentItemId" !in result || result["contentItemId"] in {JNull, JString(""), JBytes([]), JObject(map[])}
    ensures ProcessItem(edition, permalink, reps, parsers, catalogueId, nowIso, token, post) == Raised(NoContentItemId)
  {
    var item := ContentItemFromWork(edition, permalink, reps, parsers, catalogueId).value;
    assert Authorization(token).Some?;
    assert CreateContentItem(item, nowIso, token, post) == Ok(result);
  }

  /** A byte string that ends inside a two-byte character is not UTF-8. */
  lemma {:induction false} CutCharacterNotUtf8(ascii: seq<Byte>, lead: Byte)
    requires forall k :: 0 <= k < |ascii| ==> ascii[k] < 0x80
    requires 0xC0 <= lead < 0xE0
    ensures Decode(ascii + [lead]) == None
  {
    if |ascii| == 0 {
      assert [] + [lead] == [lead];
    } else {
      var bs := ascii + [lead];
      assert bs[1..] == ascii[1..] + [lead];
      CutCharacterNotUtf8(ascii[1..], lead);
    }
  }

  /** The byte cut can split a character: a text whose 200000th byte starts
      a two-byte character reaches `json.dumps` as invalid UTF-8, so the work
      fails transiently; the same inputs fail the same way again. */
  lemma {:induction false} SplitCharacterFailsExport(edition: Edition, permalink: string, content: string, source: string,
                                  parsers: Parsers, catalogueId: Option<string>, nowIso: string,
                                  token: Option<string>, post: Resource -> Reply, ascii: string, c: char)
    requires edition.title.Some? && edition.author.Some?
    requires |ascii| == BIBBLIO_TEXT_LIMIT - 1 && forall k :: 0 <= k < |ascii| ==> ascii[k] as int < 0x80
    requires 0x80 <= c as int < 0x800
    requires Normalize(parsers.htmlToText(content), None, parsers.ops) == ascii + [c]
    ensures ProcessItem(edition, permalink, Representations(Some((content, source)), None), parsers,
                        catalogueId, nowIso, token, post) == Failure(TextNotUtf8, true)
  {
    var reps := Representations(Some((content, source)), None);
    var text := ShrinkText(parsers.htmlToText(content), None, parsers.ops);
    ShrinkCutsCharacter(parsers.htmlToText(content), parsers.ops, ascii, c);
    assert GetFullText(reps, parsers) == Ok(Some(FullText(text, source)));
    var item := ContentItemFromWork(edition, permalink, reps, parsers, catalogueId).value;
    assert item[TEXT] == JBytes(text);
    var body := SetTimestamp(item, true, nowIso);
    assert body[TEXT] == JBytes(text);
    assert CreateContentItem(item, nowIso, token, post) == Err(TextNotUtf8);
  }

  /** Text whose normalized form is `BIBBLIO_TEXT_LIMIT - 1` ASCII characters
      and then a two-byte character is cut inside that character. */
  lemma ShrinkCutsCharacter(text: string, ops: TextOps, ascii: string, c: char)
    requires |ascii| == BIBBLIO_TEXT_LIMIT - 1 && forall k :: 0 <= k < |ascii| ==> ascii[k] as int < 0x80
    requires 0x80 <= c as int < 0x800
    requires Normalize(text, None, ops) == ascii + [c]
    ensures Decode(ShrinkText(text, None, ops)) == None
  {
    EncodeAppend(ascii, [c]);
    EncodeAsciiLength(ascii);
    var asciiBytes := Encode(ascii);
    assert Encode([c]) == EncodeChar(c);
    assert ShrinkText(text, None, ops) == asciiBytes + [EncodeChar(c)[0]];
    assert forall k :: 0 <= k < |asciiBytes| ==> asciiBytes[k] < 0x80 by {
      EncodeAsciiBytes(ascii);
    }
    CutCharacterNotUtf8(asciiBytes, EncodeChar(c)[0]);
  }

  lemma {:induction false} EncodeAsciiBytes(s: string)
    requires forall k :: 0 <= k < |s| ==> s[k] as int < 0x80
    ensures forall k :: 0 <= k < |Encode(s)| ==> Encode(s)[k] < 0x80
  {
    if |s| > 0 {
      EncodeAsciiBytes(s[1..]);
      EncodeAsciiLength(s[1..]);
    }
  }

  /** Such a text exists: 199999 letters and an "é". */
  lemma SplitCharacterExample(htmlToText: string -> string, content: string)
    requires htmlToText(content) == seq(BIBBLIO_TEXT_LIMIT - 1, _ => 'a') + "é"
    ensures var ops := TextOps((p, t) => t, t => t);
      Normalize(htmlToText(content), None, ops) == seq(BIBBLIO_TEXT_LIMIT - 1, _ => 'a') + "é"
  {
    var t := htmlToText(content);
    assert NoRun(t, '\t') && NoRun(t, ' ') by {
      assert forall k :: 0 <= k < |t| ==> t[k] == 'a' || t[k] == 'é';
    }
    CollapseRunsKeeps(t, '\t');
    CollapseRunsKeeps(t, ' ');
  }
}

=== FILE: catalog.dfy ===
/** The catalog side of `GutenbergAPI` (integration/gutenberg.py): when the
    downloaded catalog archive is due for a refresh, which archive members are
    RDF records and what Gutenberg id each carries, and the
    `create_missing_books` run that extracts the records not yet known. */
module Catalog {
  import opened Wrappers
  import opened Strings
  import opened RdfExtractor

  /** `ONE_DAY`, in seconds. */
  const ONE_DAY: real := 86400.0

  /** `needs_refresh`: a missing catalog always needs downloading; an
      existing one once it is at least a day old (`age` is the current time
      minus the file's modification time, in seconds). */
  function NeedsRefresh(exists_: bool, age: real): bool {
    !exists_ || age >= ONE_DAY
  }

  /** Refreshing is monotone in age: a catalog that is due stays due as it
      ages, and one younger than a day is fresh. */
  lemma NeedsRefreshMonotone(exists_: bool, age: real, later: real)
    requires age <= later
    ensures NeedsRefresh(exists_, age) ==> NeedsRefresh(exists_, later)
    ensures exists_ && age < ONE_DAY ==> !NeedsRefresh(exists_, age)
    ensures !exists_ ==> NeedsRefresh(exists_, age)
  {
  }

  /** The catalog archive on disk at `catalog_path`: its members and its
      modification time, in seconds. */
  datatype CatalogFile = CatalogFile(entries: seq<ArchiveEntry>, mtime: real)

  /** The catalog `all_books` walks. `catalog` is the file, if it exists;
      `now` is `time.time()`; `download` is the archive `update_catalog`
      fetches from a mirror it picks at random, which replaces the file and
      so is stamped with the current time. */
  function CatalogRead(catalog: Option<CatalogFile>, now: real, download: seq<ArchiveEntry>): CatalogFile {
    var age := if catalog.Some? then now - catalog.value.mtime else 0.0;
    if NeedsRefresh(catalog.Some?, age) then CatalogFile(download, now) else catalog.value
  }

  /** The download is used exactly when the file is missing or a day old,
      so the catalog walked is never a day old; and reading again less than
      a day after that file was written finds it fresh and downloads
      nothing, whatever a mirror would now serve. */
  lemma CatalogReadFresh(catalog: Option<CatalogFile>, now: real, download: seq<ArchiveEntry>,
                         later: real, again: seq<ArchiveEntry>)
    ensures catalog.None? || now - catalog.value.mtime >= ONE_DAY ==>
      CatalogRead(catalog, now, download) == CatalogFile(download, now)
    ensures catalog.Some? && now - catalog.value.mtime < ONE_DAY ==>
      CatalogRead(catalog, now, download) == catalog.value
    ensures now - CatalogRead(catalog, now, download).mtime < ONE_DAY
    ensures var c := CatalogRead(catalog, now, download);
      later - c.mtime < ONE_DAY ==> CatalogRead(Some(c), later, again) == c
  {
  }

  /** One member of the catalog archive: its name, whether it is a regular
      file, and the RDF graph its content parses to. */
  datatype ArchiveEntry = ArchiveEntry(name: string, isFile: bool, record: Graph)

  /** A member the `all_books` loop hands on: a regular file named `*.rdf`. */
  predicate IsRecordFile(e: ArchiveEntry) {
    e.isFile && EndsWith(e.name, ".rdf")
  }

  /** The regular expression `pg([0-9]+).rdf` matched at index `i`, where `.`
      is any character but a newline. Greedy matching takes the whole digit
      run when a character and `rdf` follow it, and otherwise gives the last
      digit back to the `.`. */
  function IdMatchAt(name: string, i: nat): (r: Option<string>)
    requires i <= |name|
    ensures r.Some? ==> |r.value| > 0 && AllDigits(r.value)
  {
    if !OccursAt(name, "pg", i) then None
    else
      var n := DigitRun(name[i + 2..]);
      if n >= 1 && i + 2 + n < |name| && name[i + 2 + n] != '\n' && OccursAt(name, "rdf", i + 3 + n) then
        Some(name[i + 2..i + 2 + n])
      else if n >= 2 && OccursAt(name, "rdf", i + 2 + n) then
        Some(name[i + 2..i + 1 + n])
      else None
  }

  /** The leftmost match at or after `i`. */
  function IdSearchFrom(name: string, i: nat): (r: Option<string>)
    requires i <= |name|
    ensures r.Some? ==> |r.value| > 0 && AllDigits(r.value)
    decreases |name| - i
  {
    if IdMatchAt(name, i).Some? then IdMatchAt(name, i)
    else if i == |name| then None
    else IdSearchFrom(name, i + 1)
  }

  /** The search returns the match at the first position that has one, and
      fails exactly when no position from `i` on matches. */
  lemma IdSearchFromSpec(name: string, i: nat)
    requires i <= |name|
    ensures IdSearchFrom(name, i).Some? ==>
      exists j :: i <= j <= |name| && IdMatchAt(name, j) == IdSearchFrom(name, i) &&
                  forall k :: i <= k < j ==> IdMatchAt(name, k).None?
    ensures IdSearchFrom(name, i).None? <==> forall j :: i <= j <= |name| ==> IdMatchAt(name, j).None?
  {
    IdSearchFromFound(name, i);
    IdSearchFromFails(name, i);
  }

  lemma {:induction false} IdSearchFromFound(name: string, i: nat)
    requires i <= |name|
    ensures IdSearchFrom(name, i).Some? ==>
      exists j :: i <= j <= |name| && IdMatchAt(name, j) == IdSearchFrom(name, i) &&
                  forall k :: i <= k < j ==> IdMatchAt(name, k).None?
    decreases |name| - i
  {
    if IdMatchAt(name, i).None? && i < |name| {
      assert IdSearchFrom(name, i) == IdSearchFrom(name, i + 1);
      IdSearchFromFound(name, i + 1);
      if IdSearchFrom(name, i + 1).Some? {
        var j :| i + 1 <= j <= |name| && IdMatchAt(name, j) == IdSearchFrom(name, i + 1) &&
                 forall k :: i + 1 <= k < j ==> IdMatchAt(name, k).None?;
        assert forall k :: i <= k < j ==> IdMatchAt(name, k).None?;
      }
    }
  }

  lemma {:induction false} IdSearchFromFails(name: string, i: nat)
    requires i <= |name|
    ensures IdSearchFrom(name, i).None? <==> forall j :: i <= j <= |name| ==> IdMatchAt(name, j).None?
    decreases |name| - i
  {
    if IdMatchAt(name, i).None? && i < |name| {
      assert IdSearchFrom(name, i) == IdSearchFrom(name, i + 1);
      IdSearchFromFails(name, i + 1);
    }
  }

  /** `ID_IN_FILENAME.search(name).groups()[0]`, or `None` where it fails. */
  function FilenameId(name: string): (r: Option<string>)
    ensures r.Some? ==> |r.value| > 0 && AllDigits(r.value)
  {
    IdSearchFrom(name, 0)
  }

  /** No match can start inside a prefix that holds no `pg` and does not end
      in `p`. */
  lemma NoMatchInPrefix(prefix: string, rest: string, k: nat)
    requires !Contains(prefix, "pg") && !EndsWith(prefix, "p")
    requires k < |prefix|
    ensures IdMatchAt(prefix + rest, k).None?
  {
    var name := prefix + rest;
    if OccursAt(name, "pg", k) {
      assert name[k] == 'p' && name[k + 1] == 'g';
      if k + 1 < |prefix| {
        assert prefix[k..k + 2] == name[k..k + 2];
        assert OccursAt(prefix, "pg", k);
      }
    }
  }

  /** The usual archive member name yields the id it was named after. */
  lemma FilenameIdOfRecordName(prefix: string, id: string)
    requires |id| > 0 && AllDigits(id)
    requires !Contains(prefix, "pg") && !EndsWith(prefix, "p")
    ensures FilenameId(prefix + "pg" + id + ".rdf") == Some(id)
  {
    var rest := "pg" + id + ".rdf";
    var name := prefix + rest;
    assert name == prefix + "pg" + id + ".rdf";
    forall k | 0 <= k < |prefix| ensures IdMatchAt(name, k).None? {
      NoMatchInPrefix(prefix, rest, k);
    }
    MatchAtRecordName(prefix, id);
    SearchReachesFirstMatch(name, 0, |prefix|);
  }

  lemma MatchAtRecordName(prefix: string, id: string)
    requires |id| > 0 && AllDigits(id)
    ensures IdMatchAt(prefix + ("pg" + id + ".rdf"), |prefix|) == Some(id)
  {
    var tail := "pg" + id + ".rdf";
    var name := prefix + tail;
    var i := |prefix|;
    var n := |id|;
    RecordNameParts(id);
    SliceAfter(prefix, tail, 0, 2);
    SliceAfter(prefix, tail, 2, |tail|);
    SliceAfter(prefix, tail, 3 + n, 6 + n);
    SliceAfter(prefix, tail, 2, 2 + n);
    assert name[i + 2 + n] == tail[2 + n];
    DigitRunOf(id, ".rdf");
    assert OccursAt(name, "pg", i);
    assert DigitRun(name[i + 2..]) == n;
    assert OccursAt(name, "rdf", i + 3 + n);
  }

  /** The pieces of a record file name `pg<id>.rdf`. */
  lemma RecordNameParts(id: string)
    ensures var tail := "pg" + id + ".rdf";
      |tail| == 6 + |id| && tail[0..2] == "pg" && tail[2..|tail|] == id + ".rdf" &&
      tail[2 + |id|] == '.' && tail[3 + |id|..6 + |id|] == "rdf" && tail[2..2 + |id|] == id
  {
  }

  /** A slice of the second part of a concatenation. */
  lemma SliceAfter(a: string, b: string, j: nat, k: nat)
    requires j <= k <= |b|
    ensures (a + b)[|a| + j..|a| + k] == b[j..k]
  {
  }

  lemma {:induction false} DigitRunOf(digits: string, tail: string)
    requires AllDigits(digits) && (|tail| == 0 || !IsDigit(tail[0]))
    ensures DigitRun(digits + tail) == |digits|
    decreases |digits|
  {
    var s := digits + tail;
    if |digits| > 0 {
      DigitRunOf(digits[1..], tail);
      assert s[1..] == digits[1..] + tail;
      assert IsDigit(s[0]);
    } else {
      assert s == tail;
    }
  }

  /** The search finds the first match when nothing earlier matches. */
  lemma {:induction false} SearchReachesFirstMatch(name: string, from: nat, i: nat)
    requires from <= i <= |name|
    requires forall k :: from <= k < i ==> IdMatchAt(name, k).None?
    ensures IdSearchFrom(name, from) == IdSearchFrom(name, i)
    decreases i - from
  {
    if from < i {
      SearchReachesFirstMatch(name, from + 1, i);
    }
  }

  /** What `all_books` yields before it stops, for a given way `idOf` of
      reading the id out of a member name: the record files in archive order
      with their ids, and the name of the first record file whose name holds
      no id, where the generator raises. */
  function AllBooksBy(entries: seq<ArchiveEntry>, idOf: string -> Option<string>)
    : (seq<(string, ArchiveEntry)>, Option<string>)
  {
    if |entries| == 0 then ([], None)
    else
      var e := entries[0];
      var rest := AllBooksBy(entries[1..], idOf);
      if !IsRecordFile(e) then rest
      else if idOf(e.name).None? then ([], Some(e.name))
      else ([(idOf(e.name).value, e)] + rest.0, rest.1)
  }

  /** `all_books`, reading ids with `ID_IN_FILENAME`. */
  function AllBooks(entries: seq<ArchiveEntry>): (seq<(string, ArchiveEntry)>, Option<string>) {
    AllBooksBy(entries, FilenameId)
  }

  function EntriesOf(books: seq<(string, ArchiveEntry)>): seq<ArchiveEntry> {
    if |books| == 0 then [] else [books[0].1] + EntriesOf(books[1..])
  }

  /** Every yielded book is a record file paired with the id its name carries. */
  lemma {:induction false} AllBooksIds(entries: seq<ArchiveEntry>, idOf: string -> Option<string>)
    ensures forall k :: 0 <= k < |AllBooksBy(entries, idOf).0| ==>
      IsRecordFile(AllBooksBy(entries, idOf).0[k].1) &&
      idOf(AllBooksBy(entries, idOf).0[k].1.name) == Some(AllBooksBy(entries, idOf).0[k].0)
  {
    if |entries| > 0 {
      var e := entries[0];
      AllBooksIds(entries[1..], idOf);
      var books := AllBooksBy(entries[1..], idOf).0;
      if IsRecordFile(e) && idOf(e.name).Some? {
        var id := idOf(e.name).value;
        assert forall k :: 1 <= k < |books| + 1 ==> ([(id, e)] + books)[k] == books[k - 1];
      }
    }
  }

  /** With every record file named after an id, the yielded books are the
      record files of the archive, in order. */
  lemma {:induction false} AllBooksComplete(entries: seq<ArchiveEntry>, idOf: string -> Option<string>)
    requires AllBooksBy(entries, idOf).1.None?
    ensures EntriesOf(AllBooksBy(entries, idOf).0) == Filter(entries, IsRecordFile)
  {
    if |entries| > 0 {
      var e := entries[0];
      AllBooksComplete(entries[1..], idOf);
      if IsRecordFile(e) {
        var id := idOf(e.name).value;
        assert ([(id, e)] + AllBooksBy(entries[1..], idOf).0)[1..] == AllBooksBy(entries[1..], idOf).0;
      }
    }
  }

  /** Otherwise the generator stops at the first record file whose name holds
      no id, having yielded the record files before it, in order. */
  lemma {:induction false} AllBooksStops(entries: seq<ArchiveEntry>, idOf: string -> Option<string>)
    requires AllBooksBy(entries, idOf).1.Some?
    ensures exists i ::
      0 <= i < |entries| && IsRecordFile(entries[i]) && idOf(entries[i].name).None? &&
      AllBooksBy(entries, idOf).1 == Some(entries[i].name) &&
      EntriesOf(AllBooksBy(entries, idOf).0) == Filter(entries[..i], IsRecordFile)
  {
    var e := entries[0];
    var tail := entries[1..];
    if IsRecordFile(e) && idOf(e.name).None? {
      assert entries[..0] == [];
    } else {
      AllBooksStops(tail, idOf);
      var i :| 0 <= i < |tail| && IsRecordFile(tail[i]) && idOf(tail[i].name).None? &&
        AllBooksBy(tail, idOf).1 == Some(tail[i].name) &&
        EntriesOf(AllBooksBy(tail, idOf).0) == Filter(tail[..i], IsRecordFile);
      AllBooksStopsStep(entries, idOf, i);
      assert entries[i + 1] == tail[i];
    }
  }

  /** The step of `AllBooksStops`: a first entry the walk passes over adds
      itself, when it is a record file, in front of both sides. */
  lemma AllBooksStopsStep(entries: seq<ArchiveEntry>, idOf: string -> Option<string>, i: nat)
    requires |entries| > 0 && !(IsRecordFile(entries[0]) && idOf(entries[0].name).None?)
    requires i < |entries| - 1
    requires EntriesOf(AllBooksBy(entries[1..], idOf).0) == Filter(entries[1..][..i], IsRecordFile)
    ensures EntriesOf(AllBooksBy(entries, idOf).0) == Filter(entries[..i + 1], IsRecordFile)
  {
    var prefix := entries[..i + 1];
    assert prefix[0] == entries[0] && prefix[1..] == entries[1..][..i];
    FilterCons(prefix, IsRecordFile);
    AllBooksHead(entries, idOf);
  }

  /** A first entry that does not stop the walk contributes itself, when it
      is a record file, ahead of the books of the rest. */
  lemma AllBooksHead(entries: seq<ArchiveEntry>, idOf: string -> Option<string>)
    requires |entries| > 0 && !(IsRecordFile(entries[0]) && idOf(entries[0].name).None?)
    ensures EntriesOf(AllBooksBy(entries, idOf).0) ==
      (if IsRecordFile(entries[0]) then [entries[0]] else []) + EntriesOf(AllBooksBy(entries[1..], idOf).0)
  {
    var e := entries[0];
    var books := AllBooksBy(entries[1..], idOf).0;
    if IsRecordFile(e) {
      var id := idOf(e.name).value;
      assert ([(id, e)] + books)[1..] == books;
    }
  }

  /** The optional `subset` callback: no callback selects everything. */
  function Selected(subset: Option<(string, ArchiveEntry) -> bool>, id: string, e: ArchiveEntry): bool {
    subset.None? || subset.value(id, e)
  }

  datatype CatalogError =
    | NoIdInFilename(name: string)
    | RecordFailed(pgId: string, error: ExtractError)

  /** Where a `create_missing_books` run stands: the editions yielded so far,
      the edition store, the ids holding an open-access licence pool, and the
      error that ended the run early, if one did. */
  datatype Outcome = Outcome(
    yielded: seq<Edition>,
    store: map<string, Edition>,
    licensed: set<string>,
    failure: Option<CatalogError>)

  /** How one record is extracted: `BookIn` with the run's lookups. */
  type Extractor = (Graph, string, map<string, Edition>) -> Result<Option<Extraction>, ExtractError>

  function ExtractWith(lookups: Lookups): Extractor {
    (g: Graph, id: string, store: map<string, Edition>) => BookIn(g, id, store, lookups)
  }

  /** An extraction only ever adds to the edition store. */
  ghost predicate StoreGrows(extract: Extractor) {
    forall g, id, store :: extract(g, id, store).Ok? && extract(g, id, store).value.Some? ==>
      store.Keys <= extract(g, id, store).value.value.store.Keys
  }

  /** `book_in` keeps every edition it was given. */
  lemma ExtractWithGrows(lookups: Lookups)
    ensures StoreGrows(ExtractWith(lookups))
  {
    forall g, id, store | BookIn(g, id, store, lookups).Ok? && BookIn(g, id, store, lookups).value.Some?
      ensures store.Keys <= BookIn(g, id, store, lookups).value.value.store.Keys
    {
      var titles := TitleTriples(g);
      var x := ParseBook(g, titles[0].subject, titles[0].obj, store, lookups).value;
      assert BookIn(g, id, store, lookups).value.value == x;
    }
  }

  /** The loop body of `create_missing_books` over the yielded books: skip a
      book the subset rejects or whose id already has an edition, otherwise
      extract it; an extraction error ends the run. */
  function Ingest(books: seq<(string, ArchiveEntry)>, store: map<string, Edition>, licensed: set<string>,
                  subset: Option<(string, ArchiveEntry) -> bool>, extract: Extractor): (out: Outcome)
    ensures licensed <= out.licensed
    ensures |out.yielded| <= |books|
    decreases |books|
  {
    if |books| == 0 then Outcome([], store, licensed, None)
    else
      var (id, e) := books[0];
      if !Selected(subset, id, e) || id in store then Ingest(books[1..], store, licensed, subset, extract)
      else match extract(e.record, id, store)
        case Err(err) => Outcome([], store, licensed, Some(RecordFailed(id, err)))
        case Ok(None) => Ingest(books[1..], store, licensed, subset, extract)
        case Ok(Some(x)) =>
          var rest := Ingest(books[1..], x.store, licensed + {x.edition.gutenbergId}, subset, extract);
          rest.(yielded := [x.edition] + rest.yielded)
  }

  /** `create_missing_books`: the books of the archive, extracted in order. */
  function CreateMissingBooks(entries: seq<ArchiveEntry>, store: map<string, Edition>, licensed: set<string>,
                              subset: Option<(string, ArchiveEntry) -> bool>, lookups: Lookups): Outcome
  {
    var (books, bad) := AllBooks(entries);
    var out := Ingest(books, store, licensed, subset, ExtractWith(lookups));
    if out.failure.None? && bad.Some? then out.(failure := Some(NoIdInFilename(bad.value))) else out
  }

  /** With an extraction that only adds, a run never removes an edition. */
  lemma {:induction false} IngestKeepsStore(books: seq<(string, ArchiveEntry)>, store: map<string, Edition>, licensed: set<string>,
                                            subset: Option<(string, ArchiveEntry) -> bool>, extract: Extractor)
    requires StoreGrows(extract)
    ensures store.Keys <= Ingest(books, store, licensed, subset, extract).store.Keys
    decreases |books|
  {
    if |books| > 0 {
      var (id, e) := books[0];
      var r := extract(e.record, id, store);
      if Selected(subset, id, e) && id !in store && r.Ok? && r.value.Some? {
        IngestKeepsStore(books[1..], r.value.value.store, licensed + {r.value.value.edition.gutenbergId}, subset, extract);
      } else {
        IngestKeepsStore(books[1..], store, licensed, subset, extract);
      }
    }
  }

  /** A run over books whose ids all have editions already extracts nothing
      and changes nothing. */
  lemma {:induction false} IngestSkipsKnown(books: seq<(string, ArchiveEntry)>, store: map<string, Edition>, licensed: set<string>,
                                            subset: Option<(string, ArchiveEntry) -> bool>, extract: Extractor)
    requires forall k :: 0 <= k < |books| ==> books[k].0 in store
    ensures Ingest(books, store, licensed, subset, extract) == Outcome([], store, licensed, None)
    decreases |books|
  {
    if |books| > 0 {
      IngestSkipsKnown(books[1..], store, licensed, subset, extract);
    }
  }

  /** The ids of a sequence of editions. */
  function IdsOf(eds: seq<Edition>): set<string> {
    if |eds| == 0 then {} else {eds[0].gutenbergId} + IdsOf(eds[1..])
  }

  /** Every yielded edition holds a licence pool, and the run adds no licence
      for anything it did not yield. */
  lemma {:induction false} IngestLicenses(books: seq<(string, ArchiveEntry)>, store: map<string, Edition>, licensed: set<string>,
                                          subset: Option<(string, ArchiveEntry) -> bool>, extract: Extractor)
    ensures var out := Ingest(books, store, licensed, subset, extract);
      out.licensed == licensed + IdsOf(out.yielded)
    decreases |books|
  {
    if |books| > 0 {
      var (id, e) := books[0];
      if Selected(subset, id, e) && id !in store {
        var r := extract(e.record, id, store);
        if r.Ok? && r.value.Some? {
          var x := r.value.value;
          var lic := licensed + {x.edition.gutenbergId};
          IngestLicenses(books[1..], x.store, lic, subset, extract);
          var rest := Ingest(books[1..], x.store, lic, subset, extract);
          assert ([x.edition] + rest.yielded)[1..] == rest.yielded;
        } else if r.Ok? {
          IngestLicenses(books[1..], store, licensed, subset, extract);
        }
      } else {
        IngestLicenses(books[1..], store, licensed, subset, extract);
      }
    }
  }

  /** A book the run would extract: selected, and with no edition for its id. */
  predicate Missing(book: (string, ArchiveEntry), store: map<string, Edition>,
                    subset: Option<(string, ArchiveEntry) -> bool>) {
    book.0 !in store && Selected(subset, book.0, book.1)
  }

  /** How many books are missing from the store. */
  function MissingCount(books: seq<(string, ArchiveEntry)>, store: map<string, Edition>,
                        subset: Option<(string, ArchiveEntry) -> bool>): nat {
    if |books| == 0 then 0
    else (if Missing(books[0], store, subset) then 1 else 0) + MissingCount(books[1..], store, subset)
  }

  /** A larger store leaves fewer books missing. */
  lemma {:induction false} MissingCountShrinks(books: seq<(string, ArchiveEntry)>, store: map<string, Edition>,
                                               later: map<string, Edition>, subset: Option<(string, ArchiveEntry) -> bool>)
    requires store.Keys <= later.Keys
    ensures MissingCount(books, later, subset) <= MissingCount(books, store, subset)
  {
    if |books| > 0 {
      MissingCountShrinks(books[1..], store, later, subset);
    }
  }

  /** The run yields no more editions than there were books missing from
      the store when it started. */
  lemma {:induction false} IngestYieldsOnlyMissing(books: seq<(string, ArchiveEntry)>, store: map<string, Edition>, licensed: set<string>,
                                                   subset: Option<(string, ArchiveEntry) -> bool>, extract: Extractor)
    requires StoreGrows(extract)
    ensures |Ingest(books, store, licensed, subset, extract).yielded| <= MissingCount(books, store, subset)
    decreases |books|
  {
    if |books| > 0 {
      var (id, e) := books[0];
      var tail := books[1..];
      if Selected(subset, id, e) && id !in store {
        var r := extract(e.record, id, store);
        if r.Ok? && r.value.Some? {
          var x := r.value.value;
          var lic := licensed + {x.edition.gutenbergId};
          IngestYieldsOnlyMissing(tail, x.store, lic, subset, extract);
          MissingCountShrinks(tail, store, x.store, subset);
        } else if r.Ok? {
          IngestYieldsOnlyMissing(tail, store, licensed, subset, extract);
        }
      } else {
        IngestYieldsOnlyMissing(tail, store, licensed, subset, extract);
      }
    }
  }

  /** The skip rule, one book at a time: a head book that is known or not
      selected is passed over without calling the extraction, whatever
      follows it. */
  lemma IngestSkipsHead(books: seq<(string, ArchiveEntry)>, store: map<string, Edition>, licensed: set<string>,
                        subset: Option<(string, ArchiveEntry) -> bool>, extract: Extractor)
    requires |books| > 0 && !Missing(books[0], store, subset)
    ensures Ingest(books, store, licensed, subset, extract) == Ingest(books[1..], store, licensed, subset, extract)
  {
  }

  /** The condition read at the first book. */
  lemma ExtractsHead(books: seq<(string, ArchiveEntry)>, store: map<string, Edition>,
                     subset: Option<(string, ArchiveEntry) -> bool>, extract: Extractor)
    requires |books| > 0 && Missing(books[0], store, subset) && ExtractsEach(books, subset, extract)
    ensures var r := extract(books[0].1.record, books[0].0, store);
      r.Ok? && r.value.Some? && r.value.value.edition.gutenbergId == books[0].0 &&
      r.value.value.store.Keys == store.Keys + {books[0].0}
  {
  }

  /** A missing book at the head of a run that extracts is yielded first,
      and the run goes on from the store and licences the extraction left. */
  lemma IngestExtractsHead(books: seq<(string, ArchiveEntry)>, store: map<string, Edition>, licensed: set<string>,
                           subset: Option<(string, ArchiveEntry) -> bool>, extract: Extractor)
    requires |books| > 0 && Missing(books[0], store, subset)
    requires extract(books[0].1.record, books[0].0, store).Ok? && extract(books[0].1.record, books[0].0, store).value.Some?
    ensures var x := extract(books[0].1.record, books[0].0, store).value.value;
      var rest := Ingest(books[1..], x.store, licensed + {x.edition.gutenbergId}, subset, extract);
      Ingest(books, store, licensed, subset, extract) == rest.(yielded := [x.edition] + rest.yielded)
  {
  }

  /** The ids of the missing books, in archive order. */
  function MissingIds(books: seq<(string, ArchiveEntry)>, store: map<string, Edition>,
                      subset: Option<(string, ArchiveEntry) -> bool>): (ids: seq<string>)
    ensures |ids| == MissingCount(books, store, subset)
  {
    if |books| == 0 then []
    else (if Missing(books[0], store, subset) then [books[0].0] else []) + MissingIds(books[1..], store, subset)
  }

  /** The Gutenberg ids of a sequence of editions, in order. */
  function YieldedIds(eds: seq<Edition>): (ids: seq<string>)
    ensures |ids| == |eds|
    ensures forall k :: 0 <= k < |eds| ==> ids[k] == eds[k].gutenbergId
  {
    if |eds| == 0 then [] else [eds[0].gutenbergId] + YieldedIds(eds[1..])
  }

  /** Every selected book the store lacks is extracted, whatever the store,
      to an edition with the book's id that adds exactly that id. */
  ghost predicate ExtractsEach(books: seq<(string, ArchiveEntry)>, subset: Option<(string, ArchiveEntry) -> bool>,
                               extract: Extractor) {
    forall k, st :: 0 <= k < |books| && Selected(subset, books[k].0, books[k].1) && books[k].0 !in st ==>
      var r := extract(books[k].1.record, books[k].0, st);
      r.Ok? && r.value.Some? && r.value.value.edition.gutenbergId == books[k].0 &&
      r.value.value.store.Keys == st.Keys + {books[k].0}
  }

  /** The archive names each book once. */
  predicate DistinctIds(books: seq<(string, ArchiveEntry)>) {
    forall i, j :: 0 <= i < j < |books| ==> books[i].0 != books[j].0
  }

  /** Adding an id the books do not carry leaves the same books missing. */
  lemma {:induction false} MissingIdsIgnores(books: seq<(string, ArchiveEntry)>, store: map<string, Edition>,
                                             later: map<string, Edition>, id: string,
                                             subset: Option<(string, ArchiveEntry) -> bool>)
    requires later.Keys == store.Keys + {id}
    requires forall k :: 0 <= k < |books| ==> books[k].0 != id
    ensures MissingIds(books, later, subset) == MissingIds(books, store, subset)
    decreases |books|
  {
    if |books| > 0 {
      MissingIdsIgnores(books[1..], store, later, id, subset);
    }
  }

  /** Both conditions hold of the books after the first, and the first
      book's id is not among theirs. */
  lemma ExtractsEachTail(books: seq<(string, ArchiveEntry)>, subset: Option<(string, ArchiveEntry) -> bool>,
                         extract: Extractor)
    requires |books| > 0 && DistinctIds(books) && ExtractsEach(books, subset, extract)
    ensures DistinctIds(books[1..]) && ExtractsEach(books[1..], subset, extract)
    ensures forall k :: 0 <= k < |books[1..]| ==> books[1..][k].0 != books[0].0
  {
    var tail := books[1..];
    forall k, st | 0 <= k < |tail| && Selected(subset, tail[k].0, tail[k].1) && tail[k].0 !in st
      ensures var r := extract(tail[k].1.record, tail[k].0, st);
        r.Ok? && r.value.Some? && r.value.value.edition.gutenbergId == tail[k].0 &&
        r.value.value.store.Keys == st.Keys + {tail[k].0}
    {
      assert tail[k] == books[k + 1];
    }
    forall k | 0 <= k < |tail| ensures tail[k].0 != books[0].0 {
      assert tail[k] == books[k + 1];
    }
  }

  /** When every missing book extracts, the run ends without error and
      yields one edition per missing book, in archive order. */
  lemma {:induction false} IngestYieldsEachMissing(books: seq<(string, ArchiveEntry)>, store: map<string, Edition>,
                                                   licensed: set<string>, subset: Option<(string, ArchiveEntry) -> bool>,
                                                   extract: Extractor)
    requires DistinctIds(books) && ExtractsEach(books, subset, extract)
    ensures var out := Ingest(books, store, licensed, subset, extract);
      out.failure.None? && YieldedIds(out.yielded) == MissingIds(books, store, subset)
    ensures |Ingest(books, store, licensed, subset, extract).yielded| == MissingCount(books, store, subset)
    decreases |books|
  {
    if |books| > 0 {
      var (id, e) := books[0];
      var tail := books[1..];
      ExtractsEachTail(books, subset, extract);
      if Missing(books[0], store, subset) {
        var x := extract(e.record, id, store).value.value;
        var lic := licensed + {x.edition.gutenbergId};
        IngestYieldsEachMissing(tail, x.store, lic, subset, extract);
        MissingIdsIgnores(tail, store, x.store, id, subset);
        IngestExtractsHead(books, store, licensed, subset, extract);
        var rest := Ingest(tail, x.store, lic, subset, extract);
        assert ([x.edition] + rest.yielded)[1..] == rest.yielded;
        assert MissingIds(books, store, subset) == [id] + MissingIds(tail, store, subset);
      } else {
        IngestSkipsHead(books, store, licensed, subset, extract);
        IngestYieldsEachMissing(tail, store, licensed, subset, extract);
        assert MissingIds(books, store, subset) == MissingIds(tail, store, subset);
      }
    }
  }

  /** Under the same conditions the run leaves the store holding exactly the
      ids it held before and the missing ones. */
  lemma {:induction false} IngestStoresEachMissing(books: seq<(string, ArchiveEntry)>, store: map<string, Edition>,
                                                   licensed: set<string>, subset: Option<(string, ArchiveEntry) -> bool>,
                                                   extract: Extractor)
    requires DistinctIds(books) && ExtractsEach(books, subset, extract)
    ensures forall id :: id in Ingest(books, store, licensed, subset, extract).store <==>
      id in store || id in MissingIds(books, store, subset)
    decreases |books|
  {
    if |books| > 0 {
      var id := books[0].0;
      var tail := books[1..];
      var out := Ingest(books, store, licensed, subset, extract);
      ExtractsEachTail(books, subset, extract);
      if Missing(books[0], store, subset) {
        ExtractsHead(books, store, subset, extract);
        var x := extract(books[0].1.record, id, store).value.value;
        var lic := licensed + {x.edition.gutenbergId};
        IngestStoresEachMissing(tail, x.store, lic, subset, extract);
        MissingIdsIgnores(tail, store, x.store, id, subset);
        IngestExtractsHead(books, store, licensed, subset, extract);
        var rest := Ingest(tail, x.store, lic, subset, extract);
        var missing := MissingIds(tail, store, subset);
        assert out.store == rest.store;
        assert MissingIds(books, store, subset) == [id] + missing;
        forall k ensures k in out.store <==> k in store || k in [id] + missing {
          assert k in rest.store <==> k in x.store || k in missing;
        }
      } else {
        IngestSkipsHead(books, store, licensed, subset, extract);
        IngestStoresEachMissing(tail, store, licensed, subset, extract);
        assert out == Ingest(tail, store, licensed, subset, extract);
        assert MissingIds(books, store, subset) == MissingIds(tail, store, subset);
      }
    }
  }

  /** An extraction error ends the run: nothing after the failing book is
      yielded and the store is left as it was before that book. */
  lemma {:induction false} IngestStopsAtError(books: seq<(string, ArchiveEntry)>, store: map<string, Edition>, licensed: set<string>,
                                              subset: Option<(string, ArchiveEntry) -> bool>, extract: Extractor)
    requires |books| > 0 && Selected(subset, books[0].0, books[0].1) && books[0].0 !in store
    requires extract(books[0].1.record, books[0].0, store).Err?
    ensures Ingest(books, store, licensed, subset, extract) ==
      Outcome([], store, licensed, Some(RecordFailed(books[0].0, extract(books[0].1.record, books[0].0, store).error)))
  {
  }

  /** A run over an archive whose record ids all have editions yields
      nothing and changes nothing; the only way it can end early is on a
      record file whose name holds no id. */
  lemma CreateMissingBooksKnown(entries: seq<ArchiveEntry>, store: map<string, Edition>, licensed: set<string>,
                                subset: Option<(string, ArchiveEntry) -> bool>, lookups: Lookups)
    requires forall k :: 0 <= k < |entries| && IsRecordFile(entries[k]) && FilenameId(entries[k].name).Some? ==>
               FilenameId(entries[k].name).value in store
    ensures var out := CreateMissingBooks(entries, store, licensed, subset, lookups);
      out.yielded == [] && out.store == store && out.licensed == licensed &&
      (out.failure.Some? ==> out.failure.value.NoIdInFilename?)
  {
    AllBooksIds(entries, FilenameId);
    if AllBooks(entries).1.Some? {
      AllBooksStops(entries, FilenameId);
    } else {
      AllBooksComplete(entries, FilenameId);
    }
    var books := AllBooks(entries).0;
    assert forall k :: 0 <= k < |books| ==> books[k].0 in store by {
      forall k | 0 <= k < |books| ensures books[k].0 in store {
        EntriesOfMember(books, k);
        var e := books[k].1;
        assert e in EntriesOf(books);
        assert e in entries;
      }
    }
    IngestSkipsKnown(books, store, licensed, subset, ExtractWith(lookups));
  }

  lemma EntriesOfMember(books: seq<(string, ArchiveEntry)>, k: nat)
    requires k < |books|
    ensures books[k].1 in EntriesOf(books)
  {
    if k > 0 {
      EntriesOfMember(books[1..], k - 1);
    }
  }
}

=== FILE: epub_coverage.dfy ===
/** `GutenbergEPUBCoverageProvider` (coverage.py): finding the EPUB of a
    Project Gutenberg book in the local EPUB mirror and announcing it as an
    open-access download. */
module EpubCoverage {
  import opened Wrappers
  import opened Strings
  import Paths

  predicate IsEpub(f: string) { EndsWith(f, ".epub") }

  predicate IsImagesEpub(f: string) { EndsWith(f, "-images.epub") }

  lemma ImagesEpubIsEpub(f: string)
    requires IsImagesEpub(f)
    ensures IsEpub(f)
  {
    assert f[|f| - 5..] == f[|f| - 12..][7..];
  }

  /** The first file satisfying `p`, in listing order. */
  function FirstMatching(files: seq<string>, p: string -> bool): Option<string> {
    if |files| == 0 then None
    else if p(files[0]) then Some(files[0])
    else FirstMatching(files[1..], p)
  }

  /** There is a first match exactly when some file satisfies `p`, and it is
      a file of the listing with no earlier file satisfying `p`. */
  lemma {:induction false} FirstMatchingSpec(files: seq<string>, p: string -> bool)
    ensures var r := FirstMatching(files, p);
      r.None? <==> forall k :: 0 <= k < |files| ==> !p(files[k])
    ensures var r := FirstMatching(files, p);
      r.Some? ==> exists k :: 0 <= k < |files| && files[k] == r.value && p(r.value) &&
                              forall j :: 0 <= j < k ==> !p(files[j])
  {
    if |files| > 0 && !p(files[0]) {
      FirstMatchingSpec(files[1..], p);
      assert forall k :: 1 <= k < |files| ==> files[k] == files[1..][k - 1];
      var r := FirstMatching(files[1..], p);
      if r.Some? {
        var k :| 0 <= k < |files[1..]| && files[1..][k] == r.value && p(r.value) &&
                 forall j :: 0 <= j < k ==> !p(files[1..][j]);
        assert files[k + 1] == r.value;
      }
    }
  }

  /** The best EPUB of a listing: the first `-images.epub` file, or else the
      first `.epub` file. */
  function BestEpub(files: seq<string>): Option<string> {
    var withImages := FirstMatching(files, IsImagesEpub);
    if withImages.Some? then withImages else FirstMatching(files, IsEpub)
  }

  /** The best EPUB is an EPUB of the listing, there is one exactly when the
      listing holds an EPUB, the first EPUB with images wins over the others,
      and without one the first EPUB in listing order wins. */
  lemma BestEpubSpec(files: seq<string>)
    ensures BestEpub(files).None? <==> forall k :: 0 <= k < |files| ==> !IsEpub(files[k])
    ensures BestEpub(files).Some? ==> BestEpub(files).value in files && IsEpub(BestEpub(files).value)
    ensures (exists k :: 0 <= k < |files| && IsImagesEpub(files[k])) ==>
      BestEpub(files).Some? && IsImagesEpub(BestEpub(files).value) &&
      exists k :: 0 <= k < |files| && files[k] == BestEpub(files).value &&
        forall j :: 0 <= j < k ==> !IsImagesEpub(files[j])
    ensures (forall k :: 0 <= k < |files| ==> !IsImagesEpub(files[k])) && BestEpub(files).Some? ==>
      exists k :: 0 <= k < |files| && files[k] == BestEpub(files).value &&
        forall j :: 0 <= j < k ==> !IsEpub(files[j])
  {
    FirstMatchingSpec(files, IsImagesEpub);
    FirstMatchingSpec(files, IsEpub);
    var withImages := FirstMatching(files, IsImagesEpub);
    if withImages.Some? {
      ImagesEpubIsEpub(withImages.value);
      var k :| 0 <= k < |files| && files[k] == withImages.value && IsImagesEpub(withImages.value);
      assert !forall k :: 0 <= k < |files| ==> !IsEpub(files[k]) by {
        assert IsEpub(files[k]);
      }
    }
  }

  /** `best_epub_in`: one pass over the listing that stops at the first EPUB
      with images and otherwise remembers the first EPUB it saw. */
  method BestEpubIn(files: seq<string>) returns (best: Option<string>)
    ensures best == BestEpub(files)
  {
    var withoutImages: Option<string> := None;
    var k := 0;
    while k < |files|
      invariant 0 <= k <= |files|
      invariant forall j :: 0 <= j < k ==> !IsImagesEpub(files[j])
      invariant withoutImages == FirstMatching(files[..k], IsEpub)
    {
      var f := files[k];
      FirstMatchingExtend(files, k, IsEpub);
      if IsEpub(f) {
        if IsImagesEpub(f) {
          FirstImagesAt(files, k);
          return Some(f);
        } else if withoutImages.None? {
          withoutImages := Some(f);
        }
      }
      k := k + 1;
    }
    assert files[..k] == files;
    FirstMatchingSpec(files, IsImagesEpub);
    best := withoutImages;
  }

  lemma FirstImagesAt(files: seq<string>, k: nat)
    requires k < |files| && IsImagesEpub(files[k])
    requires forall j :: 0 <= j < k ==> !IsImagesEpub(files[j])
    ensures BestEpub(files) == Some(files[k])
  {
    FirstMatchingSpec(files, IsImagesEpub);
    var r := FirstMatching(files, IsImagesEpub);
    var i :| 0 <= i < |files| && files[i] == r.value && IsImagesEpub(r.value) &&
             forall j :: 0 <= j < i ==> !IsImagesEpub(files[j]);
    assert i == k;
  }

  /** Looking one file further extends the first-match search. */
  lemma FirstMatchingExtend(files: seq<string>, k: nat, p: string -> bool)
    requires k < |files|
    ensures FirstMatching(files[..k + 1], p) ==
      if FirstMatching(files[..k], p).Some? then FirstMatching(files[..k], p)
      else if p(files[k]) then Some(files[k]) else None
  {
    assert files[..k + 1] == files[..k] + [files[k]];
    FirstMatchingSnoc(files[..k], files[k], p);
  }

  lemma {:induction false} FirstMatchingSnoc(s: seq<string>, x: string, p: string -> bool)
    ensures FirstMatching(s + [x], p) ==
      if FirstMatching(s, p).Some? then FirstMatching(s, p)
      else if p(x) then Some(x) else None
  {
    if |s| > 0 {
      assert (s + [x])[1..] == s[1..] + [x];
      FirstMatchingSnoc(s[1..], x, p);
    } else {
      assert s + [x] == [x];
    }
  }

  /** The identifier types the provider distinguishes. */
  datatype IdType = GutenbergId | OtherIdType

  datatype Identifier = Identifier(idType: IdType, identifier: string)

  /** `epub_path_for`: the best EPUB in the book's directory of the EPUB
      mirror, where `listing` maps each existing directory to its files. */
  function EpubPathFor(id: Identifier, epubMirror: string, listing: map<string, seq<string>>): Option<string> {
    if id.idType != GutenbergId then None
    else
      var dir := Paths.Join(epubMirror, id.identifier);
      if dir !in listing then None
      else
        match BestEpub(listing[dir])
        case None => None
        case Some(f) => Some(Paths.Join(dir, f))
  }

  /** A path is found exactly for a Gutenberg identifier whose mirror
      directory exists and lists an EPUB, and it is that directory joined
      with the best EPUB there: the first `-images` EPUB, else the first
      EPUB (`BestEpubSpec`). */
  lemma EpubPathForSpec(id: Identifier, epubMirror: string, listing: map<string, seq<string>>)
    ensures var dir := Paths.Join(epubMirror, id.identifier);
      EpubPathFor(id, epubMirror, listing).Some? <==>
        id.idType == GutenbergId && dir in listing && exists k :: 0 <= k < |listing[dir]| && IsEpub(listing[dir][k])
    ensures var dir := Paths.Join(epubMirror, id.identifier);
      EpubPathFor(id, epubMirror, listing).Some? ==>
        exists f :: f in listing[dir] && IsEpub(f) && EpubPathFor(id, epubMirror, listing) == Some(Paths.Join(dir, f))
    ensures var dir := Paths.Join(epubMirror, id.identifier);
      EpubPathFor(id, epubMirror, listing).Some? ==>
        BestEpub(listing[dir]).Some? && EpubPathFor(id, epubMirror, listing) == Some(Paths.Join(dir, BestEpub(listing[dir]).value))
  {
    var dir := Paths.Join(epubMirror, id.identifier);
    if id.idType == GutenbergId && dir in listing {
      BestEpubSpec(listing[dir]);
    }
  }

  /** The open-access link the provider adds and mirrors. */
  datatype EpubLink = EpubLink(url: string, mediaType: string, contentPath: string)

  const EPUB_MEDIA_TYPE := "application/epub+zip"

  /** `process_edition`: no EPUB means the edition is not covered; otherwise
      the EPUB is linked under the uploader's URL for the book and mirrored.
      `bookUrl` is the uploader's URL for the identifier's EPUB. */
  function ProcessEdition(id: Identifier, epubMirror: string, listing: map<string, seq<string>>, bookUrl: string)
    : (r: Option<EpubLink>)
  {
    match EpubPathFor(id, epubMirror, listing)
    case None => None
    case Some(path) => Some(EpubLink(bookUrl, EPUB_MEDIA_TYPE, path))
  }

  /** The edition is covered exactly when it has a Gutenberg identifier whose
      mirror directory lists an EPUB; the link then serves the best EPUB file
      of that directory, as an EPUB, at the uploader's URL. */
  lemma ProcessEditionSpec(id: Identifier, epubMirror: string, listing: map<string, seq<string>>, bookUrl: string)
    ensures var dir := Paths.Join(epubMirror, id.identifier);
      ProcessEdition(id, epubMirror, listing, bookUrl).Some? <==>
        id.idType == GutenbergId && dir in listing && exists k :: 0 <= k < |listing[dir]| && IsEpub(listing[dir][k])
    ensures var dir := Paths.Join(epubMirror, id.identifier);
      ProcessEdition(id, epubMirror, listing, bookUrl).Some? ==>
        var link := ProcessEdition(id, epubMirror, listing, bookUrl).value;
        link.url == bookUrl && link.mediaType == EPUB_MEDIA_TYPE &&
        exists f :: f in listing[dir] && IsEpub(f) && link.contentPath == Paths.Join(dir, f)
    ensures var dir := Paths.Join(epubMirror, id.identifier);
      ProcessEdition(id, epubMirror, listing, bookUrl).Some? ==>
        ProcessEdition(id, epubMirror, listing, bookUrl).value.contentPath == Paths.Join(dir, BestEpub(listing[dir]).value)
  {
    EpubPathForSpec(id, epubMirror, listing);
  }
}

=== FILE: epub_filter.dfy ===
/** `EpubFilter` and its Gutenberg and Feedbooks subclasses (bibblio.py):
    distributor boilerplate to strip from a book's text before it is sent
    to Bibblio. A regular expression is kept as its source text; running it
    is the `removeAll` parameter, which stands for `re.sub(pattern, '', text)`. */
module EpubFilters {
  import opened Strings

  /** A compiled regular expression: its source and whether it ignores case. */
  datatype Pattern = Pattern(source: string, ignoreCase: bool)

  /** The filler placed between the words of a phrase: any whitespace. */
  const FILLER_RE := "\\s*"

  /** A distributor's filter: spine items to ignore and phrases to remove,
      most specific first. */
  datatype EpubFilter = EpubFilter(spineIdrefs: set<string>, filteredPhrases: seq<string>)

  const GutenbergEpubFilter := EpubFilter(
    {"pg-header"},
    [ "This ebook is for the use of anyone anywhere (in the United"
      + " States)? (and most other parts of the world)? at no cost and"
      + " with almost no restrictions whatsoever. You may copy it,"
      + " give it away or re-use it under the terms of the Project"
      + " Gutenberg License included with this ebook or online at"
      + " (http)?s?(://)?www.gutenberg.org(/license)?. If you are not"
      + " locatedin the United States, you'll have to check the"
      + " laws of the country where you are located before using"
      + " this ebook.",
      "This eBook is for the use of anyone anywhere at no cost and"
      + " with almost no restrictions whatsoever. You may copy it,"
      + " give it away or re-use it under the terms of the Project"
      + " Gutenberg License included with this eBook or online at"
      + " (http)?s?(://)?www.gutenberg.org(/license)?",
      "(http)?s?(://)?www.gutenberg.org/(\\w|\\.|-)*",
      "The Project Gutenberg Ebook of",
      "Project Gutenberg License",
      "Project Gutenberg Ebook",
      "Project Gutenberg" ])

  const FeedbooksEpubFilter := EpubFilter({"feedbooks"}, [])

  /** `phrase_regex`: the phrase's words joined by the whitespace filler,
      matched without regard to case. */
  function PhraseRegex(phrase: string): (p: Pattern)
    ensures p.ignoreCase
  {
    Pattern(Join(Words(phrase), FILLER_RE), true)
  }

  /** The pattern holds no whitespace: every gap between words became the
      filler; a phrase with no words gives the empty pattern; and a single
      word is its own pattern. */
  lemma PhraseRegexSpec(phrase: string)
    ensures forall k :: 0 <= k < |PhraseRegex(phrase).source| ==> !IsSpace(PhraseRegex(phrase).source[k])
    ensures NonSpace(phrase) == "" ==> PhraseRegex(phrase).source == ""
    ensures |phrase| > 0 && (forall k :: 0 <= k < |phrase| ==> !IsSpace(phrase[k])) ==>
      PhraseRegex(phrase).source == phrase
  {
    JoinNoSpace(Words(phrase));
    WordsCoverNonSpace(phrase);
    if |phrase| > 0 && forall k :: 0 <= k < |phrase| ==> !IsSpace(phrase[k]) {
      WordsOfWord(phrase);
    }
  }

  /** The pattern gives the phrase's words back: splitting it on the filler
      yields exactly the words, in order, when no word itself holds the
      filler; and the words are the phrase's non-space characters. */
  lemma PhraseRegexWords(phrase: string)
    requires |Words(phrase)| > 0
    requires forall k :: 0 <= k < |Words(phrase)| ==> !Contains(Words(phrase)[k], FILLER_RE)
    ensures Split(PhraseRegex(phrase).source, FILLER_RE) == Words(phrase)
    ensures Concat(Words(phrase)) == NonSpace(phrase)
  {
    SplitJoinFiller(Words(phrase));
    WordsCoverNonSpace(phrase);
  }

  /** The filler cannot start inside a part it follows: it begins with a
      backslash and holds no other one. */
  lemma FillerNotInside(first: string, rest: string, j: nat)
    requires !Contains(first, FILLER_RE) && j < |first|
    ensures !OccursAt(first + FILLER_RE + rest, FILLER_RE, j)
  {
    var s := first + FILLER_RE + rest;
    if j + |FILLER_RE| <= |first| {
      assert !OccursAt(first, FILLER_RE, j);
      assert first[j..j + |FILLER_RE|] == s[j..j + |FILLER_RE|];
    } else {
      var d := |first| - j;
      assert s[|first|] == '\\' != FILLER_RE[d];
      assert s[j..j + |FILLER_RE|][d] == s[|first|];
    }
  }

  /** Parts that do not hold the filler, joined by it and split on it again,
      come back unchanged. */
  lemma {:induction false} SplitJoinFiller(parts: seq<string>)
    requires |parts| > 0 && forall k :: 0 <= k < |parts| ==> !Contains(parts[k], FILLER_RE)
    ensures Split(Join(parts, FILLER_RE), FILLER_RE) == parts
    decreases |parts|
  {
    if |parts| == 1 {
      assert Join(parts, FILLER_RE) == parts[0];
    } else {
      var first, rest := parts[0], Join(parts[1..], FILLER_RE);
      var s := first + FILLER_RE + rest;
      assert Join(parts, FILLER_RE) == s;
      assert s[|first|..|first| + |FILLER_RE|] == FILLER_RE;
      assert OccursAt(s, FILLER_RE, |first|);
      var i := Find(s, FILLER_RE).value;
      if i < |first| {
        FillerNotInside(first, rest, i);
      }
      assert i == |first|;
      SplitStep(s, FILLER_RE, i);
      assert s[..i] == first;
      assert s[i + |FILLER_RE|..] == rest;
      SplitJoinFiller(parts[1..]);
      assert [first] + parts[1..] == parts;
    }
  }

  /** Words without whitespace joined by the filler hold no whitespace. */
  lemma {:induction false} JoinNoSpace(ws: seq<string>)
    requires forall k, m :: 0 <= k < |ws| && 0 <= m < |ws[k]| ==> !IsSpace(ws[k][m])
    ensures forall k :: 0 <= k < |Join(ws, FILLER_RE)| ==> !IsSpace(Join(ws, FILLER_RE)[k])
    decreases |ws|
  {
    if |ws| > 1 {
      JoinNoSpace(ws[1..]);
      JoinCons(ws[0], ws[1..], FILLER_RE);
      assert [ws[0]] + ws[1..] == ws;
      var tail := Join(ws[1..], FILLER_RE);
      var whole := ws[0] + FILLER_RE + tail;
      forall k | 0 <= k < |whole|
        ensures !IsSpace(whole[k])
      {
        if k < |ws[0]| {
          assert whole[k] == ws[0][k];
        } else if k < |ws[0]| + |FILLER_RE| {
          assert whole[k] == FILLER_RE[k - |ws[0]|];
        } else {
          assert whole[k] == tail[k - |ws[0]| - |FILLER_RE|];
        }
      }
    } else if |ws| == 1 {
      assert Join(ws, FILLER_RE) == ws[0];
    }
  }

  /** A phrase that is one word splits into that word alone. */
  lemma WordsOfWord(w: string)
    requires |w| > 0 && forall k :: 0 <= k < |w| ==> !IsSpace(w[k])
    ensures Words(w) == [w]
  {
    WordLengthOfWord(w);
    assert w[..|w|] == w;
  }

  lemma {:induction false} WordLengthOfWord(w: string)
    requires forall k :: 0 <= k < |w| ==> !IsSpace(w[k])
    ensures WordLength(w) == |w|
  {
    if |w| > 0 {
      WordLengthOfWord(w[1..]);
    }
  }

  /** Removes every phrase of the list, in list order. */
  function RemovePhrases(phrases: seq<string>, text: string, removeAll: (Pattern, string) -> string): string
    decreases |phrases|
  {
    if |phrases| == 0 then text
    else RemovePhrases(phrases[1..], removeAll(PhraseRegex(phrases[0]), text), removeAll)
  }

  /** `EpubFilter.filter`. */
  function FilterText(f: EpubFilter, text: string, removeAll: (Pattern, string) -> string): string {
    RemovePhrases(f.filteredPhrases, text, removeAll)
  }

  /** Phrases are removed one after the other: a phrase appended to the list
      is removed from what the earlier ones left. */
  lemma {:induction false} RemovePhrasesSnoc(phrases: seq<string>, p: string, text: string,
                                             removeAll: (Pattern, string) -> string)
    ensures RemovePhrases(phrases + [p], text, removeAll) ==
            removeAll(PhraseRegex(p), RemovePhrases(phrases, text, removeAll))
    decreases |phrases|
  {
    if |phrases| == 0 {
      assert phrases + [p] == [p];
    } else {
      assert (phrases + [p])[1..] == phrases[1..] + [p];
      RemovePhrasesSnoc(phrases[1..], p, removeAll(PhraseRegex(phrases[0]), text), removeAll);
    }
  }

  /** When removing a pattern never lengthens a text, filtering does not
      either. */
  lemma {:induction false} RemovePhrasesShortens(phrases: seq<string>, text: string,
                                                 removeAll: (Pattern, string) -> string)
    requires forall p, t :: |removeAll(p, t)| <= |t|
    ensures |RemovePhrases(phrases, text, removeAll)| <= |text|
    decreases |phrases|
  {
    if |phrases| > 0 {
      RemovePhrasesShortens(phrases[1..], removeAll(PhraseRegex(phrases[0]), text), removeAll);
    }
  }

  /** The Feedbooks filter lists no phrases, so it leaves every text as it
      is; the Gutenberg filter removes its license phrase before the bare
      "Project Gutenberg". */
  lemma FilterConstants(text: string, removeAll: (Pattern, string) -> string)
    ensures FilterText(FeedbooksEpubFilter, text, removeAll) == text
    ensures |GutenbergEpubFilter.filteredPhrases| == 7
    ensures GutenbergEpubFilter.filteredPhrases[4] == "Project Gutenberg License"
    ensures GutenbergEpubFilter.filteredPhrases[6] == "Project Gutenberg"
    ensures FilterText(GutenbergEpubFilter, text, removeAll) ==
      removeAll(PhraseRegex("Project Gutenberg"),
                RemovePhrases(GutenbergEpubFilter.filteredPhrases[..6], text, removeAll))
  {
    var ps := GutenbergEpubFilter.filteredPhrases;
    assert ps == ps[..6] + [ps[6]];
    RemovePhrasesSnoc(ps[..6], ps[6], text, removeAll);
  }

  /** `filter_spine_idrefs` as written: it keeps an idref when the idref is
      in the list being filtered, not when it is outside `SPINE_IDREFS`. */
  function FilterSpineIdrefsAsWritten(f: EpubFilter, spineIdrefs: seq<string>): seq<string> {
    Filter(spineIdrefs, s => s in spineIdrefs)
  }

  /** As written, the filter keeps every idref, the ones it is meant to
      drop included. */
  lemma SpineIdrefsKeptAsWritten(f: EpubFilter, spineIdrefs: seq<string>)
    ensures FilterSpineIdrefsAsWritten(f, spineIdrefs) == spineIdrefs
    ensures FilterSpineIdrefsAsWritten(GutenbergEpubFilter, ["pg-header", "chapter-1"]) == ["pg-header", "chapter-1"]
  {
    FilterKeepsAll(spineIdrefs, s => s in spineIdrefs);
    var ids := ["pg-header", "chapter-1"];
    FilterKeepsAll(ids, s => s in ids);
  }

  lemma {:induction false} FilterKeepsAll<T(!new)>(s: seq<T>, keep: T -> bool)
    requires forall x :: x in s ==> keep(x)
    ensures Filter(s, keep) == s
  {
    if |s| > 0 {
      FilterKeepsAll(s[1..], keep);
      assert [s[0]] + s[1..] == s;
    }
  }

  /** The spine filter as intended: the distributor's idrefs are dropped and
      every other idref is kept, in spine order. */
  function FilterSpineIdrefs(f: EpubFilter, spineIdrefs: seq<string>): (r: seq<string>)
    ensures forall s :: s in r <==> s in spineIdrefs && s !in f.spineIdrefs
  {
    Filter(spineIdrefs, s => s !in f.spineIdrefs)
  }

  /** The intended filter works one idref at a time: a single idref is kept
      exactly when it is not the distributor's, and two parts of a spine end
      to end give their results end to end, so the kept idrefs keep their
      spine order and their repetitions. */
  lemma FilterSpineIdrefsAppend(f: EpubFilter, xs: seq<string>, ys: seq<string>)
    ensures FilterSpineIdrefs(f, xs + ys) == FilterSpineIdrefs(f, xs) + FilterSpineIdrefs(f, ys)
    ensures |xs| == 1 ==> FilterSpineIdrefs(f, xs) == (if xs[0] in f.spineIdrefs then [] else xs)
  {
    FilterAppend(xs, ys, s => s !in f.spineIdrefs);
    if |xs| == 1 {
      assert xs[1..] == [];
    }
  }

  /** A spine with none of the distributor's idrefs comes back whole. */
  lemma FilterSpineIdrefsKeepsOthers(f: EpubFilter, spineIdrefs: seq<string>)
    requires forall k :: 0 <= k < |spineIdrefs| ==> spineIdrefs[k] !in f.spineIdrefs
    ensures FilterSpineIdrefs(f, spineIdrefs) == spineIdrefs
  {
    FilterKeepsAll(spineIdrefs, s => s !in f.spineIdrefs);
  }
}

=== FILE: epub_text.dfy ===
/** `BibblioCoverageProvider.extract_plaintext_from_epub` (bibblio.py): the
    reading text of an EPUB, document by document in spine order. The EPUB
    is given as its package's spine and manifest elements and the files of
    the archive; turning HTML into text is the `htmlToText` parameter. */
module EpubText {
  import opened Wrappers
  import opened Strings
  import Paths
  import opened Utf8
  import opened TextShrink

  /** The namespace of the elements of an EPUB package document (the Open
      Packaging Format). */
  const IDPF_NAMESPACE := "http://www.idpf.org/2007/opf"
  const ITEMREF_TAG := "{" + IDPF_NAMESPACE + "}itemref"
  const ITEM_TAG := "{" + IDPF_NAMESPACE + "}item"

  /** An XML element of the package document: its qualified tag and its
      attributes. */
  datatype Element = Element(tag: string, attributes: map<string, string>) {
    /** `element.get(name)`. */
    function Get(name: string): Option<string> {
      if name in attributes then Some(attributes[name]) else None
    }
  }

  /** An opened EPUB: the children of `<spine>` and `<manifest>`, the path of
      the package document inside the archive, and the archive's files. */
  datatype Epub = Epub(spine: seq<Element>, manifest: seq<Element>, packagePath: string,
                       files: map<string, string>)

  datatype ExtractError =
    | MissingHref          // a text item without `href`: `os.path.join` fails on None
    | MissingFile(path: string) // the archive has no such member

  predicate IsItemref(e: Element) { e.tag == ITEMREF_TAG }

  /** The `idref` of every `itemref` of the spine, in spine order; a missing
      attribute is `None`. */
  function SpineIdrefs(spine: seq<Element>): (ids: seq<Option<string>>)
    ensures |ids| <= |spine|
    ensures forall id :: id in ids <==> exists e :: e in spine && IsItemref(e) && e.Get("idref") == id
  {
    if |spine| == 0 then []
    else
      var rest := SpineIdrefs(spine[1..]);
      assert forall e :: e in spine <==> e == spine[0] || e in spine[1..];
      if IsItemref(spine[0]) then [spine[0].Get("idref")] + rest else rest
  }

  /** A single spine child contributes its `idref` exactly when it is an
      `itemref`. */
  lemma SpineIdrefsOne(e: Element)
    ensures SpineIdrefs([e]) == if IsItemref(e) then [e.Get("idref")] else []
  {
    assert [e][1..] == [];
  }

  /** The spine is read child by child: the idrefs of two runs of children
      are those of the first run followed by those of the second, so the
      spine order of the idrefs is the order of the children. */
  lemma {:induction false} SpineIdrefsAppend(a: seq<Element>, b: seq<Element>)
    ensures SpineIdrefs(a + b) == SpineIdrefs(a) + SpineIdrefs(b)
    decreases |a|
  {
    if |a| == 0 {
      assert a + b == b;
    } else {
      assert (a + b)[0] == a[0];
      assert (a + b)[1..] == a[1..] + b;
      SpineIdrefsAppend(a[1..], b);
    }
  }

  /** A manifest item is text to read when the spine refers to its id. */
  predicate IsTextItem(e: Element, idrefs: seq<Option<string>>) {
    e.tag == ITEM_TAG && e.Get("id") in idrefs
  }

  /** Position of the first occurrence of `x`: Python's `list.index`. */
  function IndexOf<T(==)>(xs: seq<T>, x: T): (i: nat)
    requires x in xs
    ensures i < |xs| && xs[i] == x
    ensures forall j :: 0 <= j < i ==> xs[j] != x
  {
    if xs[0] == x then 0 else 1 + IndexOf(xs[1..], x)
  }

  /** The sort key of a manifest item: where the spine first mentions it.
      Every item sorted is mentioned, so the fallback is never used. */
  function SpineKey(idrefs: seq<Option<string>>, e: Element): nat {
    if e.Get("id") in idrefs then IndexOf(idrefs, e.Get("id")) else |idrefs|
  }

  /** Each item paired with its sort key. */
  function Keyed(items: seq<Element>, idrefs: seq<Option<string>>): (ks: seq<(nat, Element)>)
    ensures |ks| == |items|
    ensures forall k :: 0 <= k < |ks| ==> ks[k] == (SpineKey(idrefs, items[k]), items[k])
  {
    if |items| == 0 then []
    else [(SpineKey(idrefs, items[0]), items[0])] + Keyed(items[1..], idrefs)
  }

  predicate SortedByKey(s: seq<(nat, Element)>) {
    forall i, j :: 0 <= i < j < |s| ==> s[i].0 <= s[j].0
  }

  /** Every key of `s` is at least `b`. */
  predicate KeysFrom(s: seq<(nat, Element)>, b: nat) {
    forall i :: 0 <= i < |s| ==> b <= s[i].0
  }

  /** Puts `x` before the first element whose key is not smaller. */
  function InsertByKey(x: (nat, Element), s: seq<(nat, Element)>): seq<(nat, Element)> {
    if |s| == 0 then [x]
    else if x.0 <= s[0].0 then [x] + s
    else [s[0]] + InsertByKey(x, s[1..])
  }

  /** A stable sort by key, like Python's `list.sort(key=...)`. */
  function SortByKey(s: seq<(nat, Element)>): seq<(nat, Element)> {
    if |s| == 0 then [] else InsertByKey(s[0], SortByKey(s[1..]))
  }

  lemma SortedCons(a: (nat, Element), t: seq<(nat, Element)>)
    requires KeysFrom(t, a.0) && SortedByKey(t)
    ensures SortedByKey([a] + t)
  {
    var r := [a] + t;
    forall i, j | 0 <= i < j < |r|
      ensures r[i].0 <= r[j].0
    {
      assert r[j] == t[j - 1];
      if i > 0 {
        assert r[i] == t[i - 1];
      }
    }
  }

  lemma SortedTail(s: seq<(nat, Element)>)
    requires |s| > 0 && SortedByKey(s)
    ensures SortedByKey(s[1..]) && KeysFrom(s[1..], s[0].0)
  {
    forall i | 0 <= i < |s| - 1
      ensures s[0].0 <= s[1..][i].0
    {
      assert s[1..][i] == s[i + 1];
    }
    forall i, j | 0 <= i < j < |s| - 1
      ensures s[1..][i].0 <= s[1..][j].0
    {
      assert s[1..][i] == s[i + 1] && s[1..][j] == s[j + 1];
    }
  }

  lemma {:induction false} InsertKeysFrom(x: (nat, Element), s: seq<(nat, Element)>, b: nat)
    requires KeysFrom(s, b) && b <= x.0
    ensures KeysFrom(InsertByKey(x, s), b)
  {
    if |s| > 0 && x.0 > s[0].0 {
      assert KeysFrom(s[1..], b) by {
        forall i | 0 <= i < |s| - 1
          ensures b <= s[1..][i].0
        {
          assert s[1..][i] == s[i + 1];
        }
      }
      InsertKeysFrom(x, s[1..], b);
      var rest := InsertByKey(x, s[1..]);
      forall i | 0 <= i < |rest| + 1
        ensures b <= ([s[0]] + rest)[i].0
      {
        if i > 0 {
          assert ([s[0]] + rest)[i] == rest[i - 1];
        }
      }
    } else if |s| > 0 {
      forall i | 0 <= i < |s| + 1
        ensures b <= ([x] + s)[i].0
      {
        if i > 0 {
          assert ([x] + s)[i] == s[i - 1];
        }
      }
    }
  }

  lemma {:induction false} InsertByKeySorted(x: (nat, Element), s: seq<(nat, Element)>)
    requires SortedByKey(s)
    ensures SortedByKey(InsertByKey(x, s))
  {
    if |s| > 0 {
      SortedTail(s);
      if x.0 > s[0].0 {
        InsertByKeySorted(x, s[1..]);
        InsertKeysFrom(x, s[1..], s[0].0);
        SortedCons(s[0], InsertByKey(x, s[1..]));
      } else {
        assert KeysFrom(s, x.0) by {
          forall i | 0 <= i < |s|
            ensures x.0 <= s[i].0
          {
            if i > 0 {
              assert s[0].0 <= s[i].0;
            }
          }
        }
        SortedCons(x, s);
      }
    }
  }

  lemma {:induction false} InsertByKeyPerm(x: (nat, Element), s: seq<(nat, Element)>)
    ensures multiset(InsertByKey(x, s)) == multiset(s) + multiset{x}
  {
    if |s| > 0 && x.0 > s[0].0 {
      InsertByKeyPerm(x, s[1..]);
      assert s == [s[0]] + s[1..];
    }
  }

  /** Sorting orders by key and loses or adds nothing. */
  lemma {:induction false} SortByKeySpec(s: seq<(nat, Element)>)
    ensures SortedByKey(SortByKey(s))
    ensures multiset(SortByKey(s)) == multiset(s)
  {
    if |s| > 0 {
      SortByKeySpec(s[1..]);
      InsertByKeySorted(s[0], SortByKey(s[1..]));
      InsertByKeyPerm(s[0], SortByKey(s[1..]));
      assert s == [s[0]] + s[1..];
    }
  }

  function Elements(ks: seq<(nat, Element)>): seq<Element> {
    if |ks| == 0 then [] else [ks[0].1] + Elements(ks[1..])
  }

  lemma {:induction false} ElementsAt(ks: seq<(nat, Element)>)
    ensures |Elements(ks)| == |ks|
    ensures forall k :: 0 <= k < |ks| ==> Elements(ks)[k] == ks[k].1
  {
    if |ks| > 0 {
      ElementsAt(ks[1..]);
    }
  }

  /** The manifest items to read, in spine order. */
  function ReadingOrder(spine: seq<Element>, manifest: seq<Element>): seq<Element> {
    var idrefs := SpineIdrefs(spine);
    var items := Filter(manifest, e => IsTextItem(e, idrefs));
    Elements(SortByKey(Keyed(items, idrefs)))
  }

  /** The documents read are exactly the manifest items the spine refers
      to, each at the key of its first mention in the spine, which never
      decreases along the reading order. */
  lemma ReadingOrderSpec(spine: seq<Element>, manifest: seq<Element>)
    ensures var idrefs := SpineIdrefs(spine);
      multiset(ReadingOrder(spine, manifest)) == multiset(Filter(manifest, e => IsTextItem(e, idrefs)))
    ensures var idrefs := SpineIdrefs(spine);
      forall e :: e in ReadingOrder(spine, manifest) <==> e in manifest && IsTextItem(e, idrefs)
    ensures var idrefs := SpineIdrefs(spine);
      var order := ReadingOrder(spine, manifest);
      forall i, j :: 0 <= i < j < |order| ==> SpineKey(idrefs, order[i]) <= SpineKey(idrefs, order[j])
  {
    var idrefs := SpineIdrefs(spine);
    var items := Filter(manifest, e => IsTextItem(e, idrefs));
    ReadingOrderPerm(items, idrefs);
    assert forall e :: e in items <==> e in multiset(items);
    var order := ReadingOrder(spine, manifest);
    assert forall e :: e in order <==> e in multiset(order);
    ReadingOrderSorted(items, idrefs);
  }

  lemma ReadingOrderPerm(items: seq<Element>, idrefs: seq<Option<string>>)
    ensures multiset(Elements(SortByKey(Keyed(items, idrefs)))) == multiset(items)
  {
    var keyed := Keyed(items, idrefs);
    ElementsSort(keyed);
    ElementsAt(keyed);
    assert Elements(keyed) == items;
  }

  lemma ReadingOrderSorted(items: seq<Element>, idrefs: seq<Option<string>>)
    ensures var order := Elements(SortByKey(Keyed(items, idrefs)));
      forall i, j :: 0 <= i < j < |order| ==> SpineKey(idrefs, order[i]) <= SpineKey(idrefs, order[j])
  {
    var keyed := Keyed(items, idrefs);
    var sorted := SortByKey(keyed);
    SortByKeySpec(keyed);
    KeysAgree(keyed, sorted, idrefs);
    ElementsAt(sorted);
  }

  /** Sorting carries the pairs along, so every key still belongs to its
      item. */
  lemma KeysAgree(keyed: seq<(nat, Element)>, sorted: seq<(nat, Element)>, idrefs: seq<Option<string>>)
    requires multiset(sorted) == multiset(keyed)
    requires forall k :: 0 <= k < |keyed| ==> keyed[k].0 == SpineKey(idrefs, keyed[k].1)
    ensures forall k :: 0 <= k < |sorted| ==> sorted[k].0 == SpineKey(idrefs, sorted[k].1)
  {
    forall k | 0 <= k < |sorted|
      ensures sorted[k].0 == SpineKey(idrefs, sorted[k].1)
    {
      assert sorted[k] in multiset(keyed);
      var m :| 0 <= m < |keyed| && keyed[m] == sorted[k];
    }
  }

  lemma {:induction false} ElementsInsert(x: (nat, Element), s: seq<(nat, Element)>)
    ensures multiset(Elements(InsertByKey(x, s))) == multiset(Elements(s)) + multiset{x.1}
  {
    if |s| > 0 {
      assert Elements(s) == [s[0].1] + Elements(s[1..]);
      if x.0 > s[0].0 {
        ElementsInsert(x, s[1..]);
        assert Elements(InsertByKey(x, s)) == [s[0].1] + Elements(InsertByKey(x, s[1..]));
      } else {
        assert Elements(InsertByKey(x, s)) == [x.1] + Elements(s);
      }
    }
  }

  /** Sorting reorders the items and nothing more. */
  lemma {:induction false} ElementsSort(s: seq<(nat, Element)>)
    ensures multiset(Elements(SortByKey(s))) == multiset(Elements(s))
  {
    if |s| > 0 {
      ElementsSort(s[1..]);
      ElementsInsert(s[0], SortByKey(s[1..]));
      assert Elements(s) == [s[0].1] + Elements(s[1..]);
    }
  }

  /** `os.path.join(full_path, href)` for every item, in order. */
  function DocumentPaths(items: seq<Element>, dir: string): (r: Result<seq<string>, ExtractError>)
    ensures r.Ok? <==> forall k :: 0 <= k < |items| ==> items[k].Get("href").Some?
    ensures r.Ok? ==> |r.value| == |items|
    ensures r.Ok? ==> forall k :: 0 <= k < |items| ==> r.value[k] == Paths.Join(dir, items[k].Get("href").value)
  {
    if |items| == 0 then Ok([])
    else
      var rest := DocumentPaths(items[1..], dir);
      match items[0].Get("href")
      case None => Err(MissingHref)
      case Some(href) =>
        if rest.Err? then rest
        else Ok([Paths.Join(dir, href)] + rest.value)
  }

  /** Reads every document and appends its text and a newline. */
  function ReadDocuments(paths: seq<string>, files: map<string, string>, htmlToText: string -> string)
    : (r: Result<string, ExtractError>)
    ensures r.Ok? <==> forall k :: 0 <= k < |paths| ==> paths[k] in files
    ensures r.Err? ==> exists k :: 0 <= k < |paths| && paths[k] !in files && r.error == MissingFile(paths[k])
  {
    if |paths| == 0 then Ok("")
    else if paths[0] !in files then Err(MissingFile(paths[0]))
    else
      var rest := ReadDocuments(paths[1..], files, htmlToText);
      if rest.Err? then
        var k :| 0 <= k < |paths[1..]| && paths[1..][k] !in files && rest.error == MissingFile(paths[1..][k]);
        assert paths[k + 1] == paths[1..][k];
        rest
      else Ok(htmlToText(files[paths[0]]) + "\n" + rest.value)
  }

  /** The text of each document followed by a newline. */
  function Pieces(paths: seq<string>, files: map<string, string>, htmlToText: string -> string): seq<string>
    requires forall k :: 0 <= k < |paths| ==> paths[k] in files
  {
    seq(|paths|, k requires 0 <= k < |paths| => htmlToText(files[paths[k]]) + "\n")
  }

  /** The accumulated text is the documents' texts in reading order, each
      ended by a newline. */
  lemma {:induction false} ReadDocumentsSpec(paths: seq<string>, files: map<string, string>, htmlToText: string -> string)
    requires forall k :: 0 <= k < |paths| ==> paths[k] in files
    ensures ReadDocuments(paths, files, htmlToText) == Ok(Concat(Pieces(paths, files, htmlToText)))
  {
    if |paths| > 0 {
      ReadDocumentsSpec(paths[1..], files, htmlToText);
      assert Pieces(paths, files, htmlToText)[1..] == Pieces(paths[1..], files, htmlToText);
    }
  }

  /** `extract_plaintext_from_epub`: the documents of the reading order,
      resolved against the package document's directory, read, and shrunk
      without a distributor filter. */
  function ExtractPlaintext(epub: Epub, htmlToText: string -> string, ops: TextOps)
    : Result<seq<Byte>, ExtractError>
  {
    var paths :- DocumentPaths(ReadingOrder(epub.spine, epub.manifest), Paths.Dirname(epub.packagePath));
    var text :- ReadDocuments(paths, epub.files, htmlToText);
    Ok(ShrinkText(text, None, ops))
  }

  /** Extraction fails exactly when a document to read has no `href` or is
      not in the archive; otherwise the result is the shrunk concatenation
      of the documents' texts, each ended by a newline. */
  lemma ExtractPlaintextSpec(epub: Epub, htmlToText: string -> string, ops: TextOps)
    ensures var order := ReadingOrder(epub.spine, epub.manifest);
      var dir := Paths.Dirname(epub.packagePath);
      ExtractPlaintext(epub, htmlToText, ops).Ok? <==>
        (forall k :: 0 <= k < |order| ==> order[k].Get("href").Some?) &&
        (forall k :: 0 <= k < |order| ==> Paths.Join(dir, order[k].Get("href").value) in epub.files)
    ensures var order := ReadingOrder(epub.spine, epub.manifest);
      var paths := DocumentPaths(order, Paths.Dirname(epub.packagePath));
      ExtractPlaintext(epub, htmlToText, ops).Ok? ==>
        paths.Ok? && (forall k :: 0 <= k < |paths.value| ==> paths.value[k] in epub.files) &&
        ExtractPlaintext(epub, htmlToText, ops).value ==
          ShrinkText(Concat(Pieces(paths.value, epub.files, htmlToText)), None, ops)
  {
    var order := ReadingOrder(epub.spine, epub.manifest);
    var paths := DocumentPaths(order, Paths.Dirname(epub.packagePath));
    if paths.Ok? && forall k :: 0 <= k < |paths.value| ==> paths.value[k] in epub.files {
      ReadDocumentsSpec(paths.value, epub.files, htmlToText);
    }
  }
}

=== FILE: illustrated_coverage.dfy ===
/** `GutenbergIllustratedCoverageProvider` (coverage.py): deciding whether a
    book gets generated covers, which illustrations are big enough to use,
    the command line of the cover renderer, and which of its output files
    become cover images. */
module IllustratedCoverage {
  import opened Wrappers
  import opened Strings
  import Paths

  const DESTINATION_DIRECTORY := "Gutenberg Illustrated"
  const FONT_FILENAME := "AvenirNext-Bold-14.vlw"

  /** Illustrations smaller than this many bytes are not used. */
  const IMAGE_CUTOFF_SIZE: int := 10 * 1024

  /** The media type of every generated cover. */
  const MEDIA_TYPE := "image/png"

  /** The illustration lists read at start-up: for each Gutenberg id, the list
      of the first entry the file-list scan produced for it. */
  method IllustrationLists(entries: seq<(string, seq<string>)>) returns (lists: map<string, seq<string>>)
    ensures lists.Keys == set k | 0 <= k < |entries| :: entries[k].0
    ensures forall k :: 0 <= k < |entries| && (forall j :: 0 <= j < k ==> entries[j].0 != entries[k].0) ==>
      lists[entries[k].0] == entries[k].1
  {
    lists := map[];
    var i := 0;
    while i < |entries|
      invariant 0 <= i <= |entries|
      invariant lists.Keys == set k | 0 <= k < i :: entries[k].0
      invariant forall k :: 0 <= k < i && (forall j :: 0 <= j < k ==> entries[j].0 != entries[k].0) ==>
        lists[entries[k].0] == entries[k].1
    {
      var (gid, illustrations) := entries[i];
      if gid !in lists {
        lists := lists[gid := illustrations];
      }
      i := i + 1;
    }
  }

  /** An illustration that exists in the mirror and is at least the cutoff
      size; `sizes` maps each existing path to its size in bytes. */
  predicate LargeEnough(mirror: string, sizes: map<string, int>, illustration: string) {
    var path := Paths.Join(mirror, illustration);
    path in sizes && sizes[path] >= IMAGE_CUTOFF_SIZE
  }

  /** `apply_size_filter`: the illustrations that exist and are large enough,
      in their original order. */
  function ApplySizeFilter(mirror: string, sizes: map<string, int>, illustrations: seq<string>): (r: seq<string>)
    ensures |r| <= |illustrations|
    ensures forall i :: i in r <==> i in illustrations && LargeEnough(mirror, sizes, i)
    ensures (forall i :: i in illustrations ==> LargeEnough(mirror, sizes, i)) ==> r == illustrations
  {
    if |illustrations| == 0 then []
    else
      (if LargeEnough(mirror, sizes, illustrations[0]) then [illustrations[0]] else [])
      + ApplySizeFilter(mirror, sizes, illustrations[1..])
  }

  /** The filter works one illustration at a time: a single illustration is
      kept exactly when it is large enough, and the result for two lists
      placed end to end is the two results placed end to end, so the kept
      illustrations keep their order and their repetitions. */
  lemma {:induction false} ApplySizeFilterAppend(mirror: string, sizes: map<string, int>, xs: seq<string>, ys: seq<string>)
    ensures ApplySizeFilter(mirror, sizes, xs + ys) == ApplySizeFilter(mirror, sizes, xs) + ApplySizeFilter(mirror, sizes, ys)
  {
    var keep := i => LargeEnough(mirror, sizes, i);
    ApplySizeFilterIsFilter(mirror, sizes, xs + ys);
    ApplySizeFilterIsFilter(mirror, sizes, xs);
    ApplySizeFilterIsFilter(mirror, sizes, ys);
    Strings.FilterAppend(xs, ys, keep);
  }

  /** The size filter is the general filter with `LargeEnough` as its test. */
  lemma {:induction false} ApplySizeFilterIsFilter(mirror: string, sizes: map<string, int>, illustrations: seq<string>)
    ensures ApplySizeFilter(mirror, sizes, illustrations) == Strings.Filter(illustrations, i => LargeEnough(mirror, sizes, i))
    decreases |illustrations|
  {
    if |illustrations| > 0 {
      ApplySizeFilterIsFilter(mirror, sizes, illustrations[1..]);
      Strings.FilterCons(illustrations, i => LargeEnough(mirror, sizes, i));
    }
  }

  lemma ApplySizeFilterOne(mirror: string, sizes: map<string, int>, illustration: string)
    ensures ApplySizeFilter(mirror, sizes, [illustration]) ==
      (if LargeEnough(mirror, sizes, illustration) then [illustration] else [])
  {
    assert [illustration][1..] == [];
  }

  /** Filtering twice keeps what filtering once kept. */
  lemma {:induction false} ApplySizeFilterIdempotent(mirror: string, sizes: map<string, int>, illustrations: seq<string>)
    ensures ApplySizeFilter(mirror, sizes, ApplySizeFilter(mirror, sizes, illustrations))
         == ApplySizeFilter(mirror, sizes, illustrations)
  {
    if |illustrations| > 0 {
      var first := illustrations[0];
      var rest := ApplySizeFilter(mirror, sizes, illustrations[1..]);
      ApplySizeFilterIdempotent(mirror, sizes, illustrations[1..]);
      assert ApplySizeFilter(mirror, sizes, illustrations)
          == (if LargeEnough(mirror, sizes, first) then [first] else []) + rest;
      if LargeEnough(mirror, sizes, first) {
        assert ([first] + rest)[0] == first;
        assert ([first] + rest)[1..] == rest;
        assert ApplySizeFilter(mirror, sizes, [first] + rest) == [first] + ApplySizeFilter(mirror, sizes, rest);
      } else {
        assert ApplySizeFilter(mirror, sizes, illustrations) == rest;
      }
    }
  }

  /** The cutoff in figures: a 5 KiB illustration is dropped, a 15 KiB one is
      kept, and a missing one is dropped. */
  lemma SizeCutoffExamples(mirror: string, sizes: map<string, int>, illustration: string)
    ensures Paths.Join(mirror, illustration) in sizes && sizes[Paths.Join(mirror, illustration)] == 5 * 1024 ==>
      ApplySizeFilter(mirror, sizes, [illustration]) == []
    ensures Paths.Join(mirror, illustration) in sizes && sizes[Paths.Join(mirror, illustration)] == 15 * 1024 ==>
      ApplySizeFilter(mirror, sizes, [illustration]) == [illustration]
    ensures Paths.Join(mirror, illustration) !in sizes ==> ApplySizeFilter(mirror, sizes, [illustration]) == []
  {
    assert [illustration][1..] == [];
  }

  /** The provider's configuration, derived from the data directory, the
      renderer binary and the name of the Gutenberg data source. */
  datatype Config = Config(binaryPath: string, gutenbergMirror: string, outputDirectory: string, fontPath: string)

  function MakeConfig(dataDirectory: string, binaryPath: string, gutenbergSourceName: string): Config {
    Config(
      binaryPath,
      Paths.JoinAll(dataDirectory, [gutenbergSourceName, "gutenberg-mirror"]) + "/",
      Paths.Join(dataDirectory, DESTINATION_DIRECTORY) + "/",
      Paths.JoinAll(Paths.Dirname(binaryPath), ["data", FONT_FILENAME]))
  }

  /** `args_for`: the renderer's command line for one input file. */
  function ArgsFor(config: Config, inputPath: string): seq<string> {
    [config.binaryPath, config.gutenbergMirror, config.outputDirectory, inputPath, config.fontPath, config.fontPath]
  }

  /** The font lives in the `data` directory next to the renderer binary:
      its path is the binary's directory, a separator unless that directory
      is empty or already ends in one, then `data/` and the font's name. Both
      directories handed to the renderer end in a slash. */
  lemma MakeConfigSpec(dataDirectory: string, binaryPath: string, gutenbergSourceName: string)
    ensures var c := MakeConfig(dataDirectory, binaryPath, gutenbergSourceName);
      EndsWith(c.fontPath, "data" + "/" + FONT_FILENAME) &&
      EndsWith(c.gutenbergMirror, "/") && EndsWith(c.outputDirectory, "/")
    ensures var d := Paths.Dirname(binaryPath);
      MakeConfig(dataDirectory, binaryPath, gutenbergSourceName).fontPath ==
        (if d == "" || EndsWith(d, "/") then d else d + "/") + "data" + "/" + FONT_FILENAME
  {
    Paths.JoinUnder(Paths.Dirname(binaryPath), "data", FONT_FILENAME);
    Paths.JoinUnderExact(Paths.Dirname(binaryPath), "data", FONT_FILENAME);
  }

  /** The renderer is given the binary, the mirror, the output directory, the
      input file and the font twice, in that order; for a configuration built
      from a data directory, the mirror is `<data>/<source>/gutenberg-mirror/`
      and the output directory `<data>/Gutenberg Illustrated/`. */
  lemma ArgsForSpec(config: Config, inputPath: string)
    ensures |ArgsFor(config, inputPath)| == 6
    ensures ArgsFor(config, inputPath)[0] == config.binaryPath
    ensures ArgsFor(config, inputPath)[1] == config.gutenbergMirror
    ensures ArgsFor(config, inputPath)[2] == config.outputDirectory
    ensures ArgsFor(config, inputPath)[3] == inputPath
    ensures ArgsFor(config, inputPath)[4] == ArgsFor(config, inputPath)[5] == config.fontPath
    ensures forall dataDirectory, binaryPath, source :: config == MakeConfig(dataDirectory, binaryPath, source) ==>
      ArgsFor(config, inputPath)[1] == Paths.JoinAll(dataDirectory, [source, "gutenberg-mirror"]) + "/" &&
      ArgsFor(config, inputPath)[2] == Paths.Join(dataDirectory, DESTINATION_DIRECTORY) + "/"
  {
  }

  /** Reads a renderer command line back: six arguments whose last two
      agree give the configuration and the input file. */
  function ArgsParsed(args: seq<string>): Option<(Config, string)> {
    if |args| == 6 && args[4] == args[5] then Some((Config(args[0], args[1], args[2], args[4]), args[3]))
    else None
  }

  /** The command line loses nothing: reading it back gives the
      configuration and the input file, and every command line that reads
      back is the one built from what it reads back to. */
  lemma ArgsForRoundTrip(config: Config, inputPath: string, args: seq<string>)
    ensures ArgsParsed(ArgsFor(config, inputPath)) == Some((config, inputPath))
    ensures ArgsParsed(args).Some? ==> ArgsFor(ArgsParsed(args).value.0, ArgsParsed(args).value.1) == args
  {
  }

  /** The renderer's input: the id and its usable illustrations (the rest of
      the edition's data comes from the illustrated-data provider, which is
      not part of this model). */
  datatype RenderJob = RenderJob(identifier: string, illustrations: seq<string>, args: seq<string>)

  /** One cover image link to a generated file. */
  datatype CoverLink = CoverLink(url: string, mediaType: string, path: string)

  /** What `process_edition` decided; every outcome reports the edition as
      covered. `Rendered` also clears the edition's `no_known_cover`. */
  datatype Coverage =
    | NoIllustrations
    | AllFilteredOut
    | Rendered(job: RenderJob, covers: seq<CoverLink>)

  /** The renderer could not be started: the command line, joined by spaces. */
  datatype RenderError = LaunchFailed(command: string)

  predicate IsPng(f: string) { EndsWith(f, ".png") }

  /** The link to one generated file. */
  function LinkTo(outDir: string, f: string, coverUrl: string -> string): CoverLink {
    CoverLink(coverUrl(f), MEDIA_TYPE, Paths.Join(outDir, f))
  }

  /** The cover links for the PNG files among a directory's `candidates`,
      one per file, in listing order. */
  function CoverLinks(outDir: string, candidates: seq<string>, coverUrl: string -> string): (r: seq<CoverLink>)
    ensures |r| == |Filter(candidates, IsPng)|
    ensures forall f :: f in candidates && IsPng(f) ==> LinkTo(outDir, f, coverUrl) in r
    ensures forall l :: l in r ==> exists f :: f in candidates && IsPng(f) && l == LinkTo(outDir, f, coverUrl)
  {
    FilterMap(candidates, IsPng, f => LinkTo(outDir, f, coverUrl))
  }

  /** Links are made one file at a time: two listings end to end give their
      links end to end, so the links keep listing order. */
  lemma CoverLinksAppend(outDir: string, xs: seq<string>, ys: seq<string>, coverUrl: string -> string)
    ensures CoverLinks(outDir, xs + ys, coverUrl) == CoverLinks(outDir, xs, coverUrl) + CoverLinks(outDir, ys, coverUrl)
  {
    FilterMapAppend(xs, ys, IsPng, f => LinkTo(outDir, f, coverUrl));
  }

  /** A single file gives its link when it is a PNG and nothing otherwise. */
  lemma CoverLinksOne(outDir: string, f: string, coverUrl: string -> string)
    ensures CoverLinks(outDir, [f], coverUrl) == (if IsPng(f) then [LinkTo(outDir, f, coverUrl)] else [])
  {
    assert [f][1..] == [];
  }

  /** `process_edition`. `inputPath` is the temporary file holding the job,
      `launches` whether the renderer process could be started, `listing`
      maps each existing directory to its files after the run, and `coverUrl`
      is the uploader's URL for a generated file. */
  function ProcessEdition(config: Config, identifier: string, lists: map<string, seq<string>>,
                          sizes: map<string, int>, inputPath: string, launches: bool,
                          listing: map<string, seq<string>>, coverUrl: string -> string)
    : Result<Coverage, RenderError>
  {
    if identifier !in lists then Ok(NoIllustrations)
    else
      var illustrations := ApplySizeFilter(config.gutenbergMirror, sizes, lists[identifier]);
      if illustrations == [] then Ok(AllFilteredOut)
      else
        var args := ArgsFor(config, inputPath);
        if !launches then Err(LaunchFailed(Join(args, " ")))
        else
          var outDir := Paths.Join(config.outputDirectory, identifier);
          var candidates := if outDir in listing then listing[outDir] else [];
          Ok(Rendered(RenderJob(identifier, illustrations, args), CoverLinks(outDir, candidates, coverUrl)))
  }

  /** The decisions of `process_edition`: an id without an illustration list
      and an id whose illustrations are all filtered out are covered without
      rendering; otherwise a renderer that cannot be started fails the batch,
      and a finished run links every PNG file of the id's output directory,
      and nothing else, as a cover. */
  lemma ProcessEditionSpec(config: Config, identifier: string, lists: map<string, seq<string>>,
                           sizes: map<string, int>, inputPath: string, launches: bool,
                           listing: map<string, seq<string>>, coverUrl: string -> string)
    ensures var r := ProcessEdition(config, identifier, lists, sizes, inputPath, launches, listing, coverUrl);
      (r == Ok(NoIllustrations) <==> identifier !in lists) &&
      (r == Ok(AllFilteredOut) <==>
        identifier in lists && forall i :: i in lists[identifier] ==> !LargeEnough(config.gutenbergMirror, sizes, i)) &&
      (r.Err? <==>
        identifier in lists && !launches && exists i :: i in lists[identifier] && LargeEnough(config.gutenbergMirror, sizes, i))
    ensures var r := ProcessEdition(config, identifier, lists, sizes, inputPath, launches, listing, coverUrl);
      r.Ok? && r.value.Rendered? ==>
        var outDir := Paths.Join(config.outputDirectory, identifier);
        var candidates := if outDir in listing then listing[outDir] else [];
        r.value.job.illustrations != [] &&
        (forall i :: i in r.value.job.illustrations <==>
           i in lists[identifier] && LargeEnough(config.gutenbergMirror, sizes, i)) &&
        r.value.job.illustrations == ApplySizeFilter(config.gutenbergMirror, sizes, lists[identifier]) &&
        r.value.job.args == ArgsFor(config, inputPath) &&
        |r.value.covers| == |Filter(candidates, IsPng)| &&
        (forall f :: f in candidates && IsPng(f) ==>
           CoverLink(coverUrl(f), MEDIA_TYPE, Paths.Join(outDir, f)) in r.value.covers) &&
        forall l :: l in r.value.covers ==>
          l.mediaType == MEDIA_TYPE &&
          exists f :: f in candidates && IsPng(f) && l == CoverLink(coverUrl(f), MEDIA_TYPE, Paths.Join(outDir, f))
  {
    if identifier in lists {
      var illustrations := ApplySizeFilter(config.gutenbergMirror, sizes, lists[identifier]);
      if illustrations != [] {
        assert illustrations[0] in illustrations;
        var outDir := Paths.Join(config.outputDirectory, identifier);
        var candidates := if outDir in listing then listing[outDir] else [];
        var covers := CoverLinks(outDir, candidates, coverUrl);
        forall l | l in covers
          ensures l.mediaType == MEDIA_TYPE
        {
          var f :| f in candidates && IsPng(f) && l == LinkTo(outDir, f, coverUrl);
        }
      }
    }
  }
}

=== FILE: mirror_path.dfy ===
/** The mirror path resolver of `GutenbergAPI.url_to_mirror_path`
    (integration/gutenberg.py): a URL found in a Project Gutenberg RDF record
    is turned into a mirror selector and the path of the same file inside a
    local copy of that mirror. */
module MirrorPath {
  import opened Wrappers
  import opened Strings
  import Paths

  /** The two mirror templates: `%(gutenberg_original_mirror)s` and
      `%(gutenberg_ebook_mirror)s`. */
  datatype Mirror = OriginalMirror | EbookMirror

  /** What `urlparse` yields that the resolver reads: the lower-cased host
      name, when the URL has one, and the path. */
  datatype Url = Url(hostname: Option<string>, path: string)

  /** Why a URL cannot be resolved: `ValueError` for a foreign host,
      `AttributeError` when the `/([0-9]+)` search finds nothing, `TypeError`
      from `os.path.join()` with no arguments when the id has one digit, and
      `UnboundLocalError` when no prefix rule assigns a path. */
  datatype ResolveError = NotGutenbergUrl | NoIdInPath | IdTooShort | UnrecognisedPath

  predicate IsGutenbergHost(hostname: Option<string>) {
    hostname == Some("www.gutenberg.org") || hostname == Some("gutenberg.org")
  }

  /** The regular expression `/([0-9]+)` can start matching at index `i`. */
  predicate SlashDigitAt(path: string, i: int) {
    0 <= i && i + 1 < |path| && path[i] == '/' && IsDigit(path[i + 1])
  }

  /** The digits captured by the leftmost match of `/([0-9]+)` at or after `i`. */
  function IdSearchFrom(path: string, i: nat): (r: Option<string>)
    requires i <= |path|
    ensures r.None? <==> forall j :: i <= j ==> !SlashDigitAt(path, j)
    ensures r.Some? ==>
      exists j :: i <= j && SlashDigitAt(path, j) &&
                  (forall k :: i <= k < j ==> !SlashDigitAt(path, k)) &&
                  r.value == path[j + 1..j + 1 + DigitRun(path[j + 1..])]
    decreases |path| - i
  {
    if i == |path| then None
    else if SlashDigitAt(path, i) then Some(path[i + 1..i + 1 + DigitRun(path[i + 1..])])
    else IdSearchFrom(path, i + 1)
  }

  /** `EPUB_ID.search(path).groups()[0]`, or `None` where the search fails. */
  function EpubId(path: string): (r: Option<string>)
    ensures r.Some? ==> |r.value| >= 1 && AllDigits(r.value)
    ensures r.None? <==> forall j :: 0 <= j ==> !SlashDigitAt(path, j)
  {
    IdSearchFrom(path, 0)
  }

  /** Each character of `s` as a one-character string, like `[i for i in s]`. */
  function Chars(s: string): (cs: seq<string>)
    ensures |cs| == |s|
    ensures forall k :: 0 <= k < |s| ==> cs[k] == [s[k]]
  {
    if |s| == 0 then [] else [[s[0]]] + Chars(s[1..])
  }

  /** `os.path.join(*digits)` for the digits of an id except the last;
      Python refuses the call when there are none. */
  function DigitDirectories(id: string): Option<string>
    requires |id| >= 1
  {
    var parts := Chars(id[..|id| - 1]);
    if |parts| == 0 then None else Some(Paths.JoinAll(parts[0], parts[1..]))
  }

  const FILES := "/files/"
  const DIRS := "/dirs/"
  const EBOOKS := "/ebooks/"
  const CACHE_EPUB := "/cache/epub/"

  /** Which rewrite rule a path falls under, tried in the source's order. */
  datatype Rule = FilesRule | DirsRule | EbooksRule | CacheEpubRule | NoRule

  function RuleFor(path: string): Rule {
    if StartsWith(path, FILES) then FilesRule
    else if StartsWith(path, DIRS) then DirsRule
    else if StartsWith(path, EBOOKS) then EbooksRule
    else if StartsWith(path, CACHE_EPUB) then CacheEpubRule
    else NoRule
  }

  /** The four prefixes exclude one another, so the order of the tests does
      not matter: each path falls under the rule of the prefix it starts with. */
  lemma RuleForPrefix(path: string)
    ensures RuleFor(path) == FilesRule <==> StartsWith(path, FILES)
    ensures RuleFor(path) == DirsRule <==> StartsWith(path, DIRS)
    ensures RuleFor(path) == EbooksRule <==> StartsWith(path, EBOOKS)
    ensures RuleFor(path) == CacheEpubRule <==> StartsWith(path, CACHE_EPUB)
  {
    if StartsWith(path, FILES) { assert path[1] == 'f'; }
    if StartsWith(path, DIRS) { assert path[1] == 'd'; }
    if StartsWith(path, EBOOKS) { assert path[1] == 'e'; }
    if StartsWith(path, CACHE_EPUB) { assert path[1] == 'c'; }
  }

  /** The `/files/` rule's new path. */
  function FilesPath(path: string): Result<string, ResolveError> {
    match EpubId(path)
    case None => Err(NoIdInPath)
    case Some(id) =>
      match DigitDirectories(id)
      case None => Err(IdTooShort)
      case Some(prefix) => Ok(ReplaceFirst(path, FILES, "/" + prefix + "/"))
  }

  /** The `/ebooks/` rule's new path. */
  function EbooksPath(path: string): Result<string, ResolveError> {
    match EpubId(path)
    case None => Err(NoIdInPath)
    case Some(id) =>
      if Contains(path, ".epub") then
        if Contains(path, "noimages") then Ok("/" + id + "/pg" + id + ".epub")
        else Ok("/" + id + "/pg" + id + "-images.epub")
      else Ok(ReplaceAll(path, EBOOKS, "/" + id + "/pg"))
  }

  function WithMirror(m: Mirror, r: Result<string, ResolveError>): (out: Result<(Mirror, string), ResolveError>)
    ensures out.Ok? <==> r.Ok?
    ensures out.Ok? ==> out.value == (m, r.value)
    ensures out.Err? ==> out.error == r.error
  {
    match r
    case Ok(p) => Ok((m, p))
    case Err(e) => Err(e)
  }

  /** `url_to_mirror_path`: the host check, then the prefix rules with their
      failure cases. */
  function UrlToMirrorPath(url: Url): (r: Result<(Mirror, string), ResolveError>)
    ensures r == Err(NotGutenbergUrl) <==> !IsGutenbergHost(url.hostname)
    ensures r == Err(UnrecognisedPath) <==> IsGutenbergHost(url.hostname) && RuleFor(url.path) == NoRule
    ensures r.Ok? && RuleFor(url.path) in {FilesRule, DirsRule} ==> r.value.0 == OriginalMirror
    ensures r.Ok? && RuleFor(url.path) in {EbooksRule, CacheEpubRule} ==> r.value.0 == EbookMirror
  {
    var path := url.path;
    if !IsGutenbergHost(url.hostname) then Err(NotGutenbergUrl)
    else
      match RuleFor(path)
      case FilesRule => WithMirror(OriginalMirror, FilesPath(path))
      case DirsRule => Ok((OriginalMirror, ReplaceFirst(path, DIRS, "/")))
      case EbooksRule => WithMirror(EbookMirror, EbooksPath(path))
      case CacheEpubRule => Ok((EbookMirror, ReplaceFirst(path, CACHE_EPUB, "/")))
      case NoRule => Err(UnrecognisedPath)
  }

  /** `/` followed by each character of `s`: the shape `/8/5/9` takes. */
  function SlashEach(s: string): (r: string)
    ensures |r| == 2 * |s|
  {
    if |s| == 0 then "" else "/" + [s[0]] + SlashEach(s[1..])
  }

  lemma {:induction false} SlashEachAt(s: string, k: nat)
    requires k < |s|
    ensures SlashEach(s)[2 * k] == '/' && SlashEach(s)[2 * k + 1] == s[k]
  {
    if k > 0 {
      SlashEachAt(s[1..], k - 1);
      assert SlashEach(s) == "/" + [s[0]] + SlashEach(s[1..]);
    }
  }

  /** Joining single non-slash characters onto a path that does not end in a
      slash puts exactly one slash before each of them. */
  lemma {:induction false} JoinAllChars(acc: string, s: string)
    requires acc != "" && acc[|acc| - 1] != '/'
    requires forall k :: 0 <= k < |s| ==> s[k] != '/'
    ensures Paths.JoinAll(acc, Chars(s)) == acc + SlashEach(s)
    decreases |s|
  {
    if |s| > 0 {
      var cs := Chars(s);
      assert cs[1..] == Chars(s[1..]);
      assert !EndsWith(acc, "/") by {
        assert acc[|acc| - 1..] != "/";
      }
      assert !StartsWith(cs[0], "/") by {
        assert cs[0][0] == s[0];
      }
      var next := acc + "/" + [s[0]];
      assert Paths.Join(acc, cs[0]) == next;
      assert Paths.JoinAll(acc, cs) == Paths.JoinAll(next, Chars(s[1..]));
      JoinAllChars(next, s[1..]);
      assert next + SlashEach(s[1..]) == acc + ("/" + [s[0]] + SlashEach(s[1..]));
    }
  }

  /** The `/files/` rule: the leading `/files/` becomes `/`, then each digit of
      the id but the last as its own directory, then the rest of the path.
      So `/files/8594/8594.txt` goes to `/8/5/9/8594/8594.txt`. */
  lemma FilesRuleLayout(url: Url, id: string)
    requires IsGutenbergHost(url.hostname) && StartsWith(url.path, FILES)
    requires EpubId(url.path) == Some(id) && |id| >= 2
    ensures var r := UrlToMirrorPath(url);
      r.Ok? && r.value.0 == OriginalMirror && DigitDirectoryLayout(r.value.1, id, url.path[|FILES|..])
  {
    FilesRuleResult(url, id);
    SlashEachLayout(id, url.path[|FILES|..]);
  }

  /** `p` is `/`, then each digit of `id` but the last followed by `/`, then `rest`. */
  predicate DigitDirectoryLayout(p: string, id: string, rest: string)
    requires |id| >= 1
  {
    var n := |id| - 1;
    |p| == 2 * n + 1 + |rest| &&
    (forall k :: 0 <= k < n ==> p[2 * k] == '/' && p[2 * k + 1] == id[k]) &&
    p[2 * n] == '/' &&
    p[2 * n + 1..] == rest
  }

  lemma SlashEachLayout(id: string, rest: string)
    requires |id| >= 1
    ensures DigitDirectoryLayout(SlashEach(id[..|id| - 1]) + "/" + rest, id, rest)
  {
    var digits := id[..|id| - 1];
    var p := SlashEach(digits) + "/" + rest;
    forall k | 0 <= k < |id| - 1
      ensures p[2 * k] == '/' && p[2 * k + 1] == id[k]
    {
      SlashEachAt(digits, k);
    }
  }

  /** The `/files/` rule's new path in closed form. */
  lemma {:induction false} FilesPathResult(path: string, id: string)
    requires StartsWith(path, FILES)
    requires EpubId(path) == Some(id) && |id| >= 2
    ensures FilesPath(path) == Ok(SlashEach(id[..|id| - 1]) + "/" + path[|FILES|..])
  {
    DigitDirectoriesOf(id);
    var prefix := DigitDirectories(id).value;
    ReplaceFirstOfPrefix(path, FILES, "/" + prefix + "/");
  }

  /** The directories of an id of two or more digits: each digit but the
      last, joined with `/`, so that a leading `/` gives `SlashEach`. */
  lemma {:induction false} DigitDirectoriesOf(id: string)
    requires |id| >= 2 && AllDigits(id)
    ensures DigitDirectories(id).Some? && "/" + DigitDirectories(id).value == SlashEach(id[..|id| - 1])
  {
    var digits := id[..|id| - 1];
    assert forall k :: 0 <= k < |digits| ==> digits[k] != '/' by {
      forall k | 0 <= k < |digits| ensures digits[k] != '/' {
        assert IsDigit(id[k]);
      }
    }
    var cs := Chars(digits);
    assert cs[1..] == Chars(digits[1..]);
    JoinAllChars([digits[0]], digits[1..]);
    var prefix := [digits[0]] + SlashEach(digits[1..]);
    assert DigitDirectories(id) == Some(prefix);
    assert "/" + prefix == SlashEach(digits);
  }

  /** The `/files/` result in closed form. */
  lemma FilesRuleResult(url: Url, id: string)
    requires IsGutenbergHost(url.hostname) && StartsWith(url.path, FILES)
    requires EpubId(url.path) == Some(id) && |id| >= 2
    ensures UrlToMirrorPath(url) ==
      Ok((OriginalMirror, SlashEach(id[..|id| - 1]) + "/" + url.path[|FILES|..]))
  {
    FilesPathResult(url.path, id);
    RuleForPrefix(url.path);
  }

  /** An id of a single digit has no directories to make, and the rule fails. */
  lemma FilesRuleNeedsTwoDigits(url: Url, id: string)
    requires IsGutenbergHost(url.hostname) && StartsWith(url.path, FILES)
    requires EpubId(url.path) == Some(id) && |id| == 1
    ensures UrlToMirrorPath(url) == Err(IdTooShort)
  {
    assert Chars(id[..0]) == [];
  }

  /** What the resolver returns for a path under one of the two prefixes
      that are simply cut off. */
  lemma StripRuleResult(url: Url, prefix: string)
    requires IsGutenbergHost(url.hostname)
    requires prefix == DIRS || prefix == CACHE_EPUB
    requires StartsWith(url.path, prefix)
    ensures UrlToMirrorPath(url) ==
      Ok((if prefix == DIRS then OriginalMirror else EbookMirror, "/" + url.path[|prefix|..]))
  {
    RuleForPrefix(url.path);
    ReplaceFirstOfPrefix(url.path, prefix, "/");
  }

  lemma PutBackPrefix(path: string, prefix: string, head: string)
    requires StartsWith(path, prefix) && head + "/" == prefix
    ensures head + ("/" + path[|prefix|..]) == path
  {
    PrefixSplit(path, prefix);
  }

  /** The `/dirs/` rule drops only the leading prefix: putting it back in
      front of the result gives the original path. */
  lemma DirsRuleRestores(url: Url)
    requires IsGutenbergHost(url.hostname) && StartsWith(url.path, DIRS)
    ensures var r := UrlToMirrorPath(url);
      r.Ok? && r.value.0 == OriginalMirror && "/dirs" + r.value.1 == url.path
  {
    StripRuleResult(url, DIRS);
    PutBackPrefix(url.path, DIRS, "/dirs");
  }

  /** The `/cache/epub/` rule drops only the leading prefix: putting it back
      in front of the result gives the original path. */
  lemma CacheEpubRuleRestores(url: Url)
    requires IsGutenbergHost(url.hostname) && StartsWith(url.path, CACHE_EPUB)
    ensures var r := UrlToMirrorPath(url);
      r.Ok? && r.value.0 == EbookMirror && "/cache/epub" + r.value.1 == url.path
  {
    StripRuleResult(url, CACHE_EPUB);
    PutBackPrefix(url.path, CACHE_EPUB, "/cache/epub");
  }

  /** The `/ebooks/` rule for EPUB variants: `noimages` picks `pg{id}.epub`,
      anything else `pg{id}-images.epub`, both under the id's directory. */
  lemma EbooksEpubRule(url: Url, id: string)
    requires IsGutenbergHost(url.hostname) && StartsWith(url.path, EBOOKS)
    requires EpubId(url.path) == Some(id) && Contains(url.path, ".epub")
    ensures Contains(url.path, "noimages") ==>
      UrlToMirrorPath(url) == Ok((EbookMirror, "/" + id + "/pg" + id + ".epub"))
    ensures !Contains(url.path, "noimages") ==>
      UrlToMirrorPath(url) == Ok((EbookMirror, "/" + id + "/pg" + id + "-images.epub"))
  {
    RuleForPrefix(url.path);
  }

  /** The `/ebooks/` rule for other formats: the path is cut at every
      `/ebooks/` and the pieces are joined with `/{id}/pg`. */
  lemma EbooksOtherRule(url: Url, id: string)
    requires IsGutenbergHost(url.hostname) && StartsWith(url.path, EBOOKS)
    requires EpubId(url.path) == Some(id) && !Contains(url.path, ".epub")
    ensures UrlToMirrorPath(url) == Ok((EbookMirror, Join(Split(url.path, EBOOKS), "/" + id + "/pg")))
  {
    RuleForPrefix(url.path);
    ReplaceAllIsSplitJoin(url.path, EBOOKS, "/" + id + "/pg");
  }
}

=== FILE: paths.dfy ===
/** Python's `posixpath.join` and the head half of `posixpath.split`. */
module Paths {
  import opened Strings

  /** `os.path.join(a, b)`: an absolute `b` replaces `a`; otherwise a single
      `/` is inserted unless `a` is empty or already ends in one. */
  function Join(a: string, b: string): string {
    if StartsWith(b, "/") then b
    else if a == "" || EndsWith(a, "/") then a + b
    else a + "/" + b
  }

  /** Joining a relative, non-empty name: the result ends with the name,
      and a separator is inserted after a non-empty head without one. */
  lemma JoinRelative(a: string, b: string)
    requires |b| > 0 && b[0] != '/'
    ensures EndsWith(Join(a, b), b)
    ensures |a| > 0 && a[|a| - 1] != '/' ==> Join(a, b) == a + "/" + b
  {
    assert !StartsWith(b, "/");
    if |a| > 0 && a[|a| - 1] != '/' {
      assert !EndsWith(a, "/");
    }
  }

  /** `os.path.join(first, *rest)`. */
  function JoinAll(first: string, rest: seq<string>): string
    decreases |rest|
  {
    if |rest| == 0 then first else JoinAll(Join(first, rest[0]), rest[1..])
  }

  lemma {:induction false} JoinAllPair(first: string, a: string, b: string)
    ensures JoinAll(first, [a, b]) == Join(Join(first, a), b)
  {
    assert [a, b][1..] == [b];
    assert [b][1..] == [];
    assert JoinAll(first, [a, b]) == JoinAll(Join(first, a), [b]);
    assert JoinAll(Join(first, a), [b]) == JoinAll(Join(Join(first, a), b), []);
  }

  /** A relative name joined under a relative sub-directory ends with
      `sub/name`, whatever directory they are joined to. */
  lemma {:induction false} JoinUnder(dir: string, sub: string, name: string)
    requires |sub| > 0 && sub[0] != '/' && sub[|sub| - 1] != '/'
    requires |name| > 0 && name[0] != '/'
    ensures EndsWith(JoinAll(dir, [sub, name]), sub + "/" + name)
  {
    var lead := if dir == "" || EndsWith(dir, "/") then dir else dir + "/";
    var tail := sub + "/" + name;
    JoinUnderExact(dir, sub, name);
    assert lead + sub + "/" + name == lead + tail;
    assert (lead + tail)[|lead|..] == tail;
  }

  /** The same join in closed form: `dir`, a separator unless `dir` is empty
      or already ends in one, then `sub/name`. */
  lemma {:induction false} JoinUnderExact(dir: string, sub: string, name: string)
    requires |sub| > 0 && sub[0] != '/' && sub[|sub| - 1] != '/'
    requires |name| > 0 && name[0] != '/'
    ensures JoinAll(dir, [sub, name]) == (if dir == "" || EndsWith(dir, "/") then dir else dir + "/") + sub + "/" + name
  {
    var withSub := Join(dir, sub);
    var lead := if dir == "" || EndsWith(dir, "/") then dir else dir + "/";
    JoinAllPair(dir, sub, name);
    assert !StartsWith(sub, "/");
    assert withSub == lead + sub;
    assert withSub[|withSub| - 1] == sub[|sub| - 1];
    JoinRelative(withSub, name);
  }

  /** Index just past the last `/` of `p`, or 0 when there is none. */
  function AfterLastSlash(p: string): (i: nat)
    ensures i <= |p|
    ensures i > 0 ==> p[i - 1] == '/'
    ensures forall k :: i <= k < |p| ==> p[k] != '/'
  {
    if |p| == 0 then 0
    else if p[|p| - 1] == '/' then |p|
    else AfterLastSlash(p[..|p| - 1])
  }

  predicate AllSlashes(s: string) {
    forall k :: 0 <= k < |s| ==> s[k] == '/'
  }

  /** `s.rstrip('/')`. */
  function StripTrailingSlashes(s: string): string {
    if |s| > 0 && s[|s| - 1] == '/' then StripTrailingSlashes(s[..|s| - 1]) else s
  }

  /** `os.path.split(p)[0]`: everything up to the last slash, with trailing
      slashes removed unless the head is nothing but slashes. */
  function Dirname(p: string): string {
    var head := p[..AfterLastSlash(p)];
    if head != "" && !AllSlashes(head) then StripTrailingSlashes(head) else head
  }
}

=== FILE: rdf_extractor.dfy ===
/** `GutenbergRDFExtractor.book_in` and `parse_book`
    (integration/gutenberg.py): one Project Gutenberg RDF record, seen as the
    sequence of its (subject, predicate, object) triples, becomes an edition
    in a store keyed by Gutenberg id, together with the classifications,
    resource links and creators attached to it. */
module RdfExtractor {
  import opened Wrappers
  import opened Strings

  /** An RDF triple; URIs, literals and blank nodes are all written as text. */
  datatype Triple = Triple(subject: string, verb: string, obj: string)

  /** A parsed RDF graph, in the order its triples are enumerated. */
  type Graph = seq<Triple>

  const DCTERMS := "http://purl.org/dc/terms/"
  const TITLE := DCTERMS + "title"
  const ISSUED := DCTERMS + "issued"
  const PUBLISHER := DCTERMS + "publisher"
  const LANGUAGE := DCTERMS + "language"
  const CREATOR := DCTERMS + "creator"
  const SUBJECT := DCTERMS + "subject"
  const HAS_FORMAT := DCTERMS + "hasFormat"
  const FORMAT := DCTERMS + "format"
  const MEMBER_OF := "http://purl.org/dc/dcam/memberOf"
  const RDF_VALUE := "http://www.w3.org/1999/02/22-rdf-syntax-ns#value"
  const PG_NAME := "http://www.gutenberg.org/2009/pgterms/name"
  const PG_ALIAS := "http://www.gutenberg.org/2009/pgterms/alias"

  /** A calendar date as `strptime(..., "%Y-%m-%d").date()` yields it. */
  datatype Date = Date(year: int, month: int, day: int)

  datatype Medium = BookMedium | AudioMedium | VideoMedium

  datatype Edition = Edition(
    gutenbergId: string,
    title: string,
    subtitle: Option<string>,
    issued: Date,
    publisher: Option<string>,
    language: Option<string>,
    medium: Medium)

  /** A creator as handed to the contributor lookup: its name and aliases. */
  datatype Creator = Creator(name: Option<string>, aliases: seq<string>)

  /** A subject classification: vocabulary and value. */
  datatype Classification = Classification(vocabulary: string, value: Option<string>)

  datatype Rel = OpenAccessDownload | Image | Canonical

  /** One `identifier.add_resource` call: relation, target and media type. */
  datatype LinkCall = LinkCall(rel: Rel, href: string, mediaType: Option<string>)

  /** One format entry under one `hasFormat` link. */
  datatype FormatEntry = FormatEntry(href: string, mediaType: string)

  /** The lookup tables the extractor consults, and the date parser:
      `LanguageCodes.two_to_three` (a miss reads as `None`),
      `Subject.by_uri` (a miss raises `KeyError`), and `strptime` with the
      `%Y-%m-%d` format (a failure raises `ValueError`). */
  datatype Lookups = Lookups(
    twoToThree: map<string, string>,
    vocabularies: map<string, string>,
    parseDate: string -> Option<Date>)

  datatype ExtractError =
    | AmbiguousRecord(pgId: string)
    | NoIdInUri(uri: string)
    | BadIssuedDate
    | UnknownVocabulary(vocabularyUri: string)

  /** The outcome of a record that describes a book. */
  datatype Extraction = Extraction(
    edition: Edition,
    isNew: bool,
    classifications: seq<Classification>,
    links: seq<LinkCall>,
    creators: seq<Creator>,
    store: map<string, Edition>)

  /** `_values`: the objects of the triples `(s, p, _)`, in graph order. */
  function Objects(g: Graph, s: string, p: string): (os: seq<string>)
    ensures |os| <= |g|
    ensures forall o :: o in os <==> Triple(s, p, o) in g
  {
    if |g| == 0 then []
    else (if g[0].subject == s && g[0].verb == p then [g[0].obj] else []) + Objects(g[1..], s, p)
  }

  /** `_value`: the first such object, if any. */
  function Value(g: Graph, s: string, p: string): Option<string> {
    var os := Objects(g, s, p);
    if |os| == 0 then None else Some(os[0])
  }

  /** `str(x)` / `unicode(x)` of a node that may be `None`. */
  function NodeText(v: Option<string>): string {
    if v.Some? then v.value else "None"
  }

  predicate IsTitleTriple(t: Triple) { t.verb == TITLE }

  function TitleTriples(g: Graph): seq<Triple> {
    Filter(g, IsTitleTriple)
  }

  /** Title triples from more than one subject. */
  predicate Ambiguous(titles: seq<Triple>) {
    exists k | 0 <= k < |titles| :: titles[k].subject != titles[0].subject
  }

  /** `ID_IN_URI.search(uri)`: the digits after the last `/` at the end of the
      URI (Python's `$` also matches just before a final newline). */
  function UriId(uri: string): (r: Option<string>)
    ensures r.Some? ==> |r.value| > 0 && AllDigits(r.value)
  {
    var body := if EndsWith(uri, "\n") then uri[..|uri| - 1] else uri;
    var n := TrailingDigits(body);
    if n > 0 && n < |body| && body[|body| - n - 1] == '/' then Some(body[|body| - n..]) else None
  }

  /** Length of the run of digits `s` ends with. */
  function TrailingDigits(s: string): (n: nat)
    ensures n <= |s|
    ensures forall k :: |s| - n <= k < |s| ==> IsDigit(s[k])
    ensures n < |s| ==> !IsDigit(s[|s| - n - 1])
  {
    if |s| == 0 || !IsDigit(s[|s| - 1]) then 0 else 1 + TrailingDigits(s[..|s| - 1])
  }

  /** A URI ending in `/` and a run of digits yields exactly those digits. */
  lemma UriIdOfSubjectUri(prefix: string, id: string)
    requires |id| > 0 && AllDigits(id)
    ensures UriId(prefix + "/" + id) == Some(id)
  {
    var uri := prefix + "/" + id;
    assert uri[|uri| - 1] == id[|id| - 1];
    assert !EndsWith(uri, "\n") by {
      assert IsDigit(uri[|uri| - 1]);
    }
    TrailingDigitsOf(prefix + "/", id);
    assert uri[|uri| - |id|..] == id;
  }

  lemma {:induction false} TrailingDigitsOf(head: string, digits: string)
    requires |head| > 0 && !IsDigit(head[|head| - 1]) && AllDigits(digits)
    ensures TrailingDigits(head + digits) == |digits|
    decreases |digits|
  {
    var s := head + digits;
    if |digits| > 0 {
      TrailingDigitsOf(head, digits[..|digits| - 1]);
      assert s[..|s| - 1] == head + digits[..|digits| - 1];
      assert IsDigit(s[|s| - 1]);
    } else {
      assert s == head;
    }
  }

  /** The title split: `"\r\n"` is tried before `"\n"`; the title is the text
      before the first separator and the subtitle the remaining parts joined
      by `"\n"`. */
  function SplitTitle(raw: string): (string, Option<string>) {
    if Contains(raw, "\r\n") then
      var parts := Split(raw, "\r\n");
      (parts[0], Some(Join(parts[1..], "\n")))
    else if Contains(raw, "\n") then
      var parts := Split(raw, "\n");
      (parts[0], Some(Join(parts[1..], "\n")))
    else (raw, None)
  }

  /** Splitting at the first occurrence of a separator: the first part is the
      text before it, and the others joined back with the separator are the
      text after it. */
  lemma {:induction false} SplitAtFirst(s: string, sep: string, i: nat)
    requires |sep| > 0 && Find(s, sep) == Some(i)
    ensures Split(s, sep)[0] == s[..i]
    ensures Join(Split(s, sep)[1..], sep) == s[i + |sep|..]
  {
    var rest := s[i + |sep|..];
    SplitStep(s, sep, i);
    var tail := Split(rest, sep);
    assert ([s[..i]] + tail)[1..] == tail;
    JoinSplit(rest, sep);
  }

  lemma CrLfHasLf(s: string)
    requires Contains(s, "\r\n")
    ensures Contains(s, "\n")
  {
    var i :| 0 <= i <= |s| - 2 && OccursAt(s, "\r\n", i);
    assert s[i + 1] == '\n';
    assert OccursAt(s, "\n", i + 1);
  }

  /** The title/subtitle split in terms of the first separator in the raw
      title: with no line break there is no subtitle; with `"\n"` breaks only,
      the title and subtitle are the text before and after the first one, so
      `title + "\n" + subtitle` is the raw title; with a `"\r\n"` break the
      title is the text before the first one and the subtitle the text after
      it with every `"\r\n"` turned into `"\n"`. */
  lemma SplitTitleSpec(raw: string)
    ensures SplitTitle(raw).1.None? <==> !Contains(raw, "\n")
    ensures SplitTitle(raw).1.None? ==> SplitTitle(raw).0 == raw
    ensures !Contains(raw, "\r\n") && Contains(raw, "\n") ==>
      var i := Find(raw, "\n").value;
      SplitTitle(raw) == (raw[..i], Some(raw[i + 1..])) &&
      SplitTitle(raw).0 + "\n" + SplitTitle(raw).1.value == raw
    ensures Contains(raw, "\r\n") ==>
      var i := Find(raw, "\r\n").value;
      SplitTitle(raw) == (raw[..i], Some(ReplaceAll(raw[i + 2..], "\r\n", "\n")))
  {
    if Contains(raw, "\r\n") {
      CrLfHasLf(raw);
      var i := Find(raw, "\r\n").value;
      SplitAtFirst(raw, "\r\n", i);
      var rest := raw[i + 2..];
      assert Split(raw, "\r\n")[1..] == Split(rest, "\r\n");
      ReplaceAllIsSplitJoin(rest, "\r\n", "\n");
    } else if Contains(raw, "\n") {
      var i := Find(raw, "\n").value;
      SplitAtFirst(raw, "\n", i);
      CutAround(raw, i, 1);
    }
  }

  /** The title never keeps the separator it was split on. */
  lemma SplitTitleHeadFree(raw: string)
    ensures Contains(raw, "\r\n") ==> !Contains(SplitTitle(raw).0, "\r\n")
    ensures !Contains(raw, "\r\n") ==> !Contains(SplitTitle(raw).0, "\n")
  {
    if Contains(raw, "\r\n") {
      SplitHeadFree(raw, "\r\n");
    } else if Contains(raw, "\n") {
      SplitHeadFree(raw, "\n");
    }
  }

  /** `LanguageCodes.two_to_three[code]`, with a miss as the empty string. */
  function ThreeLetter(twoToThree: map<string, string>, code: string): string {
    if code in twoToThree then twoToThree[code] else ""
  }

  predicate NonEmpty(s: string) { s != "" }

  /** The three-letter codes of the record's languages, in order, with the
      codes that map to nothing dropped. */
  function LanguageCodes(g: Graph, uri: string, twoToThree: map<string, string>): seq<string> {
    var raw := Objects(g, uri, LANGUAGE);
    var mapped := seq(|raw|, k requires 0 <= k < |raw| => LanguageCode(g, twoToThree, raw[k]));
    Filter(mapped, NonEmpty)
  }

  /** The three-letter code of one language node: its `rdf:value`, mapped. */
  function LanguageCode(g: Graph, twoToThree: map<string, string>, node: string): string {
    ThreeLetter(twoToThree, NodeText(Value(g, node, RDF_VALUE)))
  }

  /** The language preference: `eng` if present, else the first code. */
  function ChooseLanguage(codes: seq<string>): Option<string> {
    if "eng" in codes then Some("eng")
    else if |codes| > 0 then Some(codes[0])
    else None
  }

  /** The chosen language is one of the codes, exists exactly when there is a
      code, and is English exactly when English is among them. */
  lemma ChooseLanguageSpec(codes: seq<string>)
    ensures ChooseLanguage(codes).None? <==> |codes| == 0
    ensures ChooseLanguage(codes).Some? ==> ChooseLanguage(codes).value in codes
    ensures ChooseLanguage(codes) == Some("eng") <==> "eng" in codes
    ensures "eng" !in codes && |codes| > 0 ==> ChooseLanguage(codes) == Some(codes[0])
  {
  }

  /** A code is kept exactly when it is non-empty and the image of one of
      the record's language values. */
  lemma LanguageCodesSpec(g: Graph, uri: string, twoToThree: map<string, string>)
    ensures forall c :: c in LanguageCodes(g, uri, twoToThree) <==>
      c != "" && exists l :: l in Objects(g, uri, LANGUAGE) && c == LanguageCode(g, twoToThree, l)
  {
    var raw := Objects(g, uri, LANGUAGE);
    var mapped := seq(|raw|, k requires 0 <= k < |raw| => LanguageCode(g, twoToThree, raw[k]));
    KeptImages(raw, mapped, (l: string) => LanguageCode(g, twoToThree, l));
  }

  /** Mapping each element through `f` and dropping the empty results keeps
      exactly the non-empty images. */
  lemma KeptImages(raw: seq<string>, mapped: seq<string>, f: string -> string)
    requires |mapped| == |raw| && forall k :: 0 <= k < |raw| ==> mapped[k] == f(raw[k])
    ensures forall c :: c in Filter(mapped, NonEmpty) <==> c != "" && exists l :: l in raw && c == f(l)
  {
    forall c | c in Filter(mapped, NonEmpty)
      ensures c != "" && exists l :: l in raw && c == f(l)
    {
      var k :| 0 <= k < |mapped| && mapped[k] == c;
      assert raw[k] in raw;
    }
    forall c | c != "" && exists l :: l in raw && c == f(l)
      ensures c in Filter(mapped, NonEmpty)
    {
      var l :| l in raw && c == f(l);
      var k :| 0 <= k < |raw| && raw[k] == l;
      assert mapped[k] == c;
    }
  }

  function CreatorsOf(g: Graph, uri: string): seq<Creator> {
    var authors := Objects(g, uri, CREATOR);
    seq(|authors|, k requires 0 <= k < |authors| =>
      Creator(Value(g, authors[k], PG_NAME), Objects(g, authors[k], PG_ALIAS)))
  }

  /** The classifications of a new edition, one per subject node; an unknown
      vocabulary URI fails the record. */
  function Classify(g: Graph, subjects: seq<string>, vocabularies: map<string, string>): (r: Result<seq<Classification>, ExtractError>)
    ensures r.Ok? ==> |r.value| == |subjects|
    ensures r.Ok? <==> forall k :: 0 <= k < |subjects| ==> NodeText(Value(g, subjects[k], MEMBER_OF)) in vocabularies
  {
    if |subjects| == 0 then Ok([])
    else
      var key := NodeText(Value(g, subjects[0], MEMBER_OF));
      if key !in vocabularies then Err(UnknownVocabulary(key))
      else
        var rest :- Classify(g, subjects[1..], vocabularies);
        Ok([Classification(vocabularies[key], Value(g, subjects[0], RDF_VALUE))] + rest)
  }

  /** The format entries of one download link. */
  function EntriesFor(g: Graph, href: string): seq<FormatEntry> {
    var formats := Objects(g, href, FORMAT);
    seq(|formats|, k requires 0 <= k < |formats| => FormatEntry(href, NodeText(Value(g, formats[k], RDF_VALUE))))
  }

  /** The nested loop over `hasFormat` links and their format entries. */
  function EntriesOf(g: Graph, hrefs: seq<string>): seq<FormatEntry> {
    if |hrefs| == 0 then [] else EntriesFor(g, hrefs[0]) + EntriesOf(g, hrefs[1..])
  }

  predicate IsImage(e: FormatEntry) { StartsWith(e.mediaType, "image/") }
  predicate IsAudio(e: FormatEntry) { StartsWith(e.mediaType, "audio/") }
  predicate IsVideo(e: FormatEntry) { StartsWith(e.mediaType, "video/") }

  /** An entry that produces a resource link: anything but a thumbnail image. */
  predicate KeepsLink(e: FormatEntry) {
    !IsImage(e) || Contains(e.href, ".medium.")
  }

  function RelOf(e: FormatEntry): Rel {
    if IsImage(e) then Image else OpenAccessDownload
  }

  /** The `add_resource` calls for one format entry: its own link unless it is
      a thumbnail image, then a canonical link to the subject URI. */
  function EntryLinks(e: FormatEntry, uri: string): seq<LinkCall> {
    (if KeepsLink(e) then [LinkCall(RelOf(e), e.href, Some(e.mediaType))] else [])
    + [LinkCall(Canonical, uri, None)]
  }

  function LinkCalls(entries: seq<FormatEntry>, uri: string): seq<LinkCall> {
    if |entries| == 0 then [] else EntryLinks(entries[0], uri) + LinkCalls(entries[1..], uri)
  }

  predicate IsCanonicalCall(l: LinkCall) { l.rel == Canonical }
  predicate IsResourceCall(l: LinkCall) { l.rel != Canonical }

  /** The resource link an entry yields when it yields one. */
  function ResourceCall(e: FormatEntry): LinkCall {
    LinkCall(RelOf(e), e.href, Some(e.mediaType))
  }

  function ResourceCalls(entries: seq<FormatEntry>): seq<LinkCall> {
    if |entries| == 0 then []
    else (if KeepsLink(entries[0]) then [ResourceCall(entries[0])] else []) + ResourceCalls(entries[1..])
  }

  function Repeat<T>(x: T, n: nat): (r: seq<T>)
    ensures |r| == n
    ensures forall k :: 0 <= k < n ==> r[k] == x
  {
    if n == 0 then [] else [x] + Repeat(x, n - 1)
  }

  /** The link calls split into two streams: exactly one canonical link to the
      subject URI per format entry (duplicates included), and, in entry order,
      one resource link for every entry that is not a thumbnail image, an
      image link for a `.medium.` image and an open-access link otherwise. */
  lemma {:induction false} LinkCallsSpec(entries: seq<FormatEntry>, uri: string)
    ensures Filter(LinkCalls(entries, uri), IsCanonicalCall) == Repeat(LinkCall(Canonical, uri, None), |entries|)
    ensures Filter(LinkCalls(entries, uri), IsResourceCall) == ResourceCalls(entries)
  {
    if |entries| > 0 {
      var e := entries[0];
      LinkCallsSpec(entries[1..], uri);
      FilterAppend(EntryLinks(e, uri), LinkCalls(entries[1..], uri), IsCanonicalCall);
      FilterAppend(EntryLinks(e, uri), LinkCalls(entries[1..], uri), IsResourceCall);
      EntryLinksStreams(e, uri);
      assert Repeat(LinkCall(Canonical, uri, None), |entries|)
          == [LinkCall(Canonical, uri, None)] + Repeat(LinkCall(Canonical, uri, None), |entries| - 1);
    }
  }

  /** The two streams of one entry's calls. */
  lemma EntryLinksStreams(e: FormatEntry, uri: string)
    ensures Filter(EntryLinks(e, uri), IsCanonicalCall) == [LinkCall(Canonical, uri, None)]
    ensures Filter(EntryLinks(e, uri), IsResourceCall) == if KeepsLink(e) then [ResourceCall(e)] else []
  {
    var canon := [LinkCall(Canonical, uri, None)];
    var own: seq<LinkCall> := if KeepsLink(e) then [ResourceCall(e)] else [];
    assert EntryLinks(e, uri) == own + canon;
    FilterAppend(own, canon, IsCanonicalCall);
    FilterAppend(own, canon, IsResourceCall);
    assert canon[1..] == [];
    if KeepsLink(e) {
      assert own[1..] == [];
    }
  }

  /** One step of the medium loop: audio and video set the medium, anything
      else leaves it. */
  function MediumStep(m: Medium, e: FormatEntry): Medium {
    if IsImage(e) then m
    else if IsAudio(e) then AudioMedium
    else if IsVideo(e) then VideoMedium
    else m
  }

  function MediumFrom(m: Medium, entries: seq<FormatEntry>): Medium
    decreases |entries|
  {
    if |entries| == 0 then m else MediumFrom(MediumStep(m, entries[0]), entries[1..])
  }

  /** `book.medium`: starts as a book and is set by each format entry in turn. */
  function MediumOf(entries: seq<FormatEntry>): Medium {
    MediumFrom(BookMedium, entries)
  }

  predicate IsAudioVisual(e: FormatEntry) { IsAudio(e) || IsVideo(e) }

  function MediumOfEntry(e: FormatEntry): Medium {
    if IsAudio(e) then AudioMedium else VideoMedium
  }

  lemma ImageIsNotAudioVisual(e: FormatEntry)
    requires IsImage(e)
    ensures !IsAudioVisual(e)
  {
    assert e.mediaType[0] == 'i';
  }

  predicate NoAudioVisual(entries: seq<FormatEntry>) {
    forall k :: 0 <= k < |entries| ==> !IsAudioVisual(entries[k])
  }

  /** Entries that are neither audio nor video leave the medium alone. */
  lemma {:induction false} MediumUnchanged(m: Medium, entries: seq<FormatEntry>)
    requires NoAudioVisual(entries)
    ensures MediumFrom(m, entries) == m
    decreases |entries|
  {
    if |entries| > 0 {
      if IsImage(entries[0]) {
        ImageIsNotAudioVisual(entries[0]);
      }
      assert MediumStep(m, entries[0]) == m;
      MediumUnchanged(m, entries[1..]);
    }
  }

  lemma {:induction false} MediumFromAppend(m: Medium, a: seq<FormatEntry>, b: seq<FormatEntry>)
    ensures MediumFrom(m, a + b) == MediumFrom(MediumFrom(m, a), b)
    decreases |a|
  {
    if |a| > 0 {
      assert (a + b)[1..] == a[1..] + b;
      MediumFromAppend(MediumStep(m, a[0]), a[1..], b);
    } else {
      assert a + b == b;
    }
  }

  /** The last audio or video entry decides the medium, whatever came before. */
  lemma MediumLastWins(m: Medium, before: seq<FormatEntry>, e: FormatEntry, after: seq<FormatEntry>)
    requires IsAudioVisual(e) && NoAudioVisual(after)
    ensures MediumFrom(m, before + [e] + after) == MediumOfEntry(e)
  {
    MediumFromAppend(m, before + [e], after);
    MediumFromAppend(m, before, [e]);
    if IsImage(e) {
      ImageIsNotAudioVisual(e);
    }
    MediumUnchanged(MediumFrom(m, before + [e]), after);
  }

  /** `parse_book`: build the edition for subject `uri` with raw title `rawTitle`. */
  function ParseBook(g: Graph, uri: string, rawTitle: string, store: map<string, Edition>, lookups: Lookups)
    : Result<Extraction, ExtractError>
  {
    var created :- RecordEdition(g, uri, rawTitle, lookups);
    var sourceId := created.gutenbergId;
    var isNew := sourceId !in store;
    var classifications :-
      if isNew then Classify(g, Objects(g, uri, SUBJECT), lookups.vocabularies) else Ok([]);
    var entries := EntriesOf(g, Objects(g, uri, HAS_FORMAT));
    var base := if isNew then created else store[sourceId];
    var edition := base.(medium := MediumOf(entries));
    Ok(Extraction(edition, isNew, classifications, LinkCalls(entries, uri), CreatorsOf(g, uri),
                  store[sourceId := edition]))
  }

  /** The part of `parse_book` that reads only the record: the id from the
      subject URI, the split title, the issued date, the first publisher and
      the chosen language, as the edition a new id would get. */
  function RecordEdition(g: Graph, uri: string, rawTitle: string, lookups: Lookups): Result<Edition, ExtractError> {
    var sourceId :- UriId(uri).ToResult(NoIdInUri(uri));
    var (title, subtitle) := SplitTitle(rawTitle);
    var issuedText :- Value(g, uri, ISSUED).ToResult(BadIssuedDate);
    var issued :- lookups.parseDate(issuedText).ToResult(BadIssuedDate);
    var publisher := Value(g, uri, PUBLISHER);
    var language := ChooseLanguage(LanguageCodes(g, uri, lookups.twoToThree));
    Ok(Edition(sourceId, title, subtitle, issued, publisher, language, BookMedium))
  }

  /** `book_in`: no title means no book; titles from several subjects make
      the record ambiguous; otherwise the first title triple names the book. */
  function BookIn(g: Graph, pgId: string, store: map<string, Edition>, lookups: Lookups)
    : (r: Result<Option<Extraction>, ExtractError>)
  {
    var titles := TitleTriples(g);
    if |titles| == 0 then Ok(None)
    else if Ambiguous(titles) then Err(AmbiguousRecord(pgId))
    else
      var x :- ParseBook(g, titles[0].subject, titles[0].obj, store, lookups);
      Ok(Some(x))
  }

  /** Some triple carries a title. */
  predicate HasTitle(g: Graph) {
    exists t :: t in g && t.verb == TITLE
  }

  /** Two title triples name different subjects. */
  predicate TitlesDisagree(g: Graph) {
    exists t1, t2 :: t1 in g && t2 in g && t1.verb == TITLE && t2.verb == TITLE && t1.subject != t2.subject
  }

  lemma TitleTriplesSpec(g: Graph)
    ensures |TitleTriples(g)| == 0 <==> !HasTitle(g)
    ensures |TitleTriples(g)| > 0 ==> TitleTriples(g)[0] in g && TitleTriples(g)[0].verb == TITLE
    ensures |TitleTriples(g)| > 0 ==> (Ambiguous(TitleTriples(g)) <==> TitlesDisagree(g))
  {
    var titles := TitleTriples(g);
    if |titles| > 0 {
      assert titles[0] in titles;
      if Ambiguous(titles) {
        var k :| 0 <= k < |titles| && titles[k].subject != titles[0].subject;
        assert titles[k] in titles;
      }
      if TitlesDisagree(g) {
        var t1, t2 :| t1 in g && t2 in g && t1.verb == TITLE && t2.verb == TITLE && t1.subject != t2.subject;
        assert t1 in titles && t2 in titles;
      }
    }
  }

  /** A parsed record as `book_in` returns it. */
  function AsBook(r: Result<Extraction, ExtractError>): Result<Option<Extraction>, ExtractError> {
    if r.Ok? then Ok(Some(r.value)) else Err(r.error)
  }

  /** The three outcomes of `book_in`: no title triple gives no book; title
      triples on two different subjects fail the record; otherwise the book is
      whatever parsing the subject and object of the first title triple gives. */
  lemma BookInCases(g: Graph, pgId: string, store: map<string, Edition>, lookups: Lookups)
    ensures !HasTitle(g) ==> BookIn(g, pgId, store, lookups) == Ok(None)
    ensures TitlesDisagree(g) ==> BookIn(g, pgId, store, lookups) == Err(AmbiguousRecord(pgId))
    ensures HasTitle(g) && !TitlesDisagree(g) ==>
      var first := TitleTriples(g)[0];
      first in g && first.verb == TITLE &&
      BookIn(g, pgId, store, lookups) == AsBook(ParseBook(g, first.subject, first.obj, store, lookups))
  {
    TitleTriplesSpec(g);
  }

  /** Scalar fields are only written when the edition is created: for an id
      already in the store, the stored edition is kept with only its medium
      reset, and no subject is classified. */
  lemma ExistingEditionKeepsScalars(g: Graph, uri: string, rawTitle: string, store: map<string, Edition>, lookups: Lookups)
    requires UriId(uri).Some? && UriId(uri).value in store
    ensures var r := ParseBook(g, uri, rawTitle, store, lookups);
      r.Ok? ==>
        var old_ := store[UriId(uri).value];
        !r.value.isNew && r.value.classifications == [] &&
        r.value.edition == old_.(medium := r.value.edition.medium) &&
        r.value.store.Keys == store.Keys
  {
  }

  /** A new edition takes the split title, the chosen language and the first
      publisher, and gets one classification per subject. */
  lemma {:induction false} NewEditionFields(g: Graph, uri: string, rawTitle: string, store: map<string, Edition>, lookups: Lookups)
    requires UriId(uri).Some? && UriId(uri).value !in store
    ensures var r := ParseBook(g, uri, rawTitle, store, lookups);
      r.Ok? ==>
        var ed := r.value.edition;
        r.value.isNew && ed.gutenbergId == UriId(uri).value &&
        (ed.title, ed.subtitle) == SplitTitle(rawTitle) &&
        ed.language == ChooseLanguage(LanguageCodes(g, uri, lookups.twoToThree)) &&
        ed.publisher == Value(g, uri, PUBLISHER) &&
        |r.value.classifications| == |Objects(g, uri, SUBJECT)| &&
        r.value.store.Keys == store.Keys + {ed.gutenbergId}
  {
  }

  /** Extracting the same record twice leaves exactly one edition for it: the
      second run finds the edition the first one stored and changes nothing. */
  lemma {:induction false} ExtractTwiceIdempotent(g: Graph, pgId: string, store: map<string, Edition>, lookups: Lookups)
    requires BookIn(g, pgId, store, lookups).Ok? && BookIn(g, pgId, store, lookups).value.Some?
    ensures var first := BookIn(g, pgId, store, lookups).value.value;
      var second := BookIn(g, pgId, first.store, lookups);
      second.Ok? && second.value.Some? &&
      !second.value.value.isNew &&
      second.value.value.store == first.store &&
      second.value.value.edition == first.edition
  {
    var titles := TitleTriples(g);
    ParseBookAgain(g, titles[0].subject, titles[0].obj, store, lookups);
  }

  /** What a successful parse stores: the edition it returns, under the id
      read from the record, with the medium of the record's formats. */
  lemma ParseBookStores(g: Graph, uri: string, rawTitle: string, store: map<string, Edition>, lookups: Lookups)
    requires ParseBook(g, uri, rawTitle, store, lookups).Ok?
    ensures RecordEdition(g, uri, rawTitle, lookups).Ok?
    ensures var x := ParseBook(g, uri, rawTitle, store, lookups).value;
      var id := RecordEdition(g, uri, rawTitle, lookups).value.gutenbergId;
      x.store == store[id := x.edition] &&
      x.edition.medium == MediumOf(EntriesOf(g, Objects(g, uri, HAS_FORMAT)))
  {
  }

  /** Parsing a record whose id is stored keeps the stored edition, with
      its medium reset from the record's formats, and classifies nothing. */
  lemma ParseBookKnown(g: Graph, uri: string, rawTitle: string, store: map<string, Edition>, lookups: Lookups)
    requires RecordEdition(g, uri, rawTitle, lookups).Ok?
    requires RecordEdition(g, uri, rawTitle, lookups).value.gutenbergId in store
    ensures var id := RecordEdition(g, uri, rawTitle, lookups).value.gutenbergId;
      var entries := EntriesOf(g, Objects(g, uri, HAS_FORMAT));
      var edition := store[id].(medium := MediumOf(entries));
      ParseBook(g, uri, rawTitle, store, lookups) ==
        Ok(Extraction(edition, false, [], LinkCalls(entries, uri), CreatorsOf(g, uri), store[id := edition]))
  {
  }

  /** Parsing a record again against the store the first parse produced finds
      the stored edition and changes nothing. */
  lemma {:induction false} ParseBookAgain(g: Graph, uri: string, rawTitle: string, store: map<string, Edition>, lookups: Lookups)
    requires ParseBook(g, uri, rawTitle, store, lookups).Ok?
    ensures var first := ParseBook(g, uri, rawTitle, store, lookups).value;
      var second := ParseBook(g, uri, rawTitle, first.store, lookups);
      second.Ok? && !second.value.isNew && second.value.store == first.store &&
      second.value.edition == first.edition
  {
    var first := ParseBook(g, uri, rawTitle, store, lookups).value;
    ParseBookStores(g, uri, rawTitle, store, lookups);
    var id := RecordEdition(g, uri, rawTitle, lookups).value.gutenbergId;
    assert id in first.store && first.store[id] == first.edition;
    ParseBookKnown(g, uri, rawTitle, first.store, lookups);
    assert first.edition.(medium := first.edition.medium) == first.edition;
    assert first.store[id := first.edition] == first.store;
  }
}

=== FILE: shrink_text.dfy ===
/** `BibblioCoverageProvider._shrink_text` (bibblio.py): the clean-up every
    text goes through before it is sent, and the byte limit of the API. */
module TextShrink {
  import opened Wrappers
  import opened Strings
  import opened Utf8
  import opened EpubFilters

  /** The most bytes of text the content-item API accepts. */
  const BIBBLIO_TEXT_LIMIT: nat := 200000

  /** What the model leaves to other code: running a compiled pattern
      (`re.sub(pattern, '', text)`) and the newline clean-up
      `re.sub(r'(\s?\n\s+|\s+\n\s?)+', '\n', text)`. */
  datatype TextOps = TextOps(removeAll: (Pattern, string) -> string, collapseNewlines: string -> string)

  /** `re.sub(c + '{2,}', c, s)`: every run of two or more `c` becomes a
      single `c`. */
  function CollapseRuns(s: string, c: char): string
    decreases |s|
  {
    if |s| < 2 then s
    else if s[0] == c && s[1] == c then CollapseRuns(s[1..], c)
    else [s[0]] + CollapseRuns(s[1..], c)
  }

  /** `c` never appears twice in a row in `s`. */
  predicate NoRun(s: string, c: char) {
    forall k :: 0 <= k < |s| - 1 ==> !(s[k] == c && s[k + 1] == c)
  }

  /** `s` with every `c` taken out. */
  function Without(s: string, c: char): string {
    Filter(s, x => x != c)
  }

  lemma {:induction false} CollapseRunsHead(s: string, c: char)
    requires |s| > 0
    ensures |CollapseRuns(s, c)| > 0 && CollapseRuns(s, c)[0] == s[0]
    decreases |s|
  {
    if |s| >= 2 && s[0] == c && s[1] == c {
      CollapseRunsHead(s[1..], c);
    }
  }

  /** No run of `c` survives; every other character is kept, in order; and
      `c` is present afterwards exactly when it was before. */
  lemma {:induction false} CollapseRunsSpec(s: string, c: char)
    ensures NoRun(CollapseRuns(s, c), c)
    ensures Without(CollapseRuns(s, c), c) == Without(s, c)
    ensures c in CollapseRuns(s, c) <==> c in s
    decreases |s|
  {
    if |s| >= 2 {
      var rest := CollapseRuns(s[1..], c);
      CollapseRunsSpec(s[1..], c);
      CollapseRunsHead(s[1..], c);
      if s[0] == c && s[1] == c {
        assert Without(s, c) == Without(s[1..], c);
      } else {
        var r := [s[0]] + rest;
        assert r[1..] == rest;
        forall k | 0 <= k < |r| - 1
          ensures !(r[k] == c && r[k + 1] == c)
        {
          if k > 0 {
            assert r[k] == rest[k - 1] && r[k + 1] == rest[k];
          }
        }
      }
    }
  }

  /** Text without a run of `c` is left as it is, so collapsing twice is
      collapsing once. */
  lemma {:induction false} CollapseRunsIdempotent(s: string, c: char)
    ensures CollapseRuns(CollapseRuns(s, c), c) == CollapseRuns(s, c)
  {
    CollapseRunsSpec(s, c);
    CollapseRunsKeeps(CollapseRuns(s, c), c);
  }

  lemma {:induction false} CollapseRunsKeeps(s: string, c: char)
    requires NoRun(s, c)
    ensures CollapseRuns(s, c) == s
    decreases |s|
  {
    if |s| >= 2 {
      assert !(s[0] == c && s[1] == c);
      assert NoRun(s[1..], c) by {
        forall k | 0 <= k < |s| - 2
          ensures !(s[1..][k] == c && s[1..][k + 1] == c)
        {
          assert s[1..][k] == s[k + 1] && s[1..][k + 1] == s[k + 2];
        }
      }
      CollapseRunsKeeps(s[1..], c);
      assert [s[0]] + s[1..] == s;
    }
  }

  /** Collapsing runs of one character keeps another character free of
      runs: the space pass cannot bring back a double tab. */
  lemma {:induction false} CollapseRunsKeepsNoRun(s: string, c: char, d: char)
    requires c != d && NoRun(s, d)
    ensures NoRun(CollapseRuns(s, c), d)
    decreases |s|
  {
    if |s| >= 2 {
      assert NoRun(s[1..], d) by {
        forall k | 0 <= k < |s| - 2
          ensures !(s[1..][k] == d && s[1..][k + 1] == d)
        {
          assert s[1..][k] == s[k + 1] && s[1..][k + 1] == s[k + 2];
        }
      }
      CollapseRunsKeepsNoRun(s[1..], c, d);
      if !(s[0] == c && s[1] == c) {
        var rest := CollapseRuns(s[1..], c);
        CollapseRunsHead(s[1..], c);
        var r := [s[0]] + rest;
        forall k | 0 <= k < |r| - 1
          ensures !(r[k] == d && r[k + 1] == d)
        {
          if k > 0 {
            assert r[k] == rest[k - 1] && r[k + 1] == rest[k];
          }
        }
      }
    }
  }

  /** The text before encoding: the optional distributor filter, then the
      newline, tab and space clean-ups, in that order. */
  function Normalize(text: string, filter: Option<EpubFilter>, ops: TextOps): string {
    var filtered := if filter.Some? then FilterText(filter.value, text, ops.removeAll) else text;
    CollapseRuns(CollapseRuns(ops.collapseNewlines(filtered), '\t'), ' ')
  }

  /** `_shrink_text`: the normalized text, encoded as UTF-8 and cut after
      the first `BIBBLIO_TEXT_LIMIT` bytes. */
  function ShrinkText(text: string, filter: Option<EpubFilter>, ops: TextOps): seq<Byte> {
    var bytes := Encode(Normalize(text, filter, ops));
    if |bytes| <= BIBBLIO_TEXT_LIMIT then bytes else bytes[..BIBBLIO_TEXT_LIMIT]
  }

  /** The normalized text has no double tab and no double space. */
  lemma NormalizeSpec(text: string, filter: Option<EpubFilter>, ops: TextOps)
    ensures NoRun(Normalize(text, filter, ops), ' ')
    ensures NoRun(Normalize(text, filter, ops), '\t')
  {
    var filtered := if filter.Some? then FilterText(filter.value, text, ops.removeAll) else text;
    var tabbed := CollapseRuns(ops.collapseNewlines(filtered), '\t');
    CollapseRunsSpec(tabbed, ' ');
    CollapseRunsSpec(ops.collapseNewlines(filtered), '\t');
    CollapseRunsKeepsNoRun(tabbed, ' ', '\t');
  }

  /** The result is the leading part of the encoded text: all of it, which
      then decodes back to the normalized text, when it fits in the limit,
      and exactly `BIBBLIO_TEXT_LIMIT` bytes of it otherwise. */
  lemma ShrinkTextSpec(text: string, filter: Option<EpubFilter>, ops: TextOps)
    ensures var bytes := Encode(Normalize(text, filter, ops));
      var r := ShrinkText(text, filter, ops);
      |r| <= BIBBLIO_TEXT_LIMIT && r <= bytes &&
      (|bytes| <= BIBBLIO_TEXT_LIMIT ==> Decode(r) == Some(Normalize(text, filter, ops))) &&
      (|bytes| > BIBBLIO_TEXT_LIMIT ==> |r| == BIBBLIO_TEXT_LIMIT)
  {
    DecodeEncode(Normalize(text, filter, ops));
  }

  /** ASCII text keeps exactly its first `BIBBLIO_TEXT_LIMIT` characters. */
  lemma ShrinkAscii(text: string, filter: Option<EpubFilter>, ops: TextOps)
    requires var t := Normalize(text, filter, ops); forall k :: 0 <= k < |t| ==> t[k] as int < 0x80
    ensures var t := Normalize(text, filter, ops);
      Decode(ShrinkText(text, filter, ops)) ==
        Some(if |t| <= BIBBLIO_TEXT_LIMIT then t else t[..BIBBLIO_TEXT_LIMIT])
  {
    var t := Normalize(text, filter, ops);
    EncodeAsciiLength(t);
    if |t| > BIBBLIO_TEXT_LIMIT {
      var head, tail := t[..BIBBLIO_TEXT_LIMIT], t[BIBBLIO_TEXT_LIMIT..];
      assert t == head + tail;
      EncodeAppend(head, tail);
      EncodeAsciiLength(head);
      DecodeEncode(head);
    } else {
      DecodeEncode(t);
    }
  }
}

=== FILE: strings.dfy ===
/** Python `str` operations the core relies on: `startswith`, `endswith`,
    `in` on substrings, `find`, `replace` (first or every occurrence),
    `split(sep)`, `sep.join(parts)` and the separator-less `split()`. */
module Strings {
  import opened Wrappers

  predicate IsDigit(c: char) { '0' <= c <= '9' }

  predicate AllDigits(s: string) {
    forall i :: 0 <= i < |s| ==> IsDigit(s[i])
  }

  /** Length of the run of ASCII digits `s` starts with. */
  function DigitRun(s: string): (n: nat)
    ensures n <= |s|
    ensures forall k :: 0 <= k < n ==> IsDigit(s[k])
    ensures n < |s| ==> !IsDigit(s[n])
  {
    if |s| == 0 || !IsDigit(s[0]) then 0 else 1 + DigitRun(s[1..])
  }

  /** Python's `str.isspace` for the characters of a byte string. */
  predicate IsSpace(c: char) {
    c == ' ' || c == '\t' || c == '\n' || c == '\r' || c == '\U{000B}' || c == '\U{000C}'
  }

  predicate StartsWith(s: string, prefix: string) {
    |prefix| <= |s| && forall k :: 0 <= k < |prefix| ==> s[k] == prefix[k]
  }

  predicate EndsWith(s: string, suffix: string) {
    |suffix| <= |s| && s[|s| - |suffix|..] == suffix
  }

  /** Appending the same text to a string and to one of its suffixes keeps
      the suffix relation. */
  lemma EndsWithExtend(s: string, suffix: string, more: string)
    requires EndsWith(s, suffix)
    ensures EndsWith(s + more, suffix + more)
  {
    assert (s + more)[|s| - |suffix|..] == s[|s| - |suffix|..] + more;
  }

  /** A string ends with the last character of any non-empty suffix. */
  lemma EndsWithLast(s: string, suffix: string)
    requires EndsWith(s, suffix) && |suffix| > 0
    ensures s[|s| - 1] == suffix[|suffix| - 1]
  {
    assert s[|s| - |suffix|..][|suffix| - 1] == s[|s| - 1];
  }

  /** `p` occurs in `s` starting at index `i`. */
  predicate OccursAt(s: string, p: string, i: int) {
    0 <= i && i + |p| <= |s| && s[i..i + |p|] == p
  }

  /** Python's `p in s`. */
  predicate Contains(s: string, p: string) {
    exists i | 0 <= i <= |s| - |p| :: OccursAt(s, p, i)
  }

  /** The first occurrence of `p` in `s` at or after `i`. */
  function FindFrom(s: string, p: string, i: nat): (r: Option<nat>)
    requires i <= |s|
    ensures r.Some? ==> i <= r.value && OccursAt(s, p, r.value)
    ensures r.Some? ==> forall j :: i <= j < r.value ==> !OccursAt(s, p, j)
    ensures r.None? ==> forall j :: i <= j ==> !OccursAt(s, p, j)
    decreases |s| - i
  {
    if OccursAt(s, p, i) then Some(i)
    else if i + |p| >= |s| then None
    else FindFrom(s, p, i + 1)
  }

  /** Python's `s.find(p)`, with -1 as `None`. */
  function Find(s: string, p: string): (r: Option<nat>)
    ensures r.None? <==> !Contains(s, p)
    ensures r.Some? ==> OccursAt(s, p, r.value) && forall j :: 0 <= j < r.value ==> !OccursAt(s, p, j)
  {
    FindFrom(s, p, 0)
  }

  /** Python's `s.replace(p, rep, 1)`. */
  function ReplaceFirst(s: string, p: string, rep: string): (r: string)
    requires |p| > 0
    ensures !Contains(s, p) ==> r == s
    ensures Contains(s, p) ==>
      exists i :: OccursAt(s, p, i) && r == s[..i] + rep + s[i + |p|..] &&
                  forall j :: 0 <= j < i ==> !OccursAt(s, p, j)
  {
    match Find(s, p)
    case None => s
    case Some(i) => s[..i] + rep + s[i + |p|..]
  }

  /** A replacement of the first occurrence of a prefix the string starts with
      swaps that prefix and keeps the rest. */
  lemma ReplaceFirstOfPrefix(s: string, p: string, rep: string)
    requires |p| > 0 && StartsWith(s, p)
    ensures ReplaceFirst(s, p, rep) == rep + s[|p|..]
  {
    assert s[..|p|] == p;
    assert OccursAt(s, p, 0);
    assert FindFrom(s, p, 0) == Some(0);
    assert ReplaceFirst(s, p, rep) == s[..0] + rep + s[|p|..];
    assert s[..0] + rep == rep;
  }

  lemma PrefixSplit(s: string, p: string)
    requires StartsWith(s, p)
    ensures s == p + s[|p|..]
  {
    assert s[..|p|] == p;
    assert s == s[..|p|] + s[|p|..];
  }

  /** Python's `s.replace(p, rep)`: every non-overlapping occurrence, left to right. */
  function ReplaceAll(s: string, p: string, rep: string): string
    requires |p| > 0
    decreases |s|
  {
    match Find(s, p)
    case None => s
    case Some(i) => s[..i] + rep + ReplaceAll(s[i + |p|..], p, rep)
  }

  /** Python's `s.split(sep)` for a non-empty separator. */
  function Split(s: string, sep: string): (parts: seq<string>)
    requires |sep| > 0
    ensures |parts| >= 1
    decreases |s|
  {
    var f := Find(s, sep);
    if f.None? then [s] else [s[..f.value]] + Split(s[f.value + |sep|..], sep)
  }

  /** Python's `sep.join(parts)`. */
  function Join(parts: seq<string>, sep: string): string
    decreases |parts|
  {
    if |parts| == 0 then ""
    else if |parts| == 1 then parts[0]
    else parts[0] + sep + Join(parts[1..], sep)
  }

  /** One step of `Split` at the first occurrence of the separator. */
  lemma {:induction false} SplitStep(s: string, sep: string, i: nat)
    requires |sep| > 0 && Find(s, sep) == Some(i)
    ensures Split(s, sep) == [s[..i]] + Split(s[i + |sep|..], sep)
  {
  }

  lemma JoinCons(head: string, tail: seq<string>, sep: string)
    requires |tail| >= 1
    ensures Join([head] + tail, sep) == head + sep + Join(tail, sep)
  {
    assert ([head] + tail)[1..] == tail;
  }

  lemma CutAround(s: string, i: nat, n: nat)
    requires i + n <= |s|
    ensures s == s[..i] + s[i..i + n] + s[i + n..]
  {
  }

  /** Splitting on a separator and joining with the same separator gives back the string. */
  lemma {:induction false} JoinSplit(s: string, sep: string)
    requires |sep| > 0
    ensures Join(Split(s, sep), sep) == s
    decreases |s|
  {
    var f := Find(s, sep);
    if f.Some? {
      var i := f.value;
      var rest := s[i + |sep|..];
      JoinSplit(rest, sep);
      var tail := Split(rest, sep);
      SplitStep(s, sep, i);
      JoinCons(s[..i], tail, sep);
      CutAround(s, i, |sep|);
    }
  }

  /** Replacing every occurrence is splitting on the pattern and joining with the replacement. */
  lemma {:induction false} ReplaceAllIsSplitJoin(s: string, p: string, rep: string)
    requires |p| > 0
    ensures ReplaceAll(s, p, rep) == Join(Split(s, p), rep)
    decreases |s|
  {
    var f := Find(s, p);
    if f.Some? {
      var i := f.value;
      var rest := s[i + |p|..];
      ReplaceAllIsSplitJoin(rest, p, rep);
      var tail := Split(rest, p);
      ReplaceAllStep(s, p, rep, i);
      SplitStep(s, p, i);
      JoinCons(s[..i], tail, rep);
      assert ReplaceAll(s, p, rep) == s[..i] + rep + Join(tail, rep);
    } else {
      assert Split(s, p) == [s];
    }
  }

  /** One step of `ReplaceAll` at the first occurrence of the pattern. */
  lemma {:induction false} ReplaceAllStep(s: string, p: string, rep: string, i: nat)
    requires |p| > 0 && Find(s, p) == Some(i)
    ensures ReplaceAll(s, p, rep) == s[..i] + rep + ReplaceAll(s[i + |p|..], p, rep)
  {
  }

  /** The first part of a split holds no occurrence of the separator. */
  lemma SplitHeadFree(s: string, sep: string)
    requires |sep| > 0
    ensures !Contains(Split(s, sep)[0], sep)
  {
    var head := Split(s, sep)[0];
    if j :| OccursAt(head, sep, j) {
      match Find(s, sep)
      case None =>
      case Some(i) =>
        assert head == s[..i];
        assert s[j..j + |sep|] == head[j..j + |sep|];
        assert OccursAt(s, sep, j);
    }
  }

  /** Length of the run of non-space characters `s` starts with. */
  function WordLength(s: string): (n: nat)
    ensures n <= |s|
    ensures forall k :: 0 <= k < n ==> !IsSpace(s[k])
    ensures n < |s| ==> IsSpace(s[n])
  {
    if |s| == 0 || IsSpace(s[0]) then 0 else 1 + WordLength(s[1..])
  }

  /** Python's separator-less `s.split()`: the maximal runs of non-space characters. */
  function Words(s: string): (ws: seq<string>)
    ensures forall k :: 0 <= k < |ws| ==> |ws[k]| > 0
    ensures forall k, m :: 0 <= k < |ws| && 0 <= m < |ws[k]| ==> !IsSpace(ws[k][m])
    decreases |s|
  {
    if |s| == 0 then []
    else if IsSpace(s[0]) then Words(s[1..])
    else
      var n := WordLength(s);
      [s[..n]] + Words(s[n..])
  }

  function Concat(parts: seq<string>): string {
    if |parts| == 0 then "" else parts[0] + Concat(parts[1..])
  }

  /** The characters of `s` that are not whitespace, in order. */
  function NonSpace(s: string): string {
    if |s| == 0 then "" else (if IsSpace(s[0]) then "" else [s[0]]) + NonSpace(s[1..])
  }

  lemma NonSpaceAppend(a: string, b: string)
    ensures NonSpace(a + b) == NonSpace(a) + NonSpace(b)
  {
    if |a| > 0 {
      assert (a + b)[1..] == a[1..] + b;
      NonSpaceAppend(a[1..], b);
    } else {
      assert a + b == b;
    }
  }

  /** The words of a string are exactly its non-space characters, regrouped. */
  lemma {:induction false} WordsCoverNonSpace(s: string)
    ensures Concat(Words(s)) == NonSpace(s)
    decreases |s|
  {
    if |s| == 0 {
    } else if IsSpace(s[0]) {
      WordsCoverNonSpace(s[1..]);
    } else {
      var n := WordLength(s);
      WordsCoverNonSpace(s[n..]);
      var ws := Words(s[n..]);
      assert ([s[..n]] + ws)[1..] == ws;
      assert s == s[..n] + s[n..];
      NonSpaceAppend(s[..n], s[n..]);
      NonSpaceOfWord(s[..n]);
    }
  }

  lemma NonSpaceOfWord(w: string)
    requires forall k :: 0 <= k < |w| ==> !IsSpace(w[k])
    ensures NonSpace(w) == w
  {
    if |w| > 0 {
      NonSpaceOfWord(w[1..]);
    }
  }

  /** The elements of `s` that satisfy `keep`, in their original order. */
  function Filter<T(!new)>(s: seq<T>, keep: T -> bool): (r: seq<T>)
    ensures |r| <= |s|
    ensures forall x :: x in r <==> x in s && keep(x)
  {
    if |s| == 0 then []
    else (if keep(s[0]) then [s[0]] else []) + Filter(s[1..], keep)
  }

  /** `f` applied to the elements of `s` that satisfy `keep`, in their
      original order. */
  function FilterMap<T(!new), U(!new)>(s: seq<T>, keep: T -> bool, f: T -> U): (r: seq<U>)
    ensures |r| == |Filter(s, keep)|
    ensures forall x :: x in s && keep(x) ==> f(x) in r
    ensures forall y :: y in r ==> exists x :: x in s && keep(x) && y == f(x)
    decreases |s|
  {
    if |s| == 0 then []
    else
      assert forall x :: x in s[1..] ==> x in s;
      (if keep(s[0]) then [f(s[0])] else []) + FilterMap(s[1..], keep, f)
  }

  /** `FilterMap` works one element at a time: two sequences end to end give
      their results end to end. */
  lemma {:induction false} FilterMapAppend<T(!new), U(!new)>(xs: seq<T>, ys: seq<T>, keep: T -> bool, f: T -> U)
    ensures FilterMap(xs + ys, keep, f) == FilterMap(xs, keep, f) + FilterMap(ys, keep, f)
    decreases |xs|
  {
    if |xs| > 0 {
      var head := if keep(xs[0]) then [f(xs[0])] else [];
      assert (xs + ys)[0] == xs[0];
      assert (xs + ys)[1..] == xs[1..] + ys;
      assert FilterMap(xs + ys, keep, f) == head + FilterMap(xs[1..] + ys, keep, f);
      FilterMapAppend(xs[1..], ys, keep, f);
    } else {
      assert xs + ys == ys;
    }
  }

  lemma FilterCons<T(!new)>(s: seq<T>, keep: T -> bool)
    requires |s| > 0
    ensures Filter(s, keep) == (if keep(s[0]) then [s[0]] else []) + Filter(s[1..], keep)
  {
  }

  lemma FilterAppend<T(!new)>(a: seq<T>, b: seq<T>, keep: T -> bool)
    ensures Filter(a + b, keep) == Filter(a, keep) + Filter(b, keep)
  {
    if |a| > 0 {
      assert (a + b)[1..] == a[1..] + b;
      FilterAppend(a[1..], b, keep);
    } else {
      assert a + b == b;
    }
  }
}

=== FILE: utf8.dfy ===
/** UTF-8 as section 3 of RFC 3629 defines it: the encoding Python's
    `unicode.encode('utf-8')` produces, and its inverse. */
module Utf8 {
  import opened Wrappers

  newtype Byte = x: int | 0 <= x < 256

  /** A continuation byte `10xxxxxx` carrying the six bits `v`. */
  function Cont(v: int): Byte
    requires 0 <= v < 64
  {
    (0x80 + v) as Byte
  }

  /** The bytes of one code point. */
  function EncodeChar(c: char): (bs: seq<Byte>)
    ensures 1 <= |bs| <= 4
  {
    var n := c as int;
    if n < 0x80 then [n as Byte]
    else if n < 0x800 then [(0xC0 + n / 64) as Byte, Cont(n % 64)]
    else if n < 0x10000 then [(0xE0 + n / 4096) as Byte, Cont(n / 64 % 64), Cont(n % 64)]
    else [(0xF0 + n / 262144) as Byte, Cont(n / 4096 % 64), Cont(n / 64 % 64), Cont(n % 64)]
  }

  function Encode(s: string): seq<Byte> {
    if |s| == 0 then [] else EncodeChar(s[0]) + Encode(s[1..])
  }

  lemma {:induction false} EncodeAppend(a: string, b: string)
    ensures Encode(a + b) == Encode(a) + Encode(b)
  {
    if |a| > 0 {
      assert (a + b)[1..] == a[1..] + b;
      EncodeAppend(a[1..], b);
    } else {
      assert a + b == b;
    }
  }

  /** Text made of ASCII characters encodes to one byte per character. */
  lemma {:induction false} EncodeAsciiLength(s: string)
    requires forall k :: 0 <= k < |s| ==> s[k] as int < 0x80
    ensures |Encode(s)| == |s|
  {
    if |s| > 0 {
      EncodeAsciiLength(s[1..]);
    }
  }

  predicate IsCont(b: Byte) { 0x80 <= b < 0xC0 }

  /** The code point a well-formed sequence starting at its first byte
      carries, and the number of bytes it takes. */
  function DecodeFirst(bs: seq<Byte>): Option<(char, nat)> {
    if |bs| == 0 then None
    else
      var b0 := bs[0] as int;
      if b0 < 0x80 then Some((b0 as char, 1))
      else if 0xC0 <= b0 < 0xE0 && |bs| >= 2 && IsCont(bs[1]) then
        var n := (b0 - 0xC0) * 64 + (bs[1] as int - 0x80);
        if 0x80 <= n then Some((n as char, 2)) else None
      else if 0xE0 <= b0 < 0xF0 && |bs| >= 3 && IsCont(bs[1]) && IsCont(bs[2]) then
        var n := (b0 - 0xE0) * 4096 + (bs[1] as int - 0x80) * 64 + (bs[2] as int - 0x80);
        if 0x800 <= n && !(0xD800 <= n < 0xE000) then Some((n as char, 3)) else None
      else if 0xF0 <= b0 < 0xF8 && |bs| >= 4 && IsCont(bs[1]) && IsCont(bs[2]) && IsCont(bs[3]) then
        var n := (b0 - 0xF0) * 262144 + (bs[1] as int - 0x80) * 4096 + (bs[2] as int - 0x80) * 64 + (bs[3] as int - 0x80);
        if 0x10000 <= n < 0x110000 then Some((n as char, 4)) else None
      else None
  }

  /** The text a byte sequence encodes, if it is well-formed UTF-8. */
  function Decode(bs: seq<Byte>): Option<string>
    decreases |bs|
  {
    if |bs| == 0 then Some("")
    else match DecodeFirst(bs)
      case None => None
      case Some((c, len)) =>
        if len == 0 || len > |bs| then None
        else match Decode(bs[len..])
          case None => None
          case Some(rest) => Some([c] + rest)
  }

  lemma DecodeEncodeChar(c: char, tail: seq<Byte>)
    ensures DecodeFirst(EncodeChar(c) + tail) == Some((c, |EncodeChar(c)|))
  {
    var n := c as int;
    if n < 0x80 {
    } else if n < 0x800 {
      DecodeTwo(c, tail);
    } else if n < 0x10000 {
      DecodeThree(c, tail);
    } else {
      DecodeFour(c, tail);
    }
  }

  lemma DecodeTwo(c: char, tail: seq<Byte>)
    requires 0x80 <= c as int < 0x800
    ensures DecodeFirst(EncodeChar(c) + tail) == Some((c, 2))
  {
    var n := c as int;
    var bs := EncodeChar(c) + tail;
    assert bs[0] as int == 0xC0 + n / 64 && bs[1] as int == 0x80 + n % 64;
    assert n == (n / 64) * 64 + n % 64;
  }

  lemma DecodeThree(c: char, tail: seq<Byte>)
    requires 0x800 <= c as int < 0x10000
    ensures DecodeFirst(EncodeChar(c) + tail) == Some((c, 3))
  {
    var n := c as int;
    var bs := EncodeChar(c) + tail;
    var a, b, d := n / 4096, n / 64 % 64, n % 64;
    assert bs[0] as int == 0xE0 + a && bs[1] as int == 0x80 + b && bs[2] as int == 0x80 + d;
    assert n == a * 4096 + b * 64 + d by {
      assert n / 64 == a * 64 + b;
    }
  }

  lemma DecodeFour(c: char, tail: seq<Byte>)
    requires 0x10000 <= c as int
    ensures DecodeFirst(EncodeChar(c) + tail) == Some((c, 4))
  {
    var n := c as int;
    var bs := EncodeChar(c) + tail;
    var a, b, d, e := n / 262144, n / 4096 % 64, n / 64 % 64, n % 64;
    assert bs[0] as int == 0xF0 + a && bs[1] as int == 0x80 + b;
    assert bs[2] as int == 0x80 + d && bs[3] as int == 0x80 + e;
    assert n == a * 262144 + b * 4096 + d * 64 + e by {
      var q := n / 64;
      assert q / 64 == n / 4096 && (n / 4096) / 64 == a;
      assert n / 4096 == a * 64 + b;
      assert q == (n / 4096) * 64 + d;
      assert n == q * 64 + e;
    }
  }

  /** Decoding undoes encoding. */
  lemma {:induction false} DecodeEncode(s: string)
    ensures Decode(Encode(s)) == Some(s)
  {
    if |s| > 0 {
      var head := EncodeChar(s[0]);
      var rest := Encode(s[1..]);
      DecodeEncodeChar(s[0], rest);
      DecodeEncode(s[1..]);
      assert (head + rest)[|head|..] == rest;
      assert [s[0]] + s[1..] == s;
    }
  }
}

=== FILE: wrappers.dfy ===
/** Option and Result datatypes shared by every module of the model.
    A Python `None` becomes `None`, and a raised exception becomes `Err`. */
module Wrappers {

  datatype Option<+T> = None | Some(value: T) {
    predicate IsFailure() { None? }

    function PropagateFailure<U>(): Option<U>
      requires None?
    {
      None
    }

    function Extract(): T
      requires Some?
    {
      value
    }

    function GetOr(default: T): T {
      if Some? then value else default
    }

    /** A missing value becomes the error `e`. */
    function ToResult<E>(e: E): Result<T, E> {
      if Some? then Ok(value) else Err(e)
    }
  }

  datatype Result<+T, +E> = Ok(value: T) | Err(error: E) {
    predicate IsFailure() { Err? }

    function PropagateFailure<U>(): Result<U, E>
      requires Err?
    {
      Err(error)
    }

    function Extract(): T
      requires Ok?
    {
      value
    }
  }
}
